=== FILE: README.md ===
# TEngine editor and runtime core, modelled in Dafny

This project models the core of TEngineMiniGame, a Unity game built on the TEngine framework. The model covers seven parts:

- **Sprite-atlas bookkeeping** (`EditorSpriteSaveInfo`). It records which sprite paths belong to which atlas. It names atlases from the configured source roots, root-child directories and single-atlas keywords. It keeps two dirty sets: plain regeneration and "create new".
- **The asset-import hook** (`SpritePostprocessor`). It filters and validates imported, deleted and moved sprites, and passes every kept asset to the bookkeeping in batch order:
  - a file name with a space, or a duplicate file name below the same root, queues the asset for deletion;
  - a texture importer that is not set to Sprite is fixed and the asset reimported.
- **The reference pool** (`ReferenceCollection`). This is a FIFO queue of free objects of one type, with six usage counters.
- **The type index** (`CodeTypeModule`). It maps type full names to types, and attribute kinds to sets of concrete types.
- **The UI script generator settings** (`ScriptGeneratorSetting`, `ScriptGenerateRuler`), plus the naming-rule captions of the UI settings page and the component list of `UIBindComponent`.
- **The listener tables** of `ProcedureBase` and `ControllerBase`.
- **The procedure state machine**: Entrance, ChangeScene (a 100-update countdown), Home and Battle. The procedures talk to each other through the state machine's blackboard.

Exceptions the C# code throws are results of the model:

- `Outcome` keeps the state changed before the throw.
- `Result` and `Change` are used where nothing has changed yet.

Editor queries are parameters: `AssetQueries` holds the subfolders and file listings, and `World` holds the texture importers. Unordered C# collections, such as a `HashSet` drained with `First()` or a dictionary iterated with `foreach`, are walked by nondeterministic choice. Their contracts hold for every order.

Files:

- `wrappers.dfy`: modules `Wrappers` and `Seqs`.
- `strings.dfy`: module `Strings`.
- `paths.dfy`: module `Paths`.
- `atlas_config.dfy`: module `AtlasConfig`.
- `atlas_naming.dfy`: module `AtlasNaming`.
- `sprite_save_info.dfy`: module `SpriteSaveInfo`.
- `sprite_postprocessor.dfy`: module `SpritePostprocessor`.
- `reference_pool.dfy`: module `ReferencePool`.
- `code_types.dfy`: module `CodeTypes`.
- `script_generator.dfy`: module `ScriptGenerator`.
- `rule_display.dfy`: module `RuleDisplay`.
- `ui_bind.dfy`: module `UIBind`.
- `event_registry.dfy`: module `EventRegistry`.
- `game_flow.dfy`: module `GameFlow`.

## Model

| member | source | states |
|---|---|---|
| AtlasConfig.ImageFileByExtension | UnityProject/Assets/TEngine/Editor/AtlasMakerEditor/EditorSpriteSaveInfo.cs:503-507 | A file counts as an image exactly when its extension, lower-cased, is .png, .jpg or .jpeg. So `a.PNG` qualifies. |
| AtlasConfig.EmptyKeywordMatchesAll | UnityProject/Assets/TEngine/Editor/AtlasMakerEditor/EditorSpriteSaveInfo.cs:497-501 | An empty exclude keyword is found in every path, because `IndexOf("")` is 0. So such a keyword excludes everything. |
| AtlasConfig.KeywordAnywhere | UnityProject/Assets/TEngine/Editor/AtlasMakerEditor/EditorSpriteSaveInfo.cs:492-501 | A keyword matches a path wherever it occurs in it, at any position. |
| AtlasConfig.ExcludeFolderBoundary | UnityProject/Assets/TEngine/Editor/AtlasMakerEditor/EditorSpriteSaveInfo.cs:675-686 | Everything below an exclude folder is excluded. A sibling whose name merely extends the folder's name is not excluded by that folder. |
| AtlasConfig.Canonical | UnityProject/Assets/TEngine/Editor/AtlasMakerEditor/EditorSpriteSaveInfo.cs:471 | A root after `Replace("\\","/").TrimEnd('/')` has no backslash, does not end in '/', and is no longer than the root as written. |
| AtlasNaming.FirstUnder | UnityProject/Assets/TEngine/Editor/AtlasMakerEditor/EditorSpriteSaveInfo.cs:469-475 | Gives the index of the first root the path lies strictly below, with no earlier root matching. It is None exactly when no root matches. |
| AtlasNaming.GetAtlasNameFirstRoot | UnityProject/Assets/TEngine/Editor/AtlasMakerEditor/EditorSpriteSaveInfo.cs:465-490 | Only the first root the path lies below decides the atlas name, even when it yields null and a later root would have named the file. Any name contains '_'. |
| AtlasNaming.GetAtlasNameOfNestedFile | UnityProject/Assets/TEngine/Editor/AtlasMakerEditor/EditorSpriteSaveInfo.cs:476-488 | For root/d1/…/dk/file the atlas is the root folder's name followed by d1 … dk, joined with '_'. |
| AtlasNaming.GetAtlasNameOfTopLevelFile | UnityProject/Assets/TEngine/Editor/AtlasMakerEditor/EditorSpriteSaveInfo.cs:477-481 | A file directly inside the matching root has no atlas (null). |
| AtlasNaming.SourceRootsTakePrecedence | UnityProject/Assets/TEngine/Editor/AtlasMakerEditor/EditorSpriteSaveInfo.cs:467-469 | The source roots are tried before the root-child directories. When a source root matches, the root-child list does not change the answer. |
| AtlasNaming.GetAtlasName | UnityProject/Assets/TEngine/Editor/AtlasMakerEditor/EditorSpriteSaveInfo.cs:465-490 | A name exists only for a path below a source or root-child directory, and it always contains '_'. |
| AtlasNaming.ShouldProcessExclusions | UnityProject/Assets/TEngine/Editor/AtlasMakerEditor/EditorSpriteSaveInfo.cs:492-501 | A path holding an exclude keyword is never processed. |
| AtlasNaming.SingleAtlasByKeyword | UnityProject/Assets/TEngine/Editor/AtlasMakerEditor/EditorSpriteSaveInfo.cs:639-644 | A path holding a single-atlas keyword asks for a single atlas exactly when it lies in no exclude folder. |
| AtlasNaming.RootChildAtlasByKeyword | UnityProject/Assets/TEngine/Editor/AtlasMakerEditor/EditorSpriteSaveInfo.cs:646-651 | A path holding a root-child directory name asks for a root-child atlas exactly when it lies in no exclude folder. |
| AtlasNaming.GetSingleAtlasName | UnityProject/Assets/TEngine/Editor/AtlasMakerEditor/EditorSpriteSaveInfo.cs:613-637 | A single-atlas name exists exactly when the path lies below a source root and the ordinary atlas name exists. It then equals that name plus '_' and the file's stem. |
| AtlasNaming.GetAtlasNameForDirectory | UnityProject/Assets/TEngine/Editor/AtlasMakerEditor/EditorSpriteSaveInfo.cs:596-611 | Only source roots are consulted: a directory below none of them has no name. Any name it gives contains '_'. |
| AtlasNaming.DirectoryNameOfCleanRoot | UnityProject/Assets/TEngine/Editor/AtlasMakerEditor/EditorSpriteSaveInfo.cs:603-606 | For a root written without a trailing separator, the directory's atlas is the root's folder name followed by every segment below it, joined with '_'. |
| AtlasNaming.DirectoryNameOfTrailingSlashRoot | UnityProject/Assets/TEngine/Editor/AtlasMakerEditor/EditorSpriteSaveInfo.cs:600-606 | The test uses the trimmed root, but the slice and the folder name use the root as written. So root "A/" names "A/bc/d" as "_c_d" and "A/b" as "_". |
| AtlasNaming.DirectoryNameOfDoubleSlashRoot | UnityProject/Assets/TEngine/Editor/AtlasMakerEditor/EditorSpriteSaveInfo.cs:603 | With root "A//" the slice starts past the end of "A/b", and `Substring` throws ArgumentOutOfRange. |
| AtlasNaming.GetRootChildDirAtlasName | UnityProject/Assets/TEngine/Editor/AtlasMakerEditor/EditorSpriteSaveInfo.cs:653-673 | A name exists exactly when some root-child directory and one of its subfolders both prefix the path (no '/' boundary). The first such pair in iteration order, directories outer and subfolders inner, decides the name "<root folder>_<subfolder name>". |
| AtlasNaming.ResolvedNamesAreNonEmpty | UnityProject/Assets/TEngine/Editor/AtlasMakerEditor/EditorSpriteSaveInfo.cs:44-45 | None of the three naming functions yields "". So `IsNullOrEmpty` only ever catches null. |
| AtlasNaming.ResolveAtlasName | UnityProject/Assets/TEngine/Editor/AtlasMakerEditor/EditorSpriteSaveInfo.cs:42-54 | The steps, in order: skip a path that is not processed or has no atlas; otherwise the single-atlas override wins; then the root-child override; otherwise the plain name. An override that yields null is reported as such. |
| SpriteSaveInfo.MarkDirty | UnityProject/Assets/TEngine/Editor/AtlasMakerEditor/EditorSpriteSaveInfo.cs:509-529 | Only the selected dirty set grows, and by this name alone. A create-new request always lands. A plain request is absorbed when the name already awaits recreation. |
| SpriteSaveInfo.MarkDirtyIdempotent | UnityProject/Assets/TEngine/Editor/AtlasMakerEditor/EditorSpriteSaveInfo.cs:517-528 | Marking a name twice is marking it once. |
| SpriteSaveInfo.PlainAfterCreateNewIsAbsorbed | UnityProject/Assets/TEngine/Editor/AtlasMakerEditor/EditorSpriteSaveInfo.cs:521-527 | A plain request after a create-new request for the same name changes nothing. |
| SpriteSaveInfo.WalkUp | UnityProject/Assets/TEngine/Editor/AtlasMakerEditor/EditorSpriteSaveInfo.cs:183-194 | Walking up from a directory marks the atlas of every ancestor that still starts with the root, up to and including the root. A throw means some directory on that chain failed to name. Only atlases named by the chain are added, and only to the selected dirty set. A plain mark never adds a name that already awaited recreation. |
| SpriteSaveInfo.MarkParentAtlasesDirty | UnityProject/Assets/TEngine/Editor/AtlasMakerEditor/EditorSpriteSaveInfo.cs:169-196 | A sprite with no directory changes nothing. Otherwise, unless a naming throws, the ancestors-chain of the sprite's directory under every configured root is marked. Only names from those chains are added, and the atlas map is unchanged. A plain mark never adds a name that already awaited recreation. |
| SpriteSaveInfo.MarkFromRoots | UnityProject/Assets/TEngine/Editor/AtlasMakerEditor/EditorSpriteSaveInfo.cs:176-195 | The roots are walked in order and the first throw stops the loop. Without a throw, the chain under every root is marked. With one, some root's chain holds a directory whose naming threw. A plain mark never adds a name that already awaited recreation. |
| SpriteSaveInfo.ChainOfNestedDirectory | UnityProject/Assets/TEngine/Editor/AtlasMakerEditor/EditorSpriteSaveInfo.cs:183-194 | From root/a/b the walk visits root/a/b, then root/a, then the root itself. |
| SpriteSaveInfo.AddToAtlas | UnityProject/Assets/TEngine/Editor/AtlasMakerEditor/EditorSpriteSaveInfo.cs:56-67 | The atlas entry is created if missing, and the path ends up in it. A present path changes nothing. An absent path is appended, and the atlas then awaits generation. Other atlases and duplicate-freedom are kept. |
| SpriteSaveInfo.AddToAtlasMarksParents | UnityProject/Assets/TEngine/Editor/AtlasMakerEditor/EditorSpriteSaveInfo.cs:62-66 | Adding an absent path also marks the parent atlases as `MarkParentAtlasesDirty` does: every root's chain above the sprite's directory is marked, or naming one of them throws (a sprite with no directory never throws). Only the selected dirty set grows, by this atlas and the chains' names. A plain mark never adds a name that already awaited recreation. |
| SpriteSaveInfo.OnImportSprite | UnityProject/Assets/TEngine/Editor/AtlasMakerEditor/EditorSpriteSaveInfo.cs:39-68 | After normalising '\' to '/': a skipped path changes nothing; a null override name throws ArgumentNull with the state unchanged; otherwise the path is added to the settled atlas. |
| SpriteSaveInfo.RemoveFromAtlas | UnityProject/Assets/TEngine/Editor/AtlasMakerEditor/EditorSpriteSaveInfo.cs:86-94 | Only a present path is removed (its first occurrence), and only then is the atlas marked. The atlas keys and the other atlases are unchanged. |
| SpriteSaveInfo.RemoveFromAtlasMarksParents | UnityProject/Assets/TEngine/Editor/AtlasMakerEditor/EditorSpriteSaveInfo.cs:88-93 | Removing a present path also marks the parent atlases as `MarkParentAtlasesDirty` does, unless naming one of them throws. Only the selected dirty set grows, by this atlas and the chains' names. A plain mark never adds a name that already awaited recreation. |
| SpriteSaveInfo.OnDeleteSprite | UnityProject/Assets/TEngine/Editor/AtlasMakerEditor/EditorSpriteSaveInfo.cs:70-95 | Settles the atlas name like import does, never creates an atlas entry, and removes the path from the settled atlas. |
| SpriteSaveInfo.ImportIsIdempotent | UnityProject/Assets/TEngine/Editor/AtlasMakerEditor/EditorSpriteSaveInfo.cs:62-67 | Importing the same path again leaves the state exactly as it is. |
| SpriteSaveInfo.DeleteUndoesImport | UnityProject/Assets/TEngine/Editor/AtlasMakerEditor/EditorSpriteSaveInfo.cs:39-95 | Deleting a freshly imported sprite gives its atlas back the list it had. |
| SpriteSaveInfo.ProcessDirtyAtlases | UnityProject/Assets/TEngine/Editor/AtlasMakerEditor/EditorSpriteSaveInfo.cs:207-239 | Whatever the iteration order: every plain-dirty name is generated once with createNew false, then every create-new name once with createNew true. Both sets end empty. |
| SpriteSaveInfo.ClearCache | UnityProject/Assets/TEngine/Editor/AtlasMakerEditor/EditorSpriteSaveInfo.cs:161-167 | Afterwards no atlas is known and none awaits generation. |
| SpriteSaveInfo.ShouldUpdateAtlas | UnityProject/Assets/TEngine/Editor/AtlasMakerEditor/EditorSpriteSaveInfo.cs:531-535 | Every dirty atlas is regenerated, whatever its name. |
| SpritePostprocessor.ShouldProcessAssetIsStricter | UnityProject/Assets/TEngine/Editor/AtlasMakerEditor/SpritePostprocessor.cs:222-257 | A '/'-separated path the hook accepts is one the bookkeeping processes, and it lies below a root the naming uses. |
| SpritePostprocessor.EmptyKeywordRejectsAll | UnityProject/Assets/TEngine/Editor/AtlasMakerEditor/SpritePostprocessor.cs:233-237 | An empty exclude keyword turns the hook off for every path. |
| SpritePostprocessor.ShowProcessPathBelowRoot | UnityProject/Assets/TEngine/Editor/AtlasMakerEditor/SpritePostprocessor.cs:243-257 | Every path below a configured source or root-child directory is shown to the bookkeeping, and the naming starts from that directory or an earlier one. |
| SpritePostprocessor.HookSkipsExclusions | UnityProject/Assets/TEngine/Editor/AtlasMakerEditor/SpritePostprocessor.cs:222-241 | The hook skips every path holding an exclude keyword and every path below an exclude folder. |
| SpritePostprocessor.HookSkipsPackages | UnityProject/Assets/TEngine/Editor/AtlasMakerEditor/SpritePostprocessor.cs:222-231 | The hook never touches the empty path or a path under "Packages/". |
| SpritePostprocessor.CheckFileNameContainsSpace | UnityProject/Assets/TEngine/Editor/AtlasMakerEditor/SpritePostprocessor.cs:130-141 | True exactly when the file's stem contains a space, and then the asset is queued for deletion. Otherwise nothing changes. |
| SpritePostprocessor.LastPrefixRoot | UnityProject/Assets/TEngine/Editor/AtlasMakerEditor/SpritePostprocessor.cs:147-158 | A non-empty result is a root the path starts with as a bare prefix, and no later root matches. When such a last match exists it is the result; when no root matches the result is "". |
| SpritePostprocessor.DuplicateRootIsBarePrefix | UnityProject/Assets/TEngine/Editor/AtlasMakerEditor/SpritePostprocessor.cs:150-158 | A later matching root replaces an earlier one. A root matches without a '/' boundary, so `Assets/Art` is chosen for `Assets/Artwork/…`. |
| SpritePostprocessor.CheckDuplicateAssetName | UnityProject/Assets/TEngine/Editor/AtlasMakerEditor/SpritePostprocessor.cs:143-188 | No root: false. A root whose directory is missing: DirectoryNotFound. Otherwise true exactly when another image below the root has the same stem, ignoring case, and then the asset is queued for deletion. |
| SpritePostprocessor.ChangeSpriteTextureType | UnityProject/Assets/TEngine/Editor/AtlasMakerEditor/SpritePostprocessor.cs:93-128 | True exactly when an importer exists and its type is not Sprite, or mipmaps are checked and differ. Afterwards the type is Sprite and mipmaps match the setting, and only this importer changed. A change triggers a reimport. |
| SpritePostprocessor.ChangeSpriteTextureTypeSettles | UnityProject/Assets/TEngine/Editor/AtlasMakerEditor/SpritePostprocessor.cs:101-127 | Once fixed, an importer needs no further change. |
| SpritePostprocessor.Rejects | UnityProject/Assets/TEngine/Editor/AtlasMakerEditor/SpritePostprocessor.cs:83 | The checks short-circuit: a spaced name is queued and skipped first. Otherwise a missing root directory throws, a duplicate is queued and skipped, and any other asset is kept after its importer is fixed. A kept asset leaves the world unchanged, and the bookkeeping is never touched. |
| SpritePostprocessor.Invoke | UnityProject/Assets/TEngine/Editor/AtlasMakerEditor/SpritePostprocessor.cs:86-88 | A skipped path changes nothing and a null override name throws ArgumentNull. Otherwise the bookkeeping state is the processor's, and the run throws exactly when the processor does. A deletion never adds or drops an atlas entry. Nothing outside the bookkeeping changes. |
| SpritePostprocessor.ProcessOne | UnityProject/Assets/TEngine/Editor/AtlasMakerEditor/SpritePostprocessor.cs:79-89 | An unprocessable asset is ignored. With `isDelete`, or when the checks keep it, the asset reaches the processor. A rejected asset skips the processor. A throw in the checks stops the batch with the world unchanged. Only the asset itself can be queued. |
| SpritePostprocessor.ProcessAssets | UnityProject/Assets/TEngine/Editor/AtlasMakerEditor/SpritePostprocessor.cs:75-91 | A null array is a no-op. Only paths of the batch itself can join the deletion queue. |
| SpritePostprocessor.ForEachSnoc | UnityProject/Assets/TEngine/Editor/AtlasMakerEditor/SpritePostprocessor.cs:77-90 | Adding an asset at the end of a batch runs it on the state the earlier assets left, unless they threw. |
| SpritePostprocessor.ProcessAssetsSnoc | UnityProject/Assets/TEngine/Editor/AtlasMakerEditor/SpritePostprocessor.cs:75-91 | Every asset of a batch is passed, in order, to the per-asset step, and a throw stops the batch. |
| SpritePostprocessor.NothingProcessableIsNoOp | UnityProject/Assets/TEngine/Editor/AtlasMakerEditor/SpritePostprocessor.cs:79-81 | A batch with nothing processable leaves the world as it was. |
| SpritePostprocessor.SpacedNameIsQueuedNotProcessed | UnityProject/Assets/TEngine/Editor/AtlasMakerEditor/SpritePostprocessor.cs:83-86 | A processable asset whose stem holds a space is queued for deletion, and nothing else changes. |
| SpritePostprocessor.DeletionIsValidatedLikeImport | UnityProject/Assets/TEngine/Editor/AtlasMakerEditor/SpritePostprocessor.cs:66-70 | Deletions are passed without `isDelete`. So a deleted sprite that a check rejects stays in its atlas list. |
| SpritePostprocessor.DeleteAndMark | UnityProject/Assets/TEngine/Editor/AtlasMakerEditor/SpritePostprocessor.cs:202-207 | A moved-from path is deleted from the bookkeeping, then its parents are marked for recreation. A throw stops the step. |
| SpritePostprocessor.ImportAndMark | UnityProject/Assets/TEngine/Editor/AtlasMakerEditor/SpritePostprocessor.cs:215-217 | A moved-to path is imported, then its parents are marked plain dirty. A throw stops the step. |
| SpritePostprocessor.MoveFrom | UnityProject/Assets/TEngine/Editor/AtlasMakerEditor/SpritePostprocessor.cs:202-207 | A moved-from path that is not processable is ignored. Otherwise it is deleted and its parents are marked for recreation, with no validation and nothing queued. |
| SpritePostprocessor.MoveTo | UnityProject/Assets/TEngine/Editor/AtlasMakerEditor/SpritePostprocessor.cs:209-218 | A moved-to path is validated like an import. A rejected path is skipped, and only it can be queued. A failing duplicate-name check (a missing root directory) throws with the world unchanged. A kept path is imported and its parents marked. |
| SpritePostprocessor.ProcessMovedAssets | UnityProject/Assets/TEngine/Editor/AtlasMakerEditor/SpritePostprocessor.cs:196-220 | Either array null: nothing happens. Only moved-to paths can join the deletion queue. |
| SpritePostprocessor.MoveEachSnoc | UnityProject/Assets/TEngine/Editor/AtlasMakerEditor/SpritePostprocessor.cs:198-219 | Adding a moved-from path at the end runs its pair on the state the earlier pairs left, unless they threw. |
| SpritePostprocessor.ProcessMovedAssetsSnoc | UnityProject/Assets/TEngine/Editor/AtlasMakerEditor/SpritePostprocessor.cs:196-220 | Each moved-from path is handled before its moved-to partner at the same index. A missing partner throws IndexOutOfRange, and a throw stops the loop. |
| SpritePostprocessor.ShortMovedArrayThrows | UnityProject/Assets/TEngine/Editor/AtlasMakerEditor/SpritePostprocessor.cs:200-209 | A moved-to array shorter than the moved-from array throws IndexOutOfRange at the first missing index. |
| SpritePostprocessor.ProcessAssetChanges | UnityProject/Assets/TEngine/Editor/AtlasMakerEditor/SpritePostprocessor.cs:54-73 | Imports run first, then deletions on the imports' state, then moves on the deletions' state. The first throw ends the batch. Every queued path comes from the batch or was queued before. |
| SpritePostprocessor.OnPostprocessAllAssets | UnityProject/Assets/TEngine/Editor/AtlasMakerEditor/SpritePostprocessor.cs:15-52 | The queue is reset first. With auto-generation off nothing else happens. Otherwise the world is the one the batch left behind, an exception is reported exactly when the batch threw, and every queued asset is deleted. Each deleted asset is one of the batch's paths. |
| SpritePostprocessor.EmptyBatchIsNoOp | UnityProject/Assets/TEngine/Editor/AtlasMakerEditor/SpritePostprocessor.cs:15-52 | A batch with no arrays only resets the queue: nothing is deleted and no exception is reported. |
| ReferencePool.Create | UnityProject/Assets/GameScripts/HotFix/GameLogic/Core/Pool/ReferenceCollection.cs:19-28 | A new collection is empty and satisfies the counter equations. |
| ReferencePool.Acquire | UnityProject/Assets/GameScripts/HotFix/GameLogic/Core/Pool/ReferenceCollection.cs:86-100 | Counts one acquisition. It hands out the front of the queue, or a new instance of the reference type when the queue is empty (counted as added). The counter equations are kept. |
| ReferencePool.AcquireAs | UnityProject/Assets/GameScripts/HotFix/GameLogic/Core/Pool/ReferenceCollection.cs:65-84 | A wrong `T` throws before anything changes. Otherwise it acts as `Acquire`, except that a queued object of another runtime type fails the cast after being dequeued and counted. |
| ReferencePool.Release | UnityProject/Assets/GameScripts/HotFix/GameLogic/Core/Pool/ReferenceCollection.cs:102-122 | A reference already in the queue is rejected with nothing changed. Otherwise it joins the back, and the release and using counters move by one. |
| ReferencePool.Add | UnityProject/Assets/GameScripts/HotFix/GameLogic/Core/Pool/ReferenceCollection.cs:141-151 | The add counter moves by `count` whatever its sign. A positive count enqueues that many new instances. A non-negative count keeps the counter equations. |
| ReferencePool.AddAs | UnityProject/Assets/GameScripts/HotFix/GameLogic/Core/Pool/ReferenceCollection.cs:124-139 | A wrong `T` throws with nothing changed; otherwise it acts as `Add`. |
| ReferencePool.Remove | UnityProject/Assets/GameScripts/HotFix/GameLogic/Core/Pool/ReferenceCollection.cs:153-168 | Drops min(count, length) references from the front and counts them. A negative count drops none. |
| ReferencePool.RemoveAll | UnityProject/Assets/GameScripts/HotFix/GameLogic/Core/Pool/ReferenceCollection.cs:170-177 | Empties the queue and counts what it held. |
| ReferencePool.RemoveAllIsRemoveOfLength | UnityProject/Assets/GameScripts/HotFix/GameLogic/Core/Pool/ReferenceCollection.cs:153-177 | `RemoveAll` is `Remove` of the current length. |
| ReferencePool.NegativeAddBreaksConsistency | UnityProject/Assets/GameScripts/HotFix/GameLogic/Core/Pool/ReferenceCollection.cs:141-151 | `Add(-1)` on a consistent collection breaks the link between the queue length and the counters. |
| ReferencePool.FirstReleasedFirstAcquired | UnityProject/Assets/GameScripts/HotFix/GameLogic/Core/Pool/ReferenceCollection.cs:86-122 | The queue is first in, first out: of two references released in turn, the first is acquired first. |
| ReferencePool.AcquireThenRelease | UnityProject/Assets/GameScripts/HotFix/GameLogic/Core/Pool/ReferenceCollection.cs:86-122 | Releasing what was just acquired restores the using count and the queue's contents (the front moves to the back). |
| ReferencePool.DoubleReleaseIsRejected | UnityProject/Assets/GameScripts/HotFix/GameLogic/Core/Pool/ReferenceCollection.cs:112-115 | A reference released once is refused a second time. |
| CodeTypes.Collect | UnityProject/Assets/GameScripts/HotFix/GameLogic/Module/CodeType/CodeTypeModule.cs:16-22 | The keys are exactly the full names that occur, and each maps to a type of that name. |
| CodeTypes.CollectKeepsLast | UnityProject/Assets/GameScripts/HotFix/GameLogic/Module/CodeType/CodeTypeModule.cs:19-20 | Under a shared name, the last type visited is kept. |
| CodeTypes.GetAssemblyTypes | UnityProject/Assets/GameScripts/HotFix/GameLogic/Module/CodeType/CodeTypeModule.cs:12-25 | Every full name of every assembly is a key. Its value is the last type of that name in visiting order. |
| CodeTypes.LaterAssemblyWins | UnityProject/Assets/GameScripts/HotFix/GameLogic/Module/CodeType/CodeTypeModule.cs:16-22 | Of two same-named types, the one from the later assembly is kept. |
| CodeTypes.GetTypes | UnityProject/Assets/GameScripts/HotFix/GameLogic/Module/CodeType/CodeTypeModule.cs:65-73 | An unknown attribute kind gets an empty set. |
| CodeTypes.AddToSets | UnityProject/Assets/GameScripts/HotFix/GameLogic/Module/CodeType/CodeTypeModule.cs:45-60 | The type joins the set of each of its attribute kinds, creating missing sets. The other sets are unchanged. |
| CodeTypes.Register | UnityProject/Assets/GameScripts/HotFix/GameLogic/Module/CodeType/CodeTypeModule.cs:37-60 | An abstract type is skipped. A concrete one is added to exactly the sets of its attribute kinds. |
| CodeTypes.Awake | UnityProject/Assets/GameScripts/HotFix/GameLogic/Module/CodeType/CodeTypeModule.cs:27-62 | Whatever the dictionary order: every collected type is indexed by name, and each attribute set gains exactly the concrete types carrying that attribute. |
| CodeTypes.AwakeKeepsSetsConcrete | UnityProject/Assets/GameScripts/HotFix/GameLogic/Module/CodeType/CodeTypeModule.cs:37-57 | Abstract types never enter a set, and the sets only grow. |
| ScriptGenerator.GettersOfDefaultsAndOfNoAsset | UnityProject/Assets/Editor/UIScriptGenerator/ScriptGeneratorSetting.cs:35-55 | A fresh asset answers the getters with its field initialisers: "GameLogic", "item" and UnderscorePrefix. Without an asset they answer "", "", UnderscorePrefix and null. |
| ScriptGenerator.GetScriptGenerateRule | UnityProject/Assets/Editor/UIScriptGenerator/ScriptGeneratorSetting.cs:111-118 | The asset's rule list, which may itself be null; null when there is no asset. |
| ScriptGenerator.GetUINameSpace | UnityProject/Assets/Editor/UIScriptGenerator/ScriptGeneratorSetting.cs:120-128 | The asset's namespace; "" when there is no asset. |
| ScriptGenerator.GetCodeStyle | UnityProject/Assets/Editor/UIScriptGenerator/ScriptGeneratorSetting.cs:130-138 | The asset's code style; UnderscorePrefix when there is no asset. |
| ScriptGenerator.GetWidgetName | UnityProject/Assets/Editor/UIScriptGenerator/ScriptGeneratorSetting.cs:143-151 | The asset's widget name; "" when there is no asset. |
| ScriptGenerator.GetGenCodePath | UnityProject/Assets/Editor/UIScriptGenerator/ScriptGeneratorSetting.cs:140 | Null exactly when there is no asset. |
| ScriptGenerator.GetImpCodePath | UnityProject/Assets/Editor/UIScriptGenerator/ScriptGeneratorSetting.cs:141 | Null exactly when there is no asset. |
| ScriptGenerator.GetPrefixNameByCodeStyle | UnityProject/Assets/Editor/UIScriptGenerator/ScriptGeneratorSetting.cs:153-161 | "_" exactly for UnderscorePrefix, "m_" for every other style. Either prefix ends with '_'. |
| ScriptGenerator.MaxStyleIsMPrefix | UnityProject/Assets/Editor/UIScriptGenerator/ScriptGeneratorSetting.cs:155-160 | The placeholder style behaves as MPrefix. |
| ScriptGenerator.AfterFirstUnderscore | UnityProject/Assets/Editor/UIScriptGenerator/ScriptGeneratorSetting.cs:176 | Gives what follows the first '_', or the whole text when there is none. |
| ScriptGenerator.AfterFirstUnderscoreOfPrefixed | UnityProject/Assets/Editor/UIScriptGenerator/ScriptGeneratorSetting.cs:176 | A rule "p_name" whose `p` has no '_' gives back `name`. |
| ScriptGenerator.FirstRuleFor | UnityProject/Assets/Editor/UIScriptGenerator/ScriptGeneratorSetting.cs:170-178 | Gives the first rule for the component; None means no rule names it. |
| ScriptGenerator.GetUIComponentWithoutPrefixName | UnityProject/Assets/Editor/UIScriptGenerator/ScriptGeneratorSetting.cs:163-180 | No asset: NullReference. A null rule list: "". Otherwise the name part of the first rule for the component, or "" when there is none. |
| ScriptGenerator.DefaultGameObjectName | UnityProject/Assets/Editor/UIScriptGenerator/ScriptGeneratorSetting.cs:67-89 | With the default rules, GameObject gives "go", because `m_go` precedes `m_item`. |
| ScriptGenerator.DefaultToggleName | UnityProject/Assets/Editor/UIScriptGenerator/ScriptGeneratorSetting.cs:67-89 | The default rules have no Toggle rule, so its name part is "". |
| ScriptGenerator.PrefixWithoutUnderscore | UnityProject/Assets/Editor/UIScriptGenerator/ScriptGeneratorSetting.cs:176 | A rule prefix without '_' is returned whole. |
| ScriptGenerator.FirstGenTypeIndex | UnityProject/Assets/Editor/UIScriptGenerator/ScriptGeneratorSetting.cs:189-197 | Gives the first entry with exactly this name; None means no entry has it. |
| ScriptGenerator.GetUIGenType | UnityProject/Assets/Editor/UIScriptGenerator/ScriptGeneratorSetting.cs:182-199 | A null or empty name gives null. Otherwise the first entry of that name, or null, and a missing asset throws. |
| ScriptGenerator.GenTypeLookupIsExact | UnityProject/Assets/Editor/UIScriptGenerator/ScriptGeneratorSetting.cs:189-197 | A found entry carries the requested name. Not finding one means no entry has it. |
| ScriptGenerator.DefaultGenTypeLookup | UnityProject/Assets/Editor/UIScriptGenerator/ScriptGeneratorSetting.cs:57-61 | The default list finds "UIWindow". The comparison is ordinal, so "uiwindow" is not found. |
| ScriptGenerator.RulerDefaultsToNonWidget | UnityProject/Assets/Editor/UIScriptGenerator/ScriptGenerateRuler.cs:25-38 | A rule built without `isUIWidget` is not a widget rule, and it keeps its prefix and component. |
| RuleDisplay.FirstHit | UnityProject/Assets/Editor/TEngineSettingsProvider/TEngineUISettingsProvider.cs:561-566 | Gives the caption of the first keyword group that occurs in the rule, with no earlier group occurring; None means no group occurs. |
| RuleDisplay.Abbreviate | UnityProject/Assets/Editor/TEngineSettingsProvider/TEngineUISettingsProvider.cs:568 | Text of 10 characters or fewer is kept. Longer text becomes its first 10 characters plus "...", 13 in all. |
| RuleDisplay.GetRuleDisplayName | UnityProject/Assets/Editor/TEngineSettingsProvider/TEngineUISettingsProvider.cs:556-569 | A null or empty rule gives "新规则". Otherwise the caption of the first matching keyword group in priority order, or else the abbreviated rule. |
| RuleDisplay.FirstHitOfKeywordRules | UnityProject/Assets/Editor/TEngineSettingsProvider/TEngineUISettingsProvider.cs:561-566 | The keyword table agrees with the chain of `Contains` tests as written. |
| RuleDisplay.PlainLabelIsShort | UnityProject/Assets/Editor/TEngineSettingsProvider/TEngineUISettingsProvider.cs:568 | Without a keyword the caption is at most 13 characters: the rule itself, or its first 10 characters plus "...". |
| RuleDisplay.LowerCaseButtonIsPlain | UnityProject/Assets/Editor/TEngineSettingsProvider/TEngineUISettingsProvider.cs:561-568 | The tests are case-sensitive: "m_btn" matches no keyword and is shown as itself. |
| RuleDisplay.RichTextIsTextRule | UnityProject/Assets/Editor/TEngineSettingsProvider/TEngineUISettingsProvider.cs:562 | "m_richText" contains "Text" and is captioned as a text rule. |
| UIBind.AddComponent | UnityProject/Assets/GameScripts/HotFix/GameLogic/Module/UIModule/UIBindComponent/UIComponentEditor.cs:15-21 | A null list stays null. Otherwise the component is in the result, the old list is a prefix of it, and nothing else is added. The length grows by one exactly when the component was absent. No duplicates are introduced. |
| UIBind.Clear | UnityProject/Assets/GameScripts/HotFix/GameLogic/Module/UIModule/UIBindComponent/UIComponentEditor.cs:23-26 | A null list stays null; any other list becomes empty. |
| UIBind.AddComponentIsIdempotent | UnityProject/Assets/GameScripts/HotFix/GameLogic/Module/UIModule/UIBindComponent/UIComponentEditor.cs:17-20 | Adding the same component again changes nothing. |
| UIBind.AddAll | UnityProject/Assets/GameScripts/HotFix/GameLogic/Module/UIModule/UIBindComponent/UIComponentEditor.cs:15-21 | Binding components one after another keeps the old list as a prefix, lists each component, adds nothing else, and keeps the list free of duplicates. |
| UIBind.ClearThenAddAll | UnityProject/Assets/GameScripts/HotFix/GameLogic/Module/UIModule/UIBindComponent/UIComponentEditor.cs:15-26 | After `Clear`, binding distinct components lists exactly them, in binding order. |
| EventRegistry.AddEventListener | UnityProject/Assets/GameScripts/Core/Procedure/ProcedureBase.cs:20-30 | A type already in the table logs an error and changes neither the table nor the bus. A new type is stored and subscribed once. One handler per type is kept, and every stored pair stays subscribed. |
| EventRegistry.RemoveAllEventListeners | UnityProject/Assets/GameScripts/Core/Procedure/ProcedureBase.cs:32-38 | Unsubscribing the stored pairs never adds to the bus: the result is contained in the bus it started from. |
| EventRegistry.RemoveAllIsDifference | UnityProject/Assets/GameScripts/Core/Procedure/ProcedureBase.cs:32-38 | Unsubscribing the stored pairs one by one removes exactly the table's pairs from the bus. |
| EventRegistry.LeaveUndoesRegistrations | UnityProject/Assets/GameScripts/Core/Procedure/ProcedureBase.cs:40-45 | On a bus holding the table's pairs, leaving takes those pairs off and nothing else. |
| EventRegistry.ReRegistrationAfterLeaveIsRejected | UnityProject/Assets/GameScripts/Core/Procedure/ProcedureBase.cs:20-45 | Leaving keeps the table. So registering the same type again logs the error, and the handler stays off the bus. |
| EventRegistry.RegisterAll | UnityProject/Assets/GameScripts/HotFix/GameLogic/Controller/ControllerBase.cs:14-24 | Controller registrations only accumulate: the old table is a prefix of the new one, and the bus only grows. One handler per type is kept, and every stored pair stays subscribed. |
| EventRegistry.RegisterAllCoversEveryType | UnityProject/Assets/GameScripts/HotFix/GameLogic/Controller/ControllerBase.cs:14-24 | After the registrations, every requested event type has a handler in the table. |
| GameFlow.Enter | UnityProject/Assets/GameScripts/HotFix/GameLogic/Procedure/ProcedureEntrance.cs:8-17 | Entering the Entrance writes NextProcedure = Home and NextSceneName = "scene_home", then moves on to ChangeScene, which starts loading that scene. The other procedures stay current and leave the blackboard alone. |
| GameFlow.EnterChangeScene | UnityProject/Assets/GameScripts/HotFix/GameLogic/Procedure/ProcedureChangeScene.cs:11-23 | The countdown restarts at 100, replacing the initial 50, and the scene named on the blackboard starts loading. A missing name is a fault. |
| GameFlow.EnterHome | UnityProject/Assets/GameScripts/HotFix/GameLogic/Procedure/ProcedureHome.cs:10-21 | Registers EnterBattle through the listener table. A second entry, with the type still in the table, changes nothing. |
| GameFlow.Leave | UnityProject/Assets/GameScripts/Core/Procedure/ProcedureBase.cs:40-45 | Leaving Home takes exactly its table's pairs off the bus. Leaving any other procedure changes nothing. |
| GameFlow.ChangeState | UnityProject/Assets/GameScripts/HotFix/GameLogic/Procedure/ProcedureChangeScene.cs:36-41 | The target becomes current, except that the Entrance moves straight on to ChangeScene. Leaving Home unsubscribes its table, so changing from Home to Battle only drops those pairs. Changing to Home always leaves EnterBattle in its table, and a table that already had it is kept as it was. |
| GameFlow.Update | UnityProject/Assets/GameScripts/HotFix/GameLogic/Procedure/ProcedureChangeScene.cs:30-42 | Only ChangeScene reacts, by counting down one. Once the count reaches 0 or less it changes to the blackboard's NextProcedure, or faults when that entry is missing. |
| GameFlow.RunEnterBattle | UnityProject/Assets/GameScripts/HotFix/GameLogic/Procedure/ProcedureHome.cs:30-35 | Writes NextProcedure = Battle and the battle scene, then changes to ChangeScene, which starts loading "scene_battle". |
| GameFlow.Start | UnityProject/Assets/GameScripts/HotFix/GameLogic/GameApp.cs:58-64 | A fresh machine enters Entrance and ends up waiting in ChangeScene. The count is 100, "scene_home" is loading, Home is next, and nothing is subscribed. |
| GameFlow.CountdownWaits | UnityProject/Assets/GameScripts/HotFix/GameLogic/Procedure/ProcedureChangeScene.cs:34-41 | While the count is above one, updates only count down. |
| GameFlow.TransitionOnHundredthUpdate | UnityProject/Assets/GameScripts/HotFix/GameLogic/Procedure/ProcedureChangeScene.cs:20-41 | After entering the scene change, 99 updates wait and the 100th changes to the blackboard's procedure. |
| GameFlow.StartReachesHome | UnityProject/Assets/GameScripts/HotFix/GameLogic/Procedure/ProcedureEntrance.cs:8-17 | From start, 99 updates leave the game waiting. The 100th reaches Home, which has subscribed EnterBattle exactly once. |
| GameFlow.EnterBattleLeavesHome | UnityProject/Assets/GameScripts/HotFix/GameLogic/Procedure/ProcedureHome.cs:30-35 | Firing EnterBattle from Home unsubscribes the handler, names Battle as next, restarts the countdown and starts loading "scene_battle". |
| GameFlow.HomeReEntryDoesNotResubscribe | UnityProject/Assets/GameScripts/HotFix/GameLogic/Procedure/ProcedureHome.cs:10-21 | Entering Home again while EnterBattle is still in its table changes nothing. So once Home has been left, the battle event no longer reaches it. |

## Left out

- **Atlas generation and editor I/O.** `GenerateAtlas` and its helpers are only recorded as the calls made; they write SpriteAtlas assets. The same holds for the `Configure*Settings`, `LoadValidSprites`, `ClearAllAtlas`, `DeleteAtlas` and `EnsureOutputDirectory` methods, `AssetDatabase.Refresh`, `SaveAndReimport` and `DeleteAsset`. `SaveAndReimport` and `DeleteAsset` appear only as the lists `reimported` and `resourcesToDelete`.
- **`ScanExistingSprites`, `ForceGenerateAll` and the timestamp checks.** They are driven by directory scans and file times. `MarkDirty` is modelled outside a build-change scan, where `_isBuildChange` is false, so the timestamp comparison never runs.
- **Logging** (`Debug.Log*`, `Log.*`). A logged error appears only as a flag where the control flow depends on it.
- **Ordinal string comparison.** `StartsWith(string)` is culture-sensitive in .NET but is modelled as ordinal. `ToLower` and `OrdinalIgnoreCase` fold ASCII letters only.
- **Path handling.**
  - Paths use '/' as the only separator.
  - `Path.GetFileName` and the related calls follow their Windows behaviour only on paths without repeated '/' and below a root whose canonical form is not empty. Two differences remain outside that range:
    - `Path.GetDirectoryName` collapses repeated separators, so "R/x//y" gives "R/x" in .NET. `Paths.DirectoryName` gives "R/x/", and the walk up from such a path visits one extra directory and may mark one extra atlas name.
    - `Path.GetDirectoryName("")` throws ArgumentException on .NET Framework and Mono. `Paths.DirectoryName` gives None, so with a root of "" or "/" the walk up completes where the source throws.
  - `Path.GetFullPath` in the duplicate-name check is the identity.
- **String lengths** count characters, not UTF-16 code units, so `Substring(0, 10)` in the rule caption never splits a surrogate pair.
- **`AssetDatabase.GetSubFolders` and `Directory.GetFiles`** are parameters (`AssetQueries`). A directory missing from the listing is one that does not exist.
- ReferencePool.Acquire: the counters are unbounded integers, so `int` overflow after 2^31 operations is not modelled.
- ReferencePool.AcquireAs: a cast succeeds only on exact runtime-type equality; .NET subtyping is not modelled.
- **`IMemory.Clear`**, which `Release` calls on the object, is not modelled. A pooled object is only its identity and runtime type.
- **The `lock` in the memory pool and reflection details** (assembly loading, `Attribute` inheritance) are not modelled. A type is a name, an abstract flag and its attribute kinds.
- **`GameEvent`, the global bus.** It is a multiset of (event type, handler) subscriptions. Unsubscribing removes one occurrence. Firing runs the handler once when it is subscribed at least once.
- **The TEngine state machine** (`Fsm`, `RestartProcedure`, `ChangeState`) is not part of this model. `ChangeState` is modelled as leave the current procedure, make the target current, enter it. A missing or mis-typed blackboard entry is a fault.
- **UI windows, `UniTask` scene loading, `ProcedureStartGame`, `ProcedureBattle` and the frame times** passed to `OnUpdate`. Scene loading is recorded as the list of scenes requested. Battle is a terminal state with no logic.
- **`UseNativeDialog` of `ProcedureHome`** is the constant `GameFlow.HomeUsesNativeDialog` (false). The get-only property is never assigned.
- **Editor GUI code**: property drawers, inspectors and settings-page layout. Only the caption function `GetRuleDisplayName` of the settings page is modelled.


=== FILE: atlas_config.dfy ===
/** The sprite-atlas configuration (`AtlasConfiguration.Instance`) and the path
    predicates that `EditorSpriteSaveInfo` and `SpritePostprocessor` both apply. */
module AtlasConfig {
  import opened Wrappers
  import opened Strings
  import opened Paths

  /** The fields of `AtlasConfiguration` the bookkeeping reads. */
  datatype Config = Config(
    sourceAtlasRootDir: seq<string>,
    rootChildAtlasDir: seq<string>,
    singleAtlasDir: seq<string>,
    excludeFolder: seq<string>,
    excludeKeywords: seq<string>,
    autoGenerate: bool,
    checkMipmaps: bool,
    enableMipmaps: bool)

  /** What the asset database and file system answer during one batch:
      `AssetDatabase.GetSubFolders(folder)` and
      `Directory.GetFiles(dir, "*.*", SearchOption.AllDirectories)`.
      A directory missing from `filesUnder` does not exist. */
  datatype AssetQueries = AssetQueries(
    subFolders: map<string, seq<string>>,
    filesUnder: map<string, seq<string>>)

  /** Exceptions the bookkeeping can throw. */
  datatype Fault =
    | ArgumentNull        // a null atlas name used as a dictionary key
    | ArgumentOutOfRange  // `Substring` past the end of a directory path
    | IndexOutOfRange     // a moved-to array shorter than the moved-from array
    | DirectoryNotFound   // `Directory.GetFiles` on a missing directory

  function SubFoldersOf(q: AssetQueries, folder: string): seq<string> {
    if folder in q.subFolders then q.subFolders[folder] else []
  }

  /** Source roots first, then the root-child directories, as the source's
      `tempRootDirArr` lists them. */
  function Roots(cfg: Config): (r: seq<string>)
    ensures |r| == |cfg.sourceAtlasRootDir| + |cfg.rootChildAtlasDir|
    ensures r[..|cfg.sourceAtlasRootDir|] == cfg.sourceAtlasRootDir
  {
    cfg.sourceAtlasRootDir + cfg.rootChildAtlasDir
  }

  /** A configured directory with '\' turned into '/' and trailing '/' trimmed. */
  function Canonical(root: string): (r: string)
    ensures '\\' !in r
    ensures r == [] || r[|r| - 1] != '/'
    ensures |r| <= |root|
  {
    TrimEndSlashes(NormalizeSlashes(root))
  }

  /** `path` lies strictly below the directory `root` (a '/' boundary follows it). */
  predicate Under(path: string, root: string) {
    StartsWith(path, Canonical(root) + "/")
  }

  predicate UnderAny(path: string, roots: seq<string>) {
    exists i :: 0 <= i < |roots| && Under(path, roots[i])
  }

  /** `CheckIsExcludeFolder`: the path lies below some exclude folder. */
  predicate CheckIsExcludeFolder(cfg: Config, path: string) {
    UnderAny(path, cfg.excludeFolder)
  }

  /** Some keyword occurs in `path`, compared with `OrdinalIgnoreCase`. */
  predicate HasKeyword(path: string, keys: seq<string>) {
    exists i :: 0 <= i < |keys| && ContainsIgnoreCase(path, keys[i])
  }

  const ImageExtensions: seq<string> := [".png", ".jpg", ".jpeg"]

  /** `IsImageFile` / `IsValidImageFile`: the lower-cased extension is
      .png, .jpg or .jpeg. */
  predicate IsImageFile(path: string) {
    ToLower(Extension(NormalizeSlashes(path))) in ImageExtensions
  }

  /** The extension is what decides: `name.PNG` is an image, `name.gif` is not. */
  lemma ImageFileByExtension(dir: string, stem: string, ext: string)
    requires '\\' !in dir && '\\' !in stem && '\\' !in ext
    requires '/' !in stem && '.' !in stem
    requires |ext| >= 2 && ext[0] == '.' && '.' !in ext[1..] && '/' !in ext
    ensures IsImageFile(dir + "/" + stem + ext) <==> ToLower(ext) in ImageExtensions
  {
    var p := dir + "/" + stem + ext;
    assert '\\' !in p;
    NormalizeIdentity(p);
    ExtensionOfName(dir, stem, ext);
  }

  /** An empty exclude keyword excludes every path: `IndexOf("")` is 0. */
  lemma EmptyKeywordMatchesAll(path: string, keys: seq<string>)
    requires "" in keys
    ensures HasKeyword(path, keys)
  {
    EmptyIsContained(path);
    var i :| 0 <= i < |keys| && keys[i] == "";
    assert ContainsIgnoreCase(path, keys[i]);
  }

  /** A keyword matches wherever it occurs in the path. */
  lemma KeywordAnywhere(pre: string, key: string, post: string, keys: seq<string>)
    requires key in keys
    ensures HasKeyword(pre + key + post, keys)
  {
    ContainsIgnoreCaseInfix(pre, key, post);
    var i :| 0 <= i < |keys| && keys[i] == key;
    assert ContainsIgnoreCase(pre + key + post, keys[i]);
  }

  /** Everything below an exclude folder is excluded, but a sibling whose
      name merely extends the folder's is not excluded by it. */
  lemma ExcludeFolderBoundary(cfg: Config, i: int, c: char, rest: string)
    requires 0 <= i < |cfg.excludeFolder| && c != '/'
    ensures CheckIsExcludeFolder(cfg, (Canonical(cfg.excludeFolder[i]) + "/") + rest)
    ensures !Under((Canonical(cfg.excludeFolder[i]) + [c]) + rest, cfg.excludeFolder[i])
  {
    var t := Canonical(cfg.excludeFolder[i]);
    assert ((t + "/") + rest)[..|t| + 1] == t + "/";
    assert Under((t + "/") + rest, cfg.excludeFolder[i]);
    assert ((t + [c]) + rest)[|t|] == c;
  }
}

=== FILE: atlas_naming.dfy ===
/** How `EditorSpriteSaveInfo` names the atlas a sprite or directory belongs to. */
module AtlasNaming {
  import opened Wrappers
  import opened Strings
  import opened Paths
  import opened AtlasConfig

  /** Index of the first root `path` lies below, if any. */
  function FirstUnder(roots: seq<string>, path: string): (r: Option<nat>)
    ensures r.Some? ==> r.value < |roots| && Under(path, roots[r.value])
    ensures r.Some? ==> forall j :: 0 <= j < r.value ==> !Under(path, roots[j])
    ensures r.None? <==> !UnderAny(path, roots)
  {
    if roots == [] then None
    else if Under(path, roots[0]) then Some(0)
    else
      UnderAnyTail(roots, path);
      match FirstUnder(roots[1..], path)
      case None => None
      case Some(i) =>
        assert Under(path, roots[i + 1]) by {
          assert roots[1..][i] == roots[i + 1];
        }
        assert forall j :: 0 <= j < i + 1 ==> !Under(path, roots[j]) by {
          forall j | 1 <= j < i + 1
            ensures !Under(path, roots[j])
          {
            assert roots[1..][j - 1] == roots[j];
          }
        }
        Some(i + 1)
  }

  /** Past a first root the path is not below, the other roots decide. */
  lemma UnderAnyTail(roots: seq<string>, path: string)
    requires roots != [] && !Under(path, roots[0])
    ensures UnderAny(path, roots) <==> UnderAny(path, roots[1..])
  {
    if UnderAny(path, roots) {
      var i :| 0 <= i < |roots| && Under(path, roots[i]);
      assert roots[1..][i - 1] == roots[i];
    }
    if UnderAny(path, roots[1..]) {
      var i :| 0 <= i < |roots| - 1 && Under(path, roots[1..][i]);
      assert roots[1..][i] == roots[i + 1];
    }
  }

  /** The atlas of a file below the canonical root `t`: the root folder's name
      and then every directory between root and file, joined with '_'; null
      for a file directly inside the root. */
  function NameBelow(t: string, path: string): Option<string>
    requires StartsWith(path, t + "/")
  {
    match DirsBelow(t, path)
    case None => None
    case Some(dirs) => Some(FileName(t) + "_" + Join("_", dirs))
  }

  /** The directories between the canonical root `t` and the file; null for a
      file directly inside the root. */
  function DirsBelow(t: string, path: string): (r: Option<seq<string>>)
    requires StartsWith(path, t + "/")
    ensures r.Some? ==> |r.value| >= 1
  {
    var parts := Split(path[|t| + 1..], '/');
    if |parts| < 2 then None else Some(parts[..|parts| - 1])
  }

  /** The loop of `GetAtlasName`: the first root the path lies below decides. */
  function AtlasNameFrom(roots: seq<string>, path: string): Option<string> {
    if roots == [] then None
    else
      var t := Canonical(roots[0]);
      if StartsWith(path, t + "/") then NameBelow(t, path)
      else AtlasNameFrom(roots[1..], path)
  }

  /** `GetAtlasName`. */
  function GetAtlasName(cfg: Config, path: string): (r: Option<string>)
    ensures r.Some? ==> UnderAny(path, Roots(cfg)) && '_' in r.value
  {
    GetAtlasNameFirstRoot(Roots(cfg), path);
    AtlasNameFrom(Roots(cfg), path)
  }

  /** Only the first root the path lies below is consulted, even when it
      yields null and a later root would have named the file. */
  lemma {:induction false} GetAtlasNameFirstRoot(roots: seq<string>, path: string)
    ensures FirstUnder(roots, path).None? ==> AtlasNameFrom(roots, path).None?
    ensures FirstUnder(roots, path).Some? ==>
      AtlasNameFrom(roots, path) == NameBelow(Canonical(roots[FirstUnder(roots, path).value]), path)
    ensures AtlasNameFrom(roots, path).Some? ==> '_' in AtlasNameFrom(roots, path).value
  {
    if roots != [] && !Under(path, roots[0]) {
      GetAtlasNameFirstRoot(roots[1..], path);
    } else if roots != [] {
      NameBelowHasUnderscore(Canonical(roots[0]), path);
    }
  }

  lemma NameBelowHasUnderscore(t: string, path: string)
    requires StartsWith(path, t + "/")
    ensures NameBelow(t, path).Some? ==> '_' in NameBelow(t, path).value
  {
    if DirsBelow(t, path).Some? {
      UnderscoreJoined(FileName(t), Join("_", DirsBelow(t, path).value));
    }
  }

  /** Two parts joined with '_' contain a '_'. */
  lemma UnderscoreJoined(a: string, b: string)
    ensures '_' in a + "_" + b
  {
    assert (a + "_" + b)[|a|] == '_';
  }

  /** For root/d1/…/dk/file, the atlas is "<root folder>_d1_…_dk". */
  lemma GetAtlasNameOfNestedFile(cfg: Config, path: string, dirs: seq<string>, file: string)
    requires FirstUnder(Roots(cfg), path).Some?
    requires |dirs| >= 1
    requires forall k :: 0 <= k < |dirs| ==> '/' !in dirs[k]
    requires '/' !in file
    requires path == Canonical(Roots(cfg)[FirstUnder(Roots(cfg), path).value]) + "/" + Join("/", dirs + [file])
    ensures GetAtlasName(cfg, path)
      == Some(FileName(Canonical(Roots(cfg)[FirstUnder(Roots(cfg), path).value])) + "_" + Join("_", dirs))
  {
    var t := Canonical(Roots(cfg)[FirstUnder(Roots(cfg), path).value]);
    GetAtlasNameFirstRoot(Roots(cfg), path);
    var parts := dirs + [file];
    assert path[|t| + 1..] == Join("/", parts);
    SplitJoin(parts, '/');
    assert parts[..|parts| - 1] == dirs;
  }

  /** A file directly inside the first matching root has no atlas. */
  lemma GetAtlasNameOfTopLevelFile(cfg: Config, path: string, file: string)
    requires FirstUnder(Roots(cfg), path).Some?
    requires '/' !in file
    requires path == Canonical(Roots(cfg)[FirstUnder(Roots(cfg), path).value]) + "/" + file
    ensures GetAtlasName(cfg, path).None?
  {
    var t := Canonical(Roots(cfg)[FirstUnder(Roots(cfg), path).value]);
    GetAtlasNameFirstRoot(Roots(cfg), path);
    assert path[|t| + 1..] == file;
    SplitJoin([file], '/');
  }

  /** Source roots are tried before root-child directories. */
  lemma {:induction false} SourceRootsTakePrecedence(a: seq<string>, b: seq<string>, path: string)
    requires UnderAny(path, a)
    ensures FirstUnder(a + b, path) == FirstUnder(a, path)
    ensures AtlasNameFrom(a + b, path) == AtlasNameFrom(a, path)
  {
    assert (a + b)[0] == a[0];
    if !Under(path, a[0]) {
      assert (a + b)[1..] == a[1..] + b;
      var i :| 0 <= i < |a| && Under(path, a[i]);
      assert a[1..][i - 1] == a[i];
      SourceRootsTakePrecedence(a[1..], b, path);
    }
  }

  /** The loop of `GetSingleAtlasName` over the source roots: like
      `GetAtlasName`, with the file's stem appended as a last segment. */
  function SingleNameFrom(roots: seq<string>, path: string): Option<string> {
    if roots == [] then None
    else
      var t := Canonical(roots[0]);
      if StartsWith(path, t + "/") then SingleNameBelow(t, path)
      else SingleNameFrom(roots[1..], path)
  }

  /** The single-atlas name of a file below the canonical root `t`. */
  function SingleNameBelow(t: string, path: string): Option<string>
    requires StartsWith(path, t + "/")
  {
    match DirsBelow(t, path)
    case None => None
    case Some(dirs) => Some(FileName(t) + "_" + Join("_", dirs + [FileNameWithoutExtension(path)]))
  }

  /** `GetSingleAtlasName`: the atlas name of the file, then '_' and its stem. */
  function GetSingleAtlasName(cfg: Config, path: string): (r: Option<string>)
    ensures r.Some? <==> UnderAny(path, cfg.sourceAtlasRootDir) && GetAtlasName(cfg, path).Some?
    ensures r.Some? ==> r.value == GetAtlasName(cfg, path).value + "_" + FileNameWithoutExtension(path)
  {
    SingleNameRelatesToAtlasName(cfg, path);
    SingleNameFrom(cfg.sourceAtlasRootDir, path)
  }

  lemma SingleNameRelatesToAtlasName(cfg: Config, path: string)
    ensures SingleNameFrom(cfg.sourceAtlasRootDir, path).Some? <==>
      UnderAny(path, cfg.sourceAtlasRootDir) && GetAtlasName(cfg, path).Some?
    ensures SingleNameFrom(cfg.sourceAtlasRootDir, path).Some? ==>
      GetAtlasName(cfg, path).Some? &&
      SingleNameFrom(cfg.sourceAtlasRootDir, path).value
        == GetAtlasName(cfg, path).value + "_" + FileNameWithoutExtension(path)
  {
    SingleNameExtendsAtlasName(cfg.sourceAtlasRootDir, path);
    if UnderAny(path, cfg.sourceAtlasRootDir) {
      SourceRootsTakePrecedence(cfg.sourceAtlasRootDir, cfg.rootChildAtlasDir, path);
    } else {
      SingleNameNeedsRoot(cfg.sourceAtlasRootDir, path);
    }
  }

  lemma {:induction false} SingleNameNeedsRoot(roots: seq<string>, path: string)
    requires !UnderAny(path, roots)
    ensures SingleNameFrom(roots, path).None?
  {
    if roots != [] {
      assert !Under(path, roots[0]);
      assert forall i :: 0 <= i < |roots| - 1 ==> roots[1..][i] == roots[i + 1];
      SingleNameNeedsRoot(roots[1..], path);
    }
  }

  lemma {:induction false} SingleNameExtendsAtlasName(roots: seq<string>, path: string)
    ensures SingleNameFrom(roots, path).Some? <==> AtlasNameFrom(roots, path).Some?
    ensures SingleNameFrom(roots, path).Some? ==>
      AtlasNameFrom(roots, path).Some? &&
      SingleNameFrom(roots, path).value == AtlasNameFrom(roots, path).value + "_" + FileNameWithoutExtension(path)
  {
    if roots != [] {
      var t := Canonical(roots[0]);
      if StartsWith(path, t + "/") {
        SingleNameBelowExtends(t, path);
      } else {
        SingleNameExtendsAtlasName(roots[1..], path);
      }
    }
  }

  lemma SingleNameBelowExtends(t: string, path: string)
    requires StartsWith(path, t + "/")
    ensures SingleNameBelow(t, path).Some? <==> NameBelow(t, path).Some?
    ensures SingleNameBelow(t, path).Some? ==>
      NameBelow(t, path).Some? &&
      SingleNameBelow(t, path).value == NameBelow(t, path).value + "_" + FileNameWithoutExtension(path)
  {
    if DirsBelow(t, path).Some? {
      AppendSegment(FileName(t), DirsBelow(t, path).value, FileNameWithoutExtension(path));
    }
  }

  lemma AppendSegment(root: string, dirs: seq<string>, stem: string)
    requires |dirs| >= 1
    ensures root + "_" + Join("_", dirs + [stem]) == (root + "_" + Join("_", dirs)) + "_" + stem
  {
    JoinSnoc("_", dirs, stem);
  }

  /** The loop of `GetAtlasNameForDirectory` over the source roots. It tests
      the trimmed root but slices with the length of the root as configured,
      and takes the folder name of the untrimmed root. */
  function DirectoryNameFrom(roots: seq<string>, dir: string): Result<Option<string>, Fault> {
    if roots == [] then Success(None)
    else if !StartsWith(dir, Canonical(roots[0]) + "/") then DirectoryNameFrom(roots[1..], dir)
    else if |roots[0]| + 1 > |dir| then Failure(ArgumentOutOfRange)
    else
      var parts := Split(dir[|roots[0]| + 1..], '/');
      Success(Some(FileName(NormalizeSlashes(roots[0])) + "_" + Join("_", parts)))
  }

  /** `GetAtlasNameForDirectory`: only source roots are consulted. */
  function GetAtlasNameForDirectory(cfg: Config, dir: string): (r: Result<Option<string>, Fault>)
    ensures !UnderAny(dir, cfg.sourceAtlasRootDir) ==> r == Success(None)
    ensures r.Success? && r.value.Some? ==> '_' in r.value.value
  {
    DirectoryNameFirstRoot(cfg.sourceAtlasRootDir, dir);
    DirectoryNameFrom(cfg.sourceAtlasRootDir, dir)
  }

  lemma {:induction false} DirectoryNameFirstRoot(roots: seq<string>, dir: string)
    ensures FirstUnder(roots, dir).None? ==> DirectoryNameFrom(roots, dir) == Success(None)
    ensures DirectoryNameFrom(roots, dir).Success? && DirectoryNameFrom(roots, dir).value.Some? ==>
      '_' in DirectoryNameFrom(roots, dir).value.value
  {
    if roots != [] {
      if !StartsWith(dir, Canonical(roots[0]) + "/") {
        DirectoryNameFirstRoot(roots[1..], dir);
      } else if |roots[0]| + 1 <= |dir| {
        UnderscoreJoined(FileName(NormalizeSlashes(roots[0])), Join("_", Split(dir[|roots[0]| + 1..], '/')));
      }
    }
  }

  /** With a root written without trailing '/' or '\', the directory's atlas is
      the root folder's name joined with every segment below it. */
  lemma DirectoryNameOfCleanRoot(cfg: Config, dir: string, segs: seq<string>)
    requires |cfg.sourceAtlasRootDir| >= 1
    requires Canonical(cfg.sourceAtlasRootDir[0]) == cfg.sourceAtlasRootDir[0]
    requires |segs| >= 1 && forall k :: 0 <= k < |segs| ==> '/' !in segs[k]
    requires dir == cfg.sourceAtlasRootDir[0] + "/" + Join("/", segs)
    ensures GetAtlasNameForDirectory(cfg, dir)
      == Success(Some(FileName(cfg.sourceAtlasRootDir[0]) + "_" + Join("_", segs)))
  {
    var root := cfg.sourceAtlasRootDir[0];
    var below := Join("/", segs);
    assert dir == (root + "/") + below;
    assert dir[..|root| + 1] == root + "/";
    assert dir[|root| + 1..] == below;
    SplitJoin(segs, '/');
    NormalizeIdentity(root);
    assert DirectoryNameFrom(cfg.sourceAtlasRootDir, dir)
      == Success(Some(FileName(NormalizeSlashes(root)) + "_" + Join("_", Split(below, '/'))));
  }

  /** A trailing '/' on a configured root shifts the slice by one character and
      empties the folder name: root "A/" and directory "A/bc/d" give "_c_d",
      and directory "A/b" loses its only segment. */
  lemma DirectoryNameOfTrailingSlashRoot(cfg: Config)
    requires cfg.sourceAtlasRootDir == ["A/"]
    ensures GetAtlasNameForDirectory(cfg, "A/bc/d") == Success(Some("_c_d"))
    ensures GetAtlasNameForDirectory(cfg, "A/b") == Success(Some("_"))
  {
    var roots := cfg.sourceAtlasRootDir;
    CanonicalOfA();
    assert StartsWith("A/bc/d", Canonical(roots[0]) + "/");
    assert "A/bc/d"[|roots[0]| + 1..] == "c/d";
    SplitCD();
    FileNameOfA();
    assert DirectoryNameFrom(roots, "A/bc/d")
      == Success(Some(FileName(NormalizeSlashes(roots[0])) + "_" + Join("_", Split("c/d", '/'))));
    assert "" + "_" + "c_d" == "_c_d";
    assert StartsWith("A/b", Canonical(roots[0]) + "/");
    assert "A/b"[|roots[0]| + 1..] == "";
    assert Split("", '/') == [""];
    assert DirectoryNameFrom(roots, "A/b")
      == Success(Some(FileName(NormalizeSlashes(roots[0])) + "_" + Join("_", Split("", '/'))));
    assert Join("_", [""]) == "";
    assert "" + "_" + "" == "_";
  }

  /** With two trailing '/' the slice starts past the end of a short
      directory path and `Substring` throws. */
  lemma DirectoryNameOfDoubleSlashRoot(cfg: Config)
    requires cfg.sourceAtlasRootDir == ["A//"]
    ensures GetAtlasNameForDirectory(cfg, "A/b") == Failure(ArgumentOutOfRange)
  {
    assert NormalizeSlashes("A//") == "A//";
    assert TrimEndSlashes("A//") == "A";
    assert StartsWith("A/b", Canonical(cfg.sourceAtlasRootDir[0]) + "/");
  }

  lemma CanonicalOfA()
    ensures Canonical("A/") == "A" && NormalizeSlashes("A/") == "A/"
  {
    assert NormalizeSlashes("A/") == "A/";
    assert TrimEndSlashes("A/") == "A";
  }

  lemma SplitCD()
    ensures Join("_", Split("c/d", '/')) == "c_d"
  {
    assert Join("/", ["c", "d"]) == "c/d";
    SplitJoin(["c", "d"], '/');
  }

  lemma FileNameOfA()
    ensures FileName("A/") == ""
  {
    assert LastIndexOf("A/", '/') == 1;
  }

  /** The subfolder loop of `GetRootChildDirAtlasName`; like the source it
      tests `StartsWith(subDirectory)` without a '/' boundary. */
  function ChildNameFromSubs(t: string, subs: seq<string>, path: string): Option<string> {
    if subs == [] then None
    else if StartsWith(path, subs[0]) then Some(FileName(t) + "_" + FileName(subs[0]))
    else ChildNameFromSubs(t, subs[1..], path)
  }

  function ChildNameFrom(roots: seq<string>, q: AssetQueries, path: string): Option<string> {
    if roots == [] then None
    else
      var t := Canonical(roots[0]);
      var inner := if StartsWith(path, t) then ChildNameFromSubs(t, SubFoldersOf(q, t), path) else None;
      if inner.Some? then inner else ChildNameFrom(roots[1..], q, path)
  }

  /** Root-child directory `i` and its subfolder `j` both prefix `path`. */
  predicate ChildMatch(cfg: Config, q: AssetQueries, path: string, i: int, j: int) {
    && 0 <= i < |cfg.rootChildAtlasDir|
    && StartsWith(path, Canonical(cfg.rootChildAtlasDir[i]))
    && 0 <= j < |SubFoldersOf(q, Canonical(cfg.rootChildAtlasDir[i]))|
    && StartsWith(path, SubFoldersOf(q, Canonical(cfg.rootChildAtlasDir[i]))[j])
  }

  function ChildName(cfg: Config, q: AssetQueries, i: int, j: int): string
    requires 0 <= i < |cfg.rootChildAtlasDir|
    requires 0 <= j < |SubFoldersOf(q, Canonical(cfg.rootChildAtlasDir[i]))|
  {
    var t := Canonical(cfg.rootChildAtlasDir[i]);
    FileName(t) + "_" + FileName(SubFoldersOf(q, t)[j])
  }

  /** `(i, j)` is the first matching pair from root-child directory `k` on:
      no earlier directory has a matching subfolder, and no earlier subfolder
      of directory `i` matches. */
  ghost predicate FirstMatchFrom(cfg: Config, q: AssetQueries, path: string, k: int, i: int, j: int) {
    && k <= i
    && ChildMatch(cfg, q, path, i, j)
    && (forall i', j' :: k <= i' < i ==> !ChildMatch(cfg, q, path, i', j'))
    && (forall j' :: 0 <= j' < j ==> !ChildMatch(cfg, q, path, i, j'))
  }

  /** `GetRootChildDirAtlasName`: "<root-child folder>_<subfolder>" for the
      first directory and subfolder the path starts with, null when there is none. */
  function GetRootChildDirAtlasName(cfg: Config, q: AssetQueries, path: string): (r: Option<string>)
    ensures r.Some? <==> exists i, j :: ChildMatch(cfg, q, path, i, j)
    ensures r.Some? ==> exists i, j :: ChildMatch(cfg, q, path, i, j) && r.value == ChildName(cfg, q, i, j)
    ensures forall i, j :: FirstMatchFrom(cfg, q, path, 0, i, j) ==> r == Some(ChildName(cfg, q, i, j))
  {
    ChildNameCharacterised(cfg, q, path, 0);
    assert cfg.rootChildAtlasDir[0..] == cfg.rootChildAtlasDir;
    ChildNameFrom(cfg.rootChildAtlasDir, q, path)
  }

  lemma {:induction false} ChildSubsCharacterised(cfg: Config, q: AssetQueries, path: string, i: int, k: nat)
    requires 0 <= i < |cfg.rootChildAtlasDir|
    requires StartsWith(path, Canonical(cfg.rootChildAtlasDir[i]))
    requires k <= |SubFoldersOf(q, Canonical(cfg.rootChildAtlasDir[i]))|
    ensures var t := Canonical(cfg.rootChildAtlasDir[i]);
      var r := ChildNameFromSubs(t, SubFoldersOf(q, t)[k..], path);
      (r.Some? <==> exists j :: k <= j && ChildMatch(cfg, q, path, i, j)) &&
      (r.Some? ==> exists j :: k <= j && ChildMatch(cfg, q, path, i, j) && r.value == ChildName(cfg, q, i, j)) &&
      (forall j :: k <= j && ChildMatch(cfg, q, path, i, j) && (forall j' :: k <= j' < j ==> !ChildMatch(cfg, q, path, i, j')) ==>
         r == Some(ChildName(cfg, q, i, j)))
    decreases |SubFoldersOf(q, Canonical(cfg.rootChildAtlasDir[i]))| - k
  {
    var t := Canonical(cfg.rootChildAtlasDir[i]);
    var subs := SubFoldersOf(q, t);
    if k < |subs| {
      assert subs[k..][1..] == subs[k + 1..];
      if StartsWith(path, subs[k]) {
        assert ChildMatch(cfg, q, path, i, k);
      } else {
        ChildSubsCharacterised(cfg, q, path, i, k + 1);
      }
    }
  }

  lemma {:induction false} ChildNameCharacterised(cfg: Config, q: AssetQueries, path: string, k: nat)
    requires k <= |cfg.rootChildAtlasDir|
    ensures var r := ChildNameFrom(cfg.rootChildAtlasDir[k..], q, path);
      (r.Some? <==> exists i, j :: k <= i && ChildMatch(cfg, q, path, i, j)) &&
      (r.Some? ==> exists i, j :: k <= i && ChildMatch(cfg, q, path, i, j) && r.value == ChildName(cfg, q, i, j)) &&
      (forall i, j :: FirstMatchFrom(cfg, q, path, k, i, j) ==> r == Some(ChildName(cfg, q, i, j)))
    decreases |cfg.rootChildAtlasDir| - k
  {
    var roots := cfg.rootChildAtlasDir[k..];
    if k < |cfg.rootChildAtlasDir| {
      assert roots[0] == cfg.rootChildAtlasDir[k];
      assert roots[1..] == cfg.rootChildAtlasDir[k + 1..];
      var t := Canonical(roots[0]);
      ChildNameCharacterised(cfg, q, path, k + 1);
      if StartsWith(path, t) {
        ChildSubsCharacterised(cfg, q, path, k, 0);
        assert SubFoldersOf(q, t)[0..] == SubFoldersOf(q, t);
      } else {
        assert forall j :: !ChildMatch(cfg, q, path, k, j);
      }
      var r := ChildNameFrom(roots, q, path);
      forall i, j | FirstMatchFrom(cfg, q, path, k, i, j)
        ensures r == Some(ChildName(cfg, q, i, j))
      {
        if i > k {
          assert forall j' :: !ChildMatch(cfg, q, path, k, j');
          assert FirstMatchFrom(cfg, q, path, k + 1, i, j);
        }
      }
    }
  }

  /** `CheckIsNeedGenerateSingleAtlas`. */
  predicate NeedsSingleAtlas(cfg: Config, path: string) {
    !CheckIsExcludeFolder(cfg, path) && HasKeyword(path, cfg.singleAtlasDir)
  }

  /** `CheckIsNeedGenerateRootChildDirAtlas`. */
  predicate NeedsRootChildDirAtlas(cfg: Config, path: string) {
    !CheckIsExcludeFolder(cfg, path) && HasKeyword(path, cfg.rootChildAtlasDir)
  }

  /** `ShouldProcess` of `EditorSpriteSaveInfo`. */
  predicate ShouldProcess(cfg: Config, path: string) {
    IsImageFile(path) && !CheckIsExcludeFolder(cfg, path) && !HasKeyword(path, cfg.excludeKeywords)
  }

  /** A single-atlas keyword anywhere in the path asks for a single atlas,
      unless the path lies in an exclude folder. */
  lemma SingleAtlasByKeyword(cfg: Config, pre: string, key: string, post: string)
    requires key in cfg.singleAtlasDir
    ensures NeedsSingleAtlas(cfg, pre + key + post) <==> !CheckIsExcludeFolder(cfg, pre + key + post)
  {
    KeywordAnywhere(pre, key, post, cfg.singleAtlasDir);
  }

  /** A root-child directory named anywhere in the path asks for a root-child
      atlas, unless the path lies in an exclude folder. */
  lemma RootChildAtlasByKeyword(cfg: Config, pre: string, key: string, post: string)
    requires key in cfg.rootChildAtlasDir
    ensures NeedsRootChildDirAtlas(cfg, pre + key + post) <==> !CheckIsExcludeFolder(cfg, pre + key + post)
  {
    KeywordAnywhere(pre, key, post, cfg.rootChildAtlasDir);
  }

  /** An exclude keyword anywhere in the path keeps it out of the bookkeeping,
      and so does an exclude folder; otherwise an image is processed. */
  lemma ShouldProcessExclusions(cfg: Config, pre: string, key: string, post: string)
    requires key in cfg.excludeKeywords
    ensures !ShouldProcess(cfg, pre + key + post)
  {
    KeywordAnywhere(pre, key, post, cfg.excludeKeywords);
  }

  /** None of the naming functions ever yields an empty name, so the
      `IsNullOrEmpty` tests of the source only ever catch null. */
  lemma ResolvedNamesAreNonEmpty(cfg: Config, q: AssetQueries, path: string)
    ensures GetAtlasName(cfg, path).Some? ==> GetAtlasName(cfg, path).value != ""
    ensures GetSingleAtlasName(cfg, path).Some? ==> GetSingleAtlasName(cfg, path).value != ""
    ensures GetRootChildDirAtlasName(cfg, q, path).Some? ==> GetRootChildDirAtlasName(cfg, q, path).value != ""
  {
    var r := GetRootChildDirAtlasName(cfg, q, path);
    if r.Some? {
      var i, j :| ChildMatch(cfg, q, path, i, j) && r.value == ChildName(cfg, q, i, j);
      var t := Canonical(cfg.rootChildAtlasDir[i]);
      UnderscoreJoined(FileName(t), FileName(SubFoldersOf(q, t)[j]));
    }
  }

  /** How `OnImportSprite` and `OnDeleteSprite` settle a path's atlas name. */
  datatype Resolution =
    | Skip              // not processed, or no atlas name
    | Named(name: string)
    | NullName          // an override yielded null; the dictionary lookup throws

  /** The atlas name after the single-atlas and root-child overrides; the
      single-atlas override is tried first. */
  function ResolveAtlasName(cfg: Config, q: AssetQueries, path: string): (r: Resolution)
    ensures r.Skip? <==> !ShouldProcess(cfg, path) || GetAtlasName(cfg, path).None?
    ensures r.Named? ==> r.name != ""
    ensures !r.Skip? && NeedsSingleAtlas(cfg, path) ==>
      (r.Named? <==> GetSingleAtlasName(cfg, path).Some?) &&
      (r.Named? ==> r.name == GetAtlasName(cfg, path).value + "_" + FileNameWithoutExtension(path))
    ensures !r.Skip? && !NeedsSingleAtlas(cfg, path) && NeedsRootChildDirAtlas(cfg, path) ==>
      r == (match GetRootChildDirAtlasName(cfg, q, path) case None => NullName case Some(n) => Named(n))
    ensures !r.Skip? && !NeedsSingleAtlas(cfg, path) && !NeedsRootChildDirAtlas(cfg, path) ==>
      r == Named(GetAtlasName(cfg, path).value)
  {
    if !ShouldProcess(cfg, path) then Skip
    else
      match GetAtlasName(cfg, path)
      case None => Skip
      case Some(name) =>
        var chosen :=
          if NeedsSingleAtlas(cfg, path) then GetSingleAtlasName(cfg, path)
          else if NeedsRootChildDirAtlas(cfg, path) then GetRootChildDirAtlasName(cfg, q, path)
          else Some(name);
        match chosen
        case None => NullName
        case Some(n) =>
          assert n != "" by { ResolvedNamesAreNonEmpty(cfg, q, path); }
          Named(n)
  }
}

=== FILE: code_types.dfy ===
/** `CodeTypeModule`: an index of the types of some assemblies, by full name
    and by the `BaseAttribute` kinds they carry. Reflection is replaced by
    records that list what it would report. */
module CodeTypes {

  /** A type as reflection sees it: its `FullName`, whether it is abstract, and
      the runtime types of the `BaseAttribute` instances `GetCustomAttributes`
      returns for it (inherited ones included, repeats allowed). */
  datatype TypeInfo = TypeInfo(fullName: string, isAbstract: bool, attributes: seq<string>)

  /** `Assembly.GetTypes()`. */
  type Assembly = seq<TypeInfo>

  /** The two dictionaries of the module. */
  datatype Index = Index(allTypes: map<string, TypeInfo>, types: map<string, set<TypeInfo>>)

  /** The types of all assemblies, in the order the nested loops visit them. */
  function Flatten(assemblies: seq<Assembly>): (r: seq<TypeInfo>)
    ensures forall t :: t in r <==> exists i :: 0 <= i < |assemblies| && t in assemblies[i]
  {
    if assemblies == [] then [] else
      var r := assemblies[0] + Flatten(assemblies[1..]);
      assert forall i :: 1 <= i < |assemblies| ==> assemblies[i] == assemblies[1..][i - 1];
      r
  }

  /** `types[type.FullName] = type` for each type in order. */
  function Collect(ts: seq<TypeInfo>): (r: map<string, TypeInfo>)
    ensures forall n :: n in r <==> exists k :: 0 <= k < |ts| && ts[k].fullName == n
    ensures forall n :: n in r ==> r[n].fullName == n
  {
    if ts == [] then map[]
    else
      var front := ts[..|ts| - 1];
      var t := ts[|ts| - 1];
      var m := Collect(front);
      assert forall k :: 0 <= k < |front| ==> front[k] == ts[k];
      m[t.fullName := t]
  }

  /** `t` is the last type called `n` in `ts`. */
  ghost predicate LastNamed(ts: seq<TypeInfo>, n: string, t: TypeInfo) {
    exists k :: 0 <= k < |ts| && ts[k] == t && t.fullName == n &&
      forall j :: k < j < |ts| ==> ts[j].fullName != n
  }

  /** The type kept under a name is the last one of that name. */
  lemma {:induction false} CollectKeepsLast(ts: seq<TypeInfo>, n: string)
    requires n in Collect(ts)
    ensures LastNamed(ts, n, Collect(ts)[n])
  {
    var front := ts[..|ts| - 1];
    var t := ts[|ts| - 1];
    assert Collect(ts) == Collect(front)[t.fullName := t];
    if t.fullName == n {
      assert ts[|ts| - 1] == Collect(ts)[n];
    } else {
      CollectKeepsLast(front, n);
      var k :| 0 <= k < |front| && front[k] == Collect(front)[n] && Collect(front)[n].fullName == n &&
        forall j :: k < j < |front| ==> front[j].fullName != n;
      assert ts[k] == Collect(ts)[n];
      assert forall j :: k < j < |ts| ==> ts[j].fullName != n by {
        forall j | k < j < |ts|
          ensures ts[j].fullName != n
        {
          if j < |ts| - 1 {
            assert ts[j] == front[j];
          }
        }
      }
    }
  }

  /** `GetAssemblyTypes`: every full name of every assembly, mapped to the
      last type of that name; a later type overwrites an earlier one. */
  function GetAssemblyTypes(assemblies: seq<Assembly>): (r: map<string, TypeInfo>)
    ensures forall n :: n in r <==> exists i, t :: 0 <= i < |assemblies| && t in assemblies[i] && t.fullName == n
    ensures forall n :: n in r ==> r[n].fullName == n && LastNamed(Flatten(assemblies), n, r[n])
  {
    var ts := Flatten(assemblies);
    var r := Collect(ts);
    assert forall n :: n in r <==> exists i, t :: 0 <= i < |assemblies| && t in assemblies[i] && t.fullName == n by {
      forall n
        ensures n in r <==> exists i, t :: 0 <= i < |assemblies| && t in assemblies[i] && t.fullName == n
      {
        if n in r {
          var k :| 0 <= k < |ts| && ts[k].fullName == n;
          assert ts[k] in ts;
        }
        if exists i, t :: 0 <= i < |assemblies| && t in assemblies[i] && t.fullName == n {
          var i, t :| 0 <= i < |assemblies| && t in assemblies[i] && t.fullName == n;
          assert t in ts;
          var k :| 0 <= k < |ts| && ts[k] == t;
        }
      }
    }
    assert forall n :: n in r ==> LastNamed(ts, n, r[n]) by {
      forall n | n in r
        ensures LastNamed(ts, n, r[n])
      {
        CollectKeepsLast(ts, n);
      }
    }
    r
  }

  /** Two types sharing a name: the one from the later assembly is kept. */
  lemma LaterAssemblyWins(a: TypeInfo, b: TypeInfo)
    requires a.fullName == b.fullName
    ensures GetAssemblyTypes([[a], [b]]) == map[a.fullName := b]
  {
    assert Flatten([[a], [b]]) == [a, b] by {
      assert Flatten([[b]]) == [b] by {
        assert [[b]][1..] == [];
      }
      assert [[a], [b]][1..] == [[b]];
    }
    assert [a, b][..1] == [a];
  }

  /** The non-abstract types among the values of `add` under the keys in
      `done` that carry attribute kind `a`. */
  ghost function TaggedIn(add: map<string, TypeInfo>, done: set<string>, a: string): set<TypeInfo> {
    set n | n in done && n in add && !add[n].isAbstract && a in add[n].attributes :: add[n]
  }

  ghost function Tagged(add: map<string, TypeInfo>, a: string): set<TypeInfo> {
    TaggedIn(add, add.Keys, a)
  }

  /** `GetTypes`: the set registered for an attribute kind, or a new empty set
      (which is not registered) for an unknown kind. */
  function GetTypes(idx: Index, attributeType: string): (r: set<TypeInfo>)
    ensures attributeType !in idx.types ==> r == {}
    ensures attributeType in idx.types ==> r == idx.types[attributeType]
  {
    if attributeType !in idx.types then {} else idx.types[attributeType]
  }

  /** The inner loop of `Awake`: `type` joins the set of each of its attribute
      kinds, creating the set on first use. */
  function AddToSets(types: map<string, set<TypeInfo>>, t: TypeInfo, attrs: seq<string>): (r: map<string, set<TypeInfo>>)
    ensures forall a :: a in r <==> a in types || a in attrs
    ensures forall a :: a in r ==> r[a] == (if a in types then types[a] else {}) + (if a in attrs then {t} else {})
    decreases |attrs|
  {
    if attrs == [] then types
    else
      var a := attrs[0];
      var set0 := if a in types then types[a] else {};
      var r := AddToSets(types[a := set0 + {t}], t, attrs[1..]);
      assert forall b :: b in attrs <==> b == a || b in attrs[1..];
      r
  }

  /** Adding key `n` to the visited keys adds `add[n]` to each of its kinds. */
  lemma TaggedInStep(add: map<string, TypeInfo>, done: set<string>, n: string, a: string)
    requires n in add
    ensures TaggedIn(add, done + {n}, a) ==
      TaggedIn(add, done, a) + (if !add[n].isAbstract && a in add[n].attributes then {add[n]} else {})
  {
  }

  /** The attribute set of kind `a` after visiting the keys in `done`. */
  ghost predicate RegisteredAt(idx: Index, add: map<string, TypeInfo>, done: set<string>, r: Index, a: string) {
    && (a in r.types <==> a in idx.types || TaggedIn(add, done, a) != {})
    && GetTypes(r, a) == GetTypes(idx, a) + TaggedIn(add, done, a)
  }

  ghost predicate Registered(idx: Index, add: map<string, TypeInfo>, done: set<string>, r: Index) {
    forall a :: RegisteredAt(idx, add, done, r, a)
  }

  /** Registering `add[n]` (unless abstract) under its kinds. */
  function Register(r: Index, t: TypeInfo): (r1: Index)
    ensures t.isAbstract ==> r1 == r
    ensures r1.allTypes == r.allTypes
    ensures forall a :: (a in r1.types <==> a in r.types || (!t.isAbstract && a in t.attributes))
    ensures forall a :: GetTypes(r1, a) == GetTypes(r, a) + (if !t.isAbstract && a in t.attributes then {t} else {})
  {
    if t.isAbstract then r else r.(types := AddToSets(r.types, t, t.attributes))
  }

  lemma RegisterStepAt(idx: Index, add: map<string, TypeInfo>, done: set<string>, n: string, r: Index, a: string)
    requires n in add && RegisteredAt(idx, add, done, r, a)
    ensures RegisteredAt(idx, add, done + {n}, Register(r, add[n]), a)
  {
    TaggedInStep(add, done, n, a);
  }

  /** The attribute sets do not depend on `allTypes`. */
  lemma RegisteredIgnoresAllTypes(idx: Index, add: map<string, TypeInfo>, done: set<string>, r: Index, m: map<string, TypeInfo>)
    requires Registered(idx, add, done, r)
    ensures Registered(idx, add, done, r.(allTypes := m))
  {
    forall a
      ensures RegisteredAt(idx, add, done, r.(allTypes := m), a)
    {
      assert RegisteredAt(idx, add, done, r, a);
    }
  }

  /** One iteration of the outer loop of `Awake` on the attribute sets. */
  lemma RegisterStep(idx: Index, add: map<string, TypeInfo>, done: set<string>, n: string, r: Index)
    requires n in add && Registered(idx, add, done, r)
    ensures Registered(idx, add, done + {n}, Register(r, add[n]))
  {
    forall a
      ensures RegisteredAt(idx, add, done + {n}, Register(r, add[n]), a)
    {
      RegisterStepAt(idx, add, done, n, r, a);
    }
  }

  /** `Awake`: collects the types of the assemblies and registers them, in
      the dictionary's (unspecified) order. Every type goes into `allTypes`
      under its full name; each non-abstract type joins the set of every
      attribute kind it carries. */
  method Awake(idx: Index, assemblies: seq<Assembly>) returns (r: Index)
    ensures r.allTypes == idx.allTypes + GetAssemblyTypes(assemblies)
    ensures Registered(idx, GetAssemblyTypes(assemblies), GetAssemblyTypes(assemblies).Keys, r)
  {
    r := RegisterAll(idx, GetAssemblyTypes(assemblies));
  }

  /** The outer loop of `Awake` over the collected dictionary. */
  method RegisterAll(idx: Index, add: map<string, TypeInfo>) returns (r: Index)
    ensures r.allTypes == idx.allTypes + add
    ensures Registered(idx, add, add.Keys, r)
  {
    r := idx;
    var done: set<string> := {};
    while done != add.Keys
      invariant done <= add.Keys
      invariant r.allTypes.Keys == idx.allTypes.Keys + done
      invariant forall n :: n in r.allTypes ==> r.allTypes[n] == if n in done then add[n] else idx.allTypes[n]
      invariant Registered(idx, add, done, r)
      decreases add.Keys - done
    {
      assert add.Keys - done != {};
      var n :| n in add.Keys - done;
      var t := add[n];
      RegisterStep(idx, add, done, n, r);
      r := Register(r, t);
      RegisteredIgnoresAllTypes(idx, add, done + {n}, r, r.allTypes[n := t]);
      r := r.(allTypes := r.allTypes[n := t]);
      done := done + {n};
    }
    assert r.allTypes == idx.allTypes + add;
  }

  /** What `Awake` promises about the attribute sets: abstract types never
      enter one, and sets only grow. */
  lemma AwakeKeepsSetsConcrete(idx: Index, add: map<string, TypeInfo>, r: Index)
    requires Registered(idx, add, add.Keys, r)
    requires forall a, t :: a in idx.types && t in idx.types[a] ==> !t.isAbstract
    ensures forall a, t :: t in GetTypes(r, a) ==> !t.isAbstract
    ensures forall a :: GetTypes(idx, a) <= GetTypes(r, a)
  {
    forall a
      ensures forall t :: t in GetTypes(r, a) ==> !t.isAbstract
      ensures GetTypes(idx, a) <= GetTypes(r, a)
    {
      assert RegisteredAt(idx, add, add.Keys, r, a);
      forall t | t in TaggedIn(add, add.Keys, a)
        ensures !t.isAbstract
      {
        var n :| n in add.Keys && n in add && !add[n].isAbstract && a in add[n].attributes && add[n] == t;
      }
    }
  }
}

=== FILE: event_registry.dfy ===
/** The local listener tables of `ProcedureBase` and `ControllerBase`: one
    handler per event type, each registration forwarded once to the global
    event bus. The bus itself (`GameEvent`) is a multiset of subscriptions. */
module EventRegistry {

  type EventType = int

  /** A subscription: an event type and its handler. */
  type Subscription<H> = (EventType, H)

  /** The `_events` dictionary, in insertion order (the order in which a
      `Dictionary` that is only ever added to enumerates its pairs). */
  type Events<H> = seq<Subscription<H>>

  /** The global bus: how many times each pair is subscribed. */
  type Bus<H(==)> = multiset<Subscription<H>>

  /** `_events.ContainsKey(t)`. */
  predicate HasKey<H(==)>(events: Events<H>, t: EventType) {
    exists i | 0 <= i < |events| :: events[i].0 == t
  }

  /** At most one handler per event type, as a dictionary guarantees. */
  ghost predicate KeysDistinct<H>(events: Events<H>) {
    forall i, j :: 0 <= i < j < |events| ==> events[i].0 != events[j].0
  }

  /** Every pair of the table is subscribed on the bus. */
  ghost predicate Subscribed<H>(events: Events<H>, bus: Bus<H>) {
    multiset(events) <= bus
  }

  /** The table and the bus after a registration, and whether the
      "already exist" error was logged. */
  datatype Registration<H(==)> = Registration(events: Events<H>, bus: Bus<H>, errorLogged: bool)

  /** `AddEventListener(eventType, handler)`: a type already in the table logs
      an error and changes nothing; a new one is stored and subscribed once. */
  function AddEventListener<H(==)>(events: Events<H>, bus: Bus<H>, t: EventType, h: H): (r: Registration<H>)
    ensures HasKey(events, t) <==> r.errorLogged
    ensures r.errorLogged ==> r.events == events && r.bus == bus
    ensures !r.errorLogged ==> r.events == events + [(t, h)] && r.bus == bus + multiset{(t, h)}
    ensures HasKey(r.events, t)
    ensures KeysDistinct(events) ==> KeysDistinct(r.events)
    ensures Subscribed(events, bus) ==> Subscribed(r.events, r.bus)
  {
    if HasKey(events, t) then Registration(events, bus, true)
    else
      var r := Registration(events + [(t, h)], bus + multiset{(t, h)}, false);
      assert r.events[|events|].0 == t;
      r
  }

  /** `RemoveAllEventListeners`: unsubscribes each stored pair once, in
      table order. The table itself is kept. */
  function RemoveAllEventListeners<H(==)>(events: Events<H>, bus: Bus<H>): (r: Bus<H>)
    ensures r <= bus
  {
    if events == [] then bus else RemoveAllEventListeners(events[1..], bus - multiset{events[0]})
  }

  /** Unsubscribing the pairs one by one removes exactly the table's pairs. */
  lemma {:induction false} RemoveAllIsDifference<H>(events: Events<H>, bus: Bus<H>)
    ensures RemoveAllEventListeners(events, bus) == bus - multiset(events)
  {
    if events != [] {
      var x, rest := events[0], events[1..];
      assert RemoveAllEventListeners(events, bus) == RemoveAllEventListeners(rest, bus - multiset{x});
      RemoveAllIsDifference(rest, bus - multiset{x});
      MultisetOfCons(events);
      DifferenceOfDifference(bus, multiset{x}, multiset(rest));
    }
  }

  lemma MultisetOfCons<T>(s: seq<T>)
    requires s != []
    ensures multiset(s) == multiset{s[0]} + multiset(s[1..])
  {
    assert s == [s[0]] + s[1..];
  }

  lemma DifferenceOfDifference<T>(b: multiset<T>, a: multiset<T>, c: multiset<T>)
    ensures (b - a) - c == b - (a + c)
  {
    forall x
      ensures ((b - a) - c)[x] == (b - (a + c))[x]
    {
    }
  }

  /** Leaving undoes exactly what registering did: on a bus that holds the
      table's pairs, the pairs come off and nothing else does. */
  lemma LeaveUndoesRegistrations<H>(events: Events<H>, bus: Bus<H>)
    requires Subscribed(events, bus)
    ensures RemoveAllEventListeners(events, bus) + multiset(events) == bus
  {
    RemoveAllIsDifference(events, bus);
  }

  /** Because leaving keeps the table, registering the same type after
      leaving logs the error and subscribes nothing: the handler stays off
      the bus. */
  lemma ReRegistrationAfterLeaveIsRejected<H>(events: Events<H>, bus: Bus<H>, t: EventType, h: H)
    requires !HasKey(events, t) && Subscribed(events, bus) && (t, h) !in bus
    ensures var first := AddEventListener(events, bus, t, h);
      var left := RemoveAllEventListeners(first.events, first.bus);
      var again := AddEventListener(first.events, left, t, h);
      && again.errorLogged
      && again.bus == bus - multiset(events)
      && (t, h) !in again.bus
  {
    var first := AddEventListener(events, bus, t, h);
    RemoveAllIsDifference(first.events, first.bus);
    assert multiset(first.events) == multiset(events) + multiset{(t, h)};
    var b, m, p := bus, multiset(events), multiset{(t, h)};
    assert (b + p) - (m + p) == b - m by {
      forall x
        ensures ((b + p) - (m + p))[x] == (b - m)[x]
      {
      }
    }
  }

  /** `ControllerBase.Awake` registering its handlers one after another:
      there is no removal, so registrations only accumulate. */
  function RegisterAll<H(==)>(events: Events<H>, bus: Bus<H>, adds: seq<Subscription<H>>): (r: Registration<H>)
    ensures events <= r.events
    ensures bus <= r.bus
    ensures KeysDistinct(events) ==> KeysDistinct(r.events)
    ensures Subscribed(events, bus) ==> Subscribed(r.events, r.bus)
    decreases |adds|
  {
    if adds == [] then Registration(events, bus, false)
    else
      var one := AddEventListener(events, bus, adds[0].0, adds[0].1);
      RegisterAll(one.events, one.bus, adds[1..])
  }

  /** After the registrations every requested event type has a handler in the table. */
  lemma {:induction false} RegisterAllCoversEveryType<H>(events: Events<H>, bus: Bus<H>, adds: seq<Subscription<H>>)
    ensures forall k :: 0 <= k < |adds| ==> HasKey(RegisterAll(events, bus, adds).events, adds[k].0)
    decreases |adds|
  {
    if adds != [] {
      var one := AddEventListener(events, bus, adds[0].0, adds[0].1);
      var r := RegisterAll(one.events, one.bus, adds[1..]);
      assert RegisterAll(events, bus, adds) == r;
      RegisterAllCoversEveryType(one.events, one.bus, adds[1..]);
      forall k | 0 <= k < |adds|
        ensures HasKey(r.events, adds[k].0)
      {
        if k == 0 {
          HasKeyOfExtension(one.events, r.events, adds[0].0);
        } else {
          assert adds[k] == adds[1..][k - 1];
        }
      }
    }
  }

  /** A key of a table is a key of every extension of it. */
  lemma HasKeyOfExtension<H>(a: Events<H>, b: Events<H>, t: EventType)
    requires a <= b && HasKey(a, t)
    ensures HasKey(b, t)
  {
    var i :| 0 <= i < |a| && a[i].0 == t;
    assert b[i] == a[i];
  }
}

=== FILE: game_flow.dfy ===
/** The game's procedure state machine: Entrance, ChangeScene, Home and
    Battle, talking to each other through the state machine's blackboard. */
module GameFlow {
  import opened Wrappers
  import opened EventRegistry

  /** The procedures registered at start-up, in order. */
  datatype Procedure = Entrance | ChangeScene | Home | Battle

  /** A blackboard value: a procedure type or a scene name. */
  datatype Data = ProcedureType(procedure: Procedure) | Text(text: string)

  /** The only handler of the model: `ProcedureHome.EnterBattle`. */
  datatype Handler = EnterBattle

  /** A blackboard entry that is missing or of the wrong kind. */
  datatype FlowFault = MissingData(key: string)

  const NextProcedureKey := "NextProcedure"
  const NextSceneNameKey := "NextSceneName"

  /** `ProcedureChangeScene._count` before the first entry. */
  const InitialCount := 50
  /** The number of updates `ProcedureChangeScene` waits for. */
  const WaitUpdates := 100

  /** `ProcedureHome.UseNativeDialog`: a get-only auto-property never assigned. */
  const HomeUsesNativeDialog := false

  /** The machine: the current procedure, the blackboard, the countdown of
      `ProcedureChangeScene`, the listener table of `ProcedureHome`, the
      global bus, the scenes whose loading was started, and the value of
      `EventHome.EnterBattle`. */
  datatype Game = Game(
    current: Procedure,
    blackboard: map<string, Data>,
    count: int,
    homeEvents: Events<Handler>,
    bus: Bus<Handler>,
    loadedScenes: seq<string>,
    enterBattle: EventType)

  type Step = Outcome<Game, FlowFault>

  /** `GetData<string>(key)`. */
  function SceneName(g: Game, key: string): (r: Option<string>)
    ensures r.Some? <==> key in g.blackboard && g.blackboard[key].Text?
    ensures r.Some? ==> g.blackboard[key] == Text(r.value)
  {
    if key in g.blackboard && g.blackboard[key].Text? then Some(g.blackboard[key].text) else None
  }

  /** `GetData<Type>(key)`. */
  function ProcedureOf(g: Game, key: string): (r: Option<Procedure>)
    ensures r.Some? <==> key in g.blackboard && g.blackboard[key].ProcedureType?
    ensures r.Some? ==> g.blackboard[key] == ProcedureType(r.value)
  {
    if key in g.blackboard && g.blackboard[key].ProcedureType? then Some(g.blackboard[key].procedure) else None
  }

  /** `ProcedureChangeScene.OnEnter`: restarts the countdown at 100 and starts
      loading the scene named on the blackboard. */
  function EnterChangeScene(g: Game): (r: Step)
    ensures r.Completed? <==> SceneName(g, NextSceneNameKey).Some?
    ensures r.Completed? ==>
      r.state == g.(count := WaitUpdates, loadedScenes := g.loadedScenes + [SceneName(g, NextSceneNameKey).value])
    ensures r.Faulted? ==> r.state == g && r.fault == MissingData(NextSceneNameKey)
  {
    match SceneName(g, NextSceneNameKey)
    case None => Faulted(g, MissingData(NextSceneNameKey))
    case Some(name) => Completed(g.(count := WaitUpdates, loadedScenes := g.loadedScenes + [name]))
  }

  /** `ProcedureHome.OnEnter`: registers `EnterBattle` through the base
      class's listener table. */
  function EnterHome(g: Game): (r: Game)
    ensures HasKey(g.homeEvents, g.enterBattle) ==> r == g
    ensures !HasKey(g.homeEvents, g.enterBattle) ==>
      r.bus == g.bus + multiset{(g.enterBattle, EnterBattle)} && r.homeEvents == g.homeEvents + [(g.enterBattle, EnterBattle)]
    ensures r == g.(homeEvents := r.homeEvents, bus := r.bus)
    ensures HasKey(r.homeEvents, g.enterBattle)
  {
    var reg := AddEventListener(g.homeEvents, g.bus, g.enterBattle, EnterBattle);
    g.(homeEvents := reg.events, bus := reg.bus)
  }

  /** `OnEnter` of procedure `p`, which has just become current. The
      entrance writes the next procedure and scene and moves on to the
      scene change at once. */
  function Enter(g: Game, p: Procedure): (r: Step)
    requires g.current == p
    ensures p == Entrance ==>
      && r.Completed? && r.state.current == ChangeScene
      && ProcedureOf(r.state, NextProcedureKey) == Some(Home)
      && SceneName(r.state, NextSceneNameKey) == Some("scene_home")
      && r.state.loadedScenes == g.loadedScenes + ["scene_home"]
    ensures p != Entrance ==> r.state.blackboard == g.blackboard
    ensures p == Battle ==> r == Completed(g)
    ensures p != Entrance ==> r.state.current == p
    decreases if p == Entrance then 1 else 0
  {
    match p
    case Entrance =>
      var g1 := g.(blackboard := g.blackboard[NextProcedureKey := ProcedureType(Home)][NextSceneNameKey := Text("scene_home")]);
      Enter(g1.(current := ChangeScene), ChangeScene)
    case ChangeScene => EnterChangeScene(g)
    case Home => Completed(EnterHome(g))
    case Battle => Completed(g)
  }

  /** `OnLeave` of the current procedure: only `ProcedureHome` (through its
      base class) unsubscribes its listeners; its table is kept. */
  function Leave(g: Game): (r: Game)
    ensures g.current == Home ==> r.bus == g.bus - multiset(g.homeEvents)
    ensures g.current != Home ==> r == g
    ensures r == g.(bus := r.bus)
  {
    RemoveAllIsDifference(g.homeEvents, g.bus);
    if g.current == Home then g.(bus := RemoveAllEventListeners(g.homeEvents, g.bus)) else g
  }

  /** `ChangeState(to)`: leave the current procedure, make `to` current, enter it. */
  function ChangeState(g: Game, to: Procedure): (r: Step)
    ensures to != Entrance ==> r.state.current == to
    ensures to != Entrance ==> r.state.blackboard == g.blackboard
    ensures to == Entrance ==> r.Completed? && r.state.current == ChangeScene
    ensures to == Battle && g.current != Home ==> r == Completed(g.(current := Battle))
    ensures to == Battle && g.current == Home ==>
      r == Completed(g.(current := Battle, bus := g.bus - multiset(g.homeEvents)))
    ensures to == Home ==> r.Completed? && HasKey(r.state.homeEvents, g.enterBattle)
    ensures to == Home && HasKey(g.homeEvents, g.enterBattle) ==> r.state.homeEvents == g.homeEvents
  {
    Enter(Leave(g).(current := to), to)
  }

  /** `ProcedureChangeScene.OnUpdate`: counts down, and once the count is at
      or below zero changes to the procedure named on the blackboard. The
      other procedures do nothing on update. */
  function Update(g: Game): (r: Step)
    ensures g.current != ChangeScene ==> r == Completed(g)
    ensures g.current == ChangeScene && g.count > 1 ==> r == Completed(g.(count := g.count - 1))
    ensures g.current == ChangeScene && g.count <= 1 && ProcedureOf(g, NextProcedureKey).None? ==>
      r == Faulted(g.(count := g.count - 1), MissingData(NextProcedureKey))
    ensures g.current == ChangeScene && g.count <= 1 && ProcedureOf(g, NextProcedureKey).Some? ==>
      r == ChangeState(g.(count := g.count - 1), ProcedureOf(g, NextProcedureKey).value)
  {
    if g.current != ChangeScene then Completed(g)
    else
      var g1 := g.(count := g.count - 1);
      if g1.count <= 0 then
        match ProcedureOf(g1, NextProcedureKey)
        case None => Faulted(g1, MissingData(NextProcedureKey))
        case Some(p) => ChangeState(g1, p)
      else Completed(g1)
  }

  /** `n` updates in a row, stopping at a fault. */
  function Updates(g: Game, n: nat): (r: Step)
    ensures n == 0 ==> r == Completed(g)
    decreases n
  {
    if n == 0 then Completed(g)
    else
      match Update(g)
      case Completed(g1) => Updates(g1, n - 1)
      case Faulted(g1, f) => Faulted(g1, f)
  }

  /** `ProcedureHome.EnterBattle`: names the battle procedure and scene,
      then changes to the scene change. */
  function RunEnterBattle(g: Game): (r: Step)
    ensures r.state.current == ChangeScene
    ensures ProcedureOf(r.state, NextProcedureKey) == Some(Battle)
    ensures r.Completed? && r.state.loadedScenes == Leave(g).loadedScenes + ["scene_battle"]
  {
    var g1 := g.(blackboard := g.blackboard[NextProcedureKey := ProcedureType(Battle)][NextSceneNameKey := Text("scene_battle")]);
    ChangeState(g1, ChangeScene)
  }

  /** The bus delivering `EventHome.EnterBattle`: the handler runs when it is subscribed. */
  function Fire(g: Game, ev: EventType): (r: Step)
    ensures (ev, EnterBattle) !in g.bus ==> r == Completed(g)
    ensures (ev, EnterBattle) in g.bus ==> r == RunEnterBattle(g)
  {
    if (ev, EnterBattle) in g.bus then RunEnterBattle(g) else Completed(g)
  }

  /** `RestartProcedure`: a fresh machine entering the first procedure. */
  function Start(enterBattle: EventType): (r: Step)
    ensures r.Completed? && r.state.current == ChangeScene
    ensures r.state.count == WaitUpdates && r.state.loadedScenes == ["scene_home"]
    ensures ProcedureOf(r.state, NextProcedureKey) == Some(Home)
    ensures r.state.bus == multiset{} && r.state.homeEvents == []
  {
    Enter(Game(Entrance, map[], InitialCount, [], multiset{}, [], enterBattle), Entrance)
  }

  /** While the countdown is above one, updates only count down. */
  lemma {:induction false} CountdownWaits(g: Game, n: nat)
    requires g.current == ChangeScene && n < g.count
    ensures Updates(g, n) == Completed(g.(count := g.count - n))
    decreases n
  {
    if n > 0 {
      var g1 := g.(count := g.count - 1);
      assert Update(g) == Completed(g1);
      CountdownWaits(g1, n - 1);
      assert g1.(count := g1.count - (n - 1)) == g.(count := g.count - n);
    }
  }

  /** After entering the scene change, the first 99 updates wait and the
      100th changes to the procedure named on the blackboard. */
  lemma TransitionOnHundredthUpdate(g: Game)
    requires g.current == ChangeScene && g.count == WaitUpdates
    requires ProcedureOf(g, NextProcedureKey).Some?
    ensures Updates(g, WaitUpdates - 1) == Completed(g.(count := 1))
    ensures Update(g.(count := 1)) == ChangeState(g.(count := 0), ProcedureOf(g, NextProcedureKey).value)
  {
    CountdownWaits(g, WaitUpdates - 1);
  }

  /** The opening of the game: 99 updates after start the scene change is
      still waiting; the 100th reaches Home, which subscribes `EnterBattle`. */
  lemma StartReachesHome(ev: EventType)
    ensures var g := Start(ev).state;
      && Updates(g, WaitUpdates - 1) == Completed(g.(count := 1))
      && var home := Update(g.(count := 1));
      && home.Completed? && home.state.current == Home
      && home.state.bus == multiset{(ev, EnterBattle)}
  {
    var g := Start(ev).state;
    TransitionOnHundredthUpdate(g);
    var g0 := g.(count := 0);
    assert Leave(g0) == g0;
    assert !HasKey(g0.homeEvents, ev);
  }

  /** Firing `EnterBattle` from Home unsubscribes the handler, names Battle
      and starts loading "scene_battle". */
  lemma EnterBattleLeavesHome(g: Game)
    requires g.current == Home && (g.enterBattle, EnterBattle) in g.bus
    requires g.homeEvents == [(g.enterBattle, EnterBattle)] && g.bus == multiset{(g.enterBattle, EnterBattle)}
    ensures var r := Fire(g, g.enterBattle);
      && r.Completed? && r.state.current == ChangeScene
      && r.state.bus == multiset{}
      && ProcedureOf(r.state, NextProcedureKey) == Some(Battle)
      && r.state.loadedScenes == g.loadedScenes + ["scene_battle"]
      && r.state.count == WaitUpdates
  {
    assert multiset(g.homeEvents) == g.bus;
  }

  /** Entering Home again finds `EnterBattle` still in the table, so nothing
      is subscribed: after Home has been left once, the battle event no
      longer reaches it. */
  lemma HomeReEntryDoesNotResubscribe(g: Game)
    requires g.current == Home && HasKey(g.homeEvents, g.enterBattle)
    ensures Enter(g, Home) == Completed(g)
  {
  }
}

=== FILE: paths.dfy ===
/** The `System.IO.Path` queries the source uses, on paths whose separators have
    already been normalised to '/'. */
module Paths {
  import opened Wrappers
  import opened Strings

  /** `Path.GetFileName`: the last segment. */
  function FileName(p: string): (r: string)
    ensures '/' !in r
    ensures EndsWith(p, r)
    ensures '/' !in p ==> r == p
    ensures '/' in p ==> |r| < |p| && p[|p| - |r| - 1] == '/'
  {
    var k := LastIndexOf(p, '/');
    if k < 0 then p else p[k + 1..]
  }

  /** `Path.GetDirectoryName`: everything before the last '/', "" for a bare
      name, and null for the empty path. */
  function DirectoryName(p: string): (r: Option<string>)
    ensures r.None? <==> p == ""
    ensures r.Some? ==> |r.value| < |p|
    ensures r.Some? && '/' in p ==> p == r.value + "/" + FileName(p)
    ensures r.Some? && '/' !in p ==> r.value == ""
  {
    if p == [] then None
    else
      var k := LastIndexOf(p, '/');
      if k < 0 then Some("")
      else
        assert p == p[..k] + "/" + p[k + 1..];
        Some(p[..k])
  }

  /** The directory of `dir/name` is `dir`. */
  lemma DirectoryNameOfChild(dir: string, name: string)
    requires '/' !in name
    ensures DirectoryName((dir + "/") + name) == Some(dir)
  {
    var p := (dir + "/") + name;
    assert p[|dir|] == '/';
    assert LastIndexOf(p, '/') == |dir|;
    assert p[..|dir|] == dir;
  }

  /** `Path.GetExtension`: from the last '.' of the file name, or "" when the
      name has no '.' or ends with it. */
  function Extension(p: string): (r: string)
    ensures r == [] || (r[0] == '.' && |r| >= 2 && '.' !in r[1..] && '/' !in r)
    ensures EndsWith(FileName(p), r)
  {
    NameExtension(FileName(p))
  }

  /** The extension of a '/'-free file name. */
  function NameExtension(name: string): (r: string)
    requires '/' !in name
    ensures r == [] || (r[0] == '.' && |r| >= 2 && '.' !in r[1..] && '/' !in r)
    ensures EndsWith(name, r)
  {
    var k := LastIndexOf(name, '.');
    if k < 0 || k == |name| - 1 then ""
    else
      SuffixFromLastDot(name, k);
      name[k..]
  }

  /** The part of a '/'-free name from its last '.' on, when something follows
      that '.'. */
  lemma SuffixFromLastDot(name: string, k: int)
    requires 0 <= k < |name| - 1 && name[k] == '.' && '.' !in name[k + 1..] && '/' !in name
    ensures var r := name[k..]; r[0] == '.' && |r| >= 2 && '.' !in r[1..] && '/' !in r
    ensures EndsWith(name, name[k..])
  {
    assert name[k..][1..] == name[k + 1..];
    SuffixWithout(name, '/', k);
  }

  /** `Path.GetFileNameWithoutExtension`: the file name up to its last '.'. */
  function FileNameWithoutExtension(p: string): (r: string)
    ensures StartsWith(FileName(p), r)
    ensures '/' !in r
  {
    NameStem(FileName(p))
  }

  /** The stem of a '/'-free file name. */
  function NameStem(name: string): (r: string)
    requires '/' !in name
    ensures StartsWith(name, r)
    ensures '/' !in r
  {
    var k := LastIndexOf(name, '.');
    var end := if k < 0 then |name| else k;
    PrefixWithout(name, '/', end);
    name[..end]
  }

  /** Stem and extension put back together give the file name whenever there
      is an extension. */
  lemma StemAndExtension(p: string)
    ensures Extension(p) != "" ==> FileNameWithoutExtension(p) + Extension(p) == FileName(p)
  {
    if Extension(p) != "" {
      NameStemAndExtension(FileName(p));
    }
  }

  lemma NameStemAndExtension(name: string)
    requires '/' !in name && NameExtension(name) != ""
    ensures NameStem(name) + NameExtension(name) == name
  {
    var k := LastIndexOf(name, '.');
    assert NameExtension(name) == name[k..];
    assert NameStem(name) == name[..k];
    assert name[..k] + name[k..] == name;
  }

  /** A file name whose only '.' introduces `ext` has exactly that extension. */
  lemma ExtensionOfName(dir: string, stem: string, ext: string)
    requires '/' !in stem && '.' !in stem
    requires |ext| >= 2 && ext[0] == '.' && '.' !in ext[1..] && '/' !in ext
    ensures Extension(dir + "/" + stem + ext) == ext
    ensures FileNameWithoutExtension(dir + "/" + stem + ext) == stem
  {
    var name := stem + ext;
    assert '/' !in name;
    FileNameAfterSlash(dir, name);
    assert dir + "/" + stem + ext == (dir + "/") + name;
    NameOfStemAndExtension(stem, ext);
  }

  /** The file name of `dir/name` is `name`. */
  lemma FileNameAfterSlash(dir: string, name: string)
    requires '/' !in name
    ensures FileName((dir + "/") + name) == name
  {
    var p := (dir + "/") + name;
    var k := LastIndexOf(p, '/');
    assert p[|dir|] == '/';
    assert k == |dir|;
    assert p[k + 1..] == name;
  }

  lemma NameOfStemAndExtension(stem: string, ext: string)
    requires '/' !in stem && '.' !in stem
    requires |ext| >= 2 && ext[0] == '.' && '.' !in ext[1..] && '/' !in ext
    ensures '/' !in stem + ext
    ensures NameExtension(stem + ext) == ext && NameStem(stem + ext) == stem
  {
    var name := stem + ext;
    assert '/' !in name;
    var k := LastIndexOf(name, '.');
    assert name[|stem|] == '.';
    assert k == |stem|;
    assert name[k..] == ext;
    assert name[..k] == stem;
  }
}

=== FILE: reference_pool.dfy ===
/** `ReferenceCollection`: the per-type free list of the memory pool. Unused
    references wait in a FIFO queue; six counters track the traffic. */
module ReferencePool {
  import opened Seqs

  /** A runtime type, as an opaque identifier. */
  type TypeId = nat

  /** A pooled object: its identity and its runtime type. Two references are
      the same object exactly when they are equal. */
  datatype Reference = Reference(id: nat, runtimeType: TypeId)

  /** The `GameFrameworkException`s ("Type is invalid.", "The reference has
      been released.") and the `InvalidCastException` of `(T)Dequeue()`. */
  datatype PoolFault = TypeIsInvalid | AlreadyReleased | InvalidCast

  /** The collection; `references[0]` is the front of the queue. `nextId` is
      an identity no object seen by the collection has, used for `new T()`. */
  datatype Collection = Collection(
    referenceType: TypeId,
    references: seq<Reference>,
    usingCount: int,
    acquireCount: int,
    releaseCount: int,
    addCount: int,
    removeCount: int,
    nextId: nat)
  {
    /** `UnusedReferenceCount`. */
    function UnusedCount(): nat {
      |references|
    }
  }

  /** The constructor: an empty queue and zero counters. */
  function Create(referenceType: TypeId): (c: Collection)
    ensures Consistent(c) && c.references == [] && c.referenceType == referenceType
  {
    Collection(referenceType, [], 0, 0, 0, 0, 0, 0)
  }

  /** What the counters promise about the queue, plus distinct references
      with identities below `nextId`. */
  ghost predicate Consistent(c: Collection) {
    && c.UnusedCount() == c.addCount + c.releaseCount - c.acquireCount - c.removeCount
    && c.usingCount == c.acquireCount - c.releaseCount
    && NoDuplicates(c.references)
    && forall k :: 0 <= k < |c.references| ==> c.references[k].id < c.nextId
  }

  /** The outcome of an acquisition: the reference handed out, or an
      exception thrown with the collection as it then stood. */
  datatype Acquisition = Acquired(pool: Collection, reference: Reference) | Threw(pool: Collection, fault: PoolFault)

  /** `Acquire()`: counts the acquisition, then hands out the front of the
      queue, or a new instance of the reference type when the queue is empty. */
  function Acquire(c: Collection): (r: (Collection, Reference))
    ensures r.0.usingCount == c.usingCount + 1 && r.0.acquireCount == c.acquireCount + 1
    ensures r.0.releaseCount == c.releaseCount && r.0.removeCount == c.removeCount
    ensures r.0.referenceType == c.referenceType
    ensures c.references != [] ==>
      r.1 == c.references[0] && r.0.references == c.references[1..] && r.0.addCount == c.addCount
    ensures c.references == [] ==>
      && r.0.references == [] && r.0.addCount == c.addCount + 1
      && r.1.runtimeType == c.referenceType && r.1.id >= c.nextId && r.0.nextId > r.1.id
    ensures Consistent(c) ==> Consistent(r.0)
  {
    var c1 := c.(usingCount := c.usingCount + 1, acquireCount := c.acquireCount + 1);
    if |c1.references| > 0 then
      (c1.(references := c1.references[1..]), c1.references[0])
    else
      var created := Reference(c1.nextId, c1.referenceType);
      (c1.(addCount := c1.addCount + 1, nextId := c1.nextId + 1), created)
  }

  /** `Acquire<T>()`: a `T` other than the reference type throws before
      anything changes; otherwise as `Acquire()`, except that a queued
      reference whose runtime type is not `T` fails the cast after it has been
      dequeued and counted. */
  function AcquireAs(c: Collection, t: TypeId): (r: Acquisition)
    ensures t != c.referenceType ==> r == Threw(c, TypeIsInvalid)
    ensures t == c.referenceType ==> r.pool == Acquire(c).0
    ensures t == c.referenceType && r.Acquired? ==> r.reference == Acquire(c).1 && r.reference.runtimeType == t
    ensures t == c.referenceType && r.Threw? ==>
      r.fault == InvalidCast && c.references != [] && c.references[0].runtimeType != t
    ensures r.Acquired? && Consistent(c) ==> Consistent(r.pool)
  {
    if t != c.referenceType then Threw(c, TypeIsInvalid)
    else
      var (c1, x) := Acquire(c);
      if x.runtimeType != t then Threw(c1, InvalidCast) else Acquired(c1, x)
  }

  /** The result of an operation that may throw without changing anything. */
  datatype Change = Changed(pool: Collection) | Rejected(fault: PoolFault)

  /** `Release(reference)`: a reference already waiting in the queue throws
      and nothing changes; otherwise it joins the back of the queue. */
  function Release(c: Collection, x: Reference): (r: Change)
    ensures x in c.references <==> r == Rejected(AlreadyReleased)
    ensures x !in c.references ==>
      && r.Changed?
      && r.pool.references == c.references + [x]
      && r.pool.releaseCount == c.releaseCount + 1 && r.pool.usingCount == c.usingCount - 1
      && r.pool.acquireCount == c.acquireCount && r.pool.addCount == c.addCount
      && r.pool.removeCount == c.removeCount && r.pool.referenceType == c.referenceType
    ensures r.Changed? && Consistent(c) ==> Consistent(r.pool)
  {
    if x in c.references then Rejected(AlreadyReleased)
    else
      Changed(c.(references := c.references + [x],
                 releaseCount := c.releaseCount + 1,
                 usingCount := c.usingCount - 1,
                 nextId := if x.id < c.nextId then c.nextId else x.id + 1))
  }

  /** `count` new instances of type `t` with identities from `start` on. */
  function Instances(start: nat, t: TypeId, count: nat): (r: seq<Reference>)
    ensures |r| == count
    ensures forall k :: 0 <= k < count ==> r[k] == Reference(start + k, t)
    decreases count
  {
    if count == 0 then [] else [Reference(start, t)] + Instances(start + 1, t, count - 1)
  }

  /** `Add(count)`: adds `count` to `AddReferenceCount` whatever its sign,
      and enqueues `count` new instances when it is positive. */
  function Add(c: Collection, count: int): (r: Collection)
    ensures r.addCount == c.addCount + count
    ensures count > 0 ==> r.references == c.references + Instances(c.nextId, c.referenceType, count)
    ensures count <= 0 ==> r.references == c.references
    ensures r == c.(addCount := r.addCount, references := r.references, nextId := r.nextId)
    ensures Consistent(c) && count >= 0 ==> Consistent(r)
  {
    var n: nat := if count > 0 then count else 0;
    var created := Instances(c.nextId, c.referenceType, n);
    var r := c.(addCount := c.addCount + count, references := c.references + created, nextId := c.nextId + n);
    assert Consistent(c) && count >= 0 ==> Consistent(r) by {
      if Consistent(c) && count >= 0 {
        AppendFreshNoDuplicates(c.references, c.nextId, c.referenceType, n);
      }
    }
    r
  }

  /** Appending instances with identities not yet used keeps the queue free
      of duplicates. */
  lemma AppendFreshNoDuplicates(q: seq<Reference>, start: nat, t: TypeId, n: nat)
    requires NoDuplicates(q) && forall k :: 0 <= k < |q| ==> q[k].id < start
    ensures NoDuplicates(q + Instances(start, t, n))
  {
    var s := q + Instances(start, t, n);
    forall i, j | 0 <= i < j < |s|
      ensures s[i] != s[j]
    {
      if j >= |q| {
        assert s[j].id == start + (j - |q|);
      }
    }
  }

  /** `Add<T>(count)`: a `T` other than the reference type throws before
      anything changes. */
  function AddAs(c: Collection, t: TypeId, count: int): (r: Change)
    ensures t != c.referenceType <==> r == Rejected(TypeIsInvalid)
    ensures t == c.referenceType ==> r == Changed(Add(c, count))
  {
    if t != c.referenceType then Rejected(TypeIsInvalid) else Changed(Add(c, count))
  }

  /** `Remove(count)`: drops `min(count, length)` references from the front
      and counts them; a negative count drops none and subtracts. */
  function Remove(c: Collection, count: int): (r: Collection)
    ensures var k := if count > |c.references| then |c.references| else count;
      && r.removeCount == c.removeCount + k
      && r.references == c.references[(if k > 0 then k else 0)..]
    ensures r == c.(removeCount := r.removeCount, references := r.references)
    ensures Consistent(c) && count >= 0 ==> Consistent(r)
  {
    var k := if count > |c.references| then |c.references| else count;
    var dropped: nat := if k > 0 then k else 0;
    var r := c.(removeCount := c.removeCount + k, references := c.references[dropped..]);
    assert Consistent(c) && count >= 0 ==> Consistent(r) by {
      if Consistent(c) && count >= 0 {
        forall i, j | 0 <= i < j < |r.references|
          ensures r.references[i] != r.references[j]
        {
          assert r.references[i] == c.references[dropped + i];
          assert r.references[j] == c.references[dropped + j];
        }
      }
    }
    r
  }

  /** `RemoveAll()`: empties the queue and counts what it held. */
  function RemoveAll(c: Collection): (r: Collection)
    ensures r.references == [] && r.removeCount == c.removeCount + |c.references|
    ensures r == c.(removeCount := r.removeCount, references := [])
    ensures Consistent(c) ==> Consistent(r)
  {
    c.(removeCount := c.removeCount + |c.references|, references := [])
  }

  /** `RemoveAll` is `Remove` of the current length. */
  lemma RemoveAllIsRemoveOfLength(c: Collection)
    ensures RemoveAll(c) == Remove(c, |c.references|)
  {
  }

  /** A negative `Add` breaks the link between the queue and the counters. */
  lemma NegativeAddBreaksConsistency(t: TypeId)
    ensures Consistent(Create(t)) && !Consistent(Add(Create(t), -1))
  {
    assert Add(Create(t), -1).addCount == -1;
  }

  /** First in, first out: of two references released into an empty queue,
      the first is acquired first, then the second. */
  lemma FirstReleasedFirstAcquired(c: Collection, x: Reference, y: Reference)
    requires c.references == [] && x != y
    ensures Release(c, x).Changed?
    ensures var c1 := Release(c, x).pool;
      Release(c1, y).Changed? &&
      var c2 := Release(c1, y).pool;
      Acquire(c2).1 == x && Acquire(Acquire(c2).0).1 == y
  {
    var c1 := Release(c, x).pool;
    assert c1.references == [x];
    var c2 := Release(c1, y).pool;
    assert c2.references == [x, y];
    assert Acquire(c2).0.references == [y];
  }

  /** Releasing what was just acquired restores the counters and the
      contents of the queue; a pooled reference moves from the front to the back. */
  lemma AcquireThenRelease(c: Collection)
    requires Consistent(c)
    ensures var (c1, x) := Acquire(c);
      Release(c1, x).Changed? &&
      var c2 := Release(c1, x).pool;
      && c2.usingCount == c.usingCount
      && (c.references != [] ==> c2.references == c.references[1..] + [c.references[0]])
      && (c.references == [] ==> c2.references == [x])
      && multiset(c2.references) == multiset(c.references) + (if c.references == [] then multiset{x} else multiset{})
  {
    var (c1, x) := Acquire(c);
    if c.references != [] {
      NoDuplicatesTail(c.references);
      assert c.references == [c.references[0]] + c.references[1..];
    }
  }

  /** A released reference is refused a second time while it waits in the queue. */
  lemma DoubleReleaseIsRejected(c: Collection, x: Reference)
    requires Release(c, x).Changed?
    ensures Release(Release(c, x).pool, x) == Rejected(AlreadyReleased)
  {
  }
}

=== FILE: rule_display.dfy ===
/** The settings page's caption for a naming rule: a fixed Chinese caption
    chosen by keyword, or the rule text itself, abbreviated. */
module RuleDisplay {
  import opened Wrappers
  import opened Strings

  const NewRuleLabel := "新规则"

  /** A caption and the keywords that select it. */
  datatype KeywordRule = KeywordRule(keywords: seq<string>, caption: string)

  /** The keyword tests, in the order they are tried. */
  const KeywordRules: seq<KeywordRule> := [
    KeywordRule(["Btn"], "按钮规则"),
    KeywordRule(["Text", "Label"], "文本规则"),
    KeywordRule(["Img", "Image"], "图片规则"),
    KeywordRule(["Slider"], "滑动条规则"),
    KeywordRule(["Toggle"], "开关规则"),
    KeywordRule(["Input"], "输入框规则")]

  /** Some keyword of `rule` occurs in `s` (ordinal, case-sensitive). */
  predicate Hits(s: string, rule: KeywordRule) {
    exists k :: 0 <= k < |rule.keywords| && Contains(s, rule.keywords[k])
  }

  /** The caption of the first rule `s` hits. */
  function FirstHit(s: string, rules: seq<KeywordRule>): (r: Option<string>)
    ensures r.Some? ==> exists i :: 0 <= i < |rules| && Hits(s, rules[i]) && r.value == rules[i].caption &&
                                    forall j :: 0 <= j < i ==> !Hits(s, rules[j])
    ensures r.None? ==> forall i :: 0 <= i < |rules| ==> !Hits(s, rules[i])
  {
    if rules == [] then None
    else if Hits(s, rules[0]) then Some(rules[0].caption)
    else
      var r := FirstHit(s, rules[1..]);
      assert forall i :: 1 <= i < |rules| ==> rules[i] == rules[1..][i - 1];
      assert r.Some? ==> exists i :: 0 <= i < |rules| && Hits(s, rules[i]) && r.value == rules[i].caption &&
                                     forall j :: 0 <= j < i ==> !Hits(s, rules[j]) by {
        if r.Some? {
          var i :| 0 <= i < |rules[1..]| && Hits(s, rules[1..][i]) && r.value == rules[1..][i].caption &&
                   forall j :: 0 <= j < i ==> !Hits(s, rules[1..][j]);
          assert forall j :: 0 <= j < i + 1 ==> !Hits(s, rules[j]);
        }
      }
      r
  }

  /** Text longer than 10 characters keeps its first 10 and gains "...". */
  function Abbreviate(s: string): (r: string)
    ensures |s| <= 10 ==> r == s
    ensures |s| > 10 ==> |r| == 13 && StartsWith(r, s[..10]) && EndsWith(r, "...")
    ensures |r| <= 13
  {
    if |s| > 10 then s[..10] + "..." else s
  }

  /** `GetRuleDisplayName`: "新规则" for a null or empty rule; otherwise the
      caption of the first keyword group that occurs in it; otherwise the
      rule text, abbreviated. */
  function GetRuleDisplayName(regex: Option<string>): (r: string)
    ensures regex.None? || regex == Some("") ==> r == NewRuleLabel
    ensures regex.Some? && regex.value != "" ==>
      r == match FirstHit(regex.value, KeywordRules)
           case Some(caption) => caption
           case None => Abbreviate(regex.value)
  {
    if regex.None? || regex.value == "" then NewRuleLabel
    else
      var s := regex.value;
      assert FirstHit(s, KeywordRules) == FirstHitUnrolled(s) by {
        FirstHitOfKeywordRules(s);
      }
      if Contains(s, "Btn") then "按钮规则"
      else if Contains(s, "Text") || Contains(s, "Label") then "文本规则"
      else if Contains(s, "Img") || Contains(s, "Image") then "图片规则"
      else if Contains(s, "Slider") then "滑动条规则"
      else if Contains(s, "Toggle") then "开关规则"
      else if Contains(s, "Input") then "输入框规则"
      else Abbreviate(s)
  }

  /** The table lookup written out test by test. */
  function FirstHitUnrolled(s: string): Option<string> {
    if Contains(s, "Btn") then Some("按钮规则")
    else if Contains(s, "Text") || Contains(s, "Label") then Some("文本规则")
    else if Contains(s, "Img") || Contains(s, "Image") then Some("图片规则")
    else if Contains(s, "Slider") then Some("滑动条规则")
    else if Contains(s, "Toggle") then Some("开关规则")
    else if Contains(s, "Input") then Some("输入框规则")
    else None
  }

  lemma FirstHitOfKeywordRules(s: string)
    ensures FirstHit(s, KeywordRules) == FirstHitUnrolled(s)
  {
    var rs := KeywordRules;
    HitsOne(s, rs[0]);
    HitsTwo(s, rs[1]);
    HitsTwo(s, rs[2]);
    HitsOne(s, rs[3]);
    HitsOne(s, rs[4]);
    HitsOne(s, rs[5]);
  }

  lemma HitsOne(s: string, rule: KeywordRule)
    requires |rule.keywords| == 1
    ensures Hits(s, rule) <==> Contains(s, rule.keywords[0])
  {
  }

  lemma HitsTwo(s: string, rule: KeywordRule)
    requires |rule.keywords| == 2
    ensures Hits(s, rule) <==> Contains(s, rule.keywords[0]) || Contains(s, rule.keywords[1])
  {
  }

  /** Without a keyword the caption is never longer than 13 characters and
      starts like the rule. */
  lemma PlainLabelIsShort(s: string)
    requires s != "" && FirstHit(s, KeywordRules).None?
    ensures |GetRuleDisplayName(Some(s))| <= 13
    ensures |s| <= 10 ==> GetRuleDisplayName(Some(s)) == s
    ensures |s| > 10 ==> GetRuleDisplayName(Some(s)) == s[..10] + "..."
  {
  }

  /** A keyword whose first character does not occur in `s` does not occur in `s`. */
  lemma AbsentFirstChar(s: string, sub: string)
    requires sub != [] && sub[0] !in s
    ensures !Contains(s, sub)
  {
  }

  /** The tests are case-sensitive: "m_btn" matches no keyword. */
  lemma LowerCaseButtonIsPlain()
    ensures GetRuleDisplayName(Some("m_btn")) == "m_btn"
  {
    var s := "m_btn";
    AbsentFirstChar(s, "Btn");
    AbsentFirstChar(s, "Text");
    AbsentFirstChar(s, "Label");
    AbsentFirstChar(s, "Img");
    AbsentFirstChar(s, "Image");
    AbsentFirstChar(s, "Slider");
    AbsentFirstChar(s, "Toggle");
    AbsentFirstChar(s, "Input");
  }

  /** "m_richText" contains "Text" and is captioned as a text rule. */
  lemma RichTextIsTextRule()
    ensures GetRuleDisplayName(Some("m_richText")) == "文本规则"
  {
    var s := "m_richText";
    AbsentFirstChar(s, "Btn");
    assert OccursAt(s, "Text", 6) by {
      assert s[6..10] == "Text";
    }
    ContainsIffOccurs(s, "Text");
  }
}

=== FILE: script_generator.dfy ===
/** The UI script generator's configuration: naming rules that map element
    name prefixes to component kinds, the field code style, and the UI base
    types, with the static lookups the generator uses. */
module ScriptGenerator {
  import opened Wrappers
  import opened Strings

  /** `UIFieldCodeStyle`; `Max` is a placeholder entry. */
  datatype UIFieldCodeStyle = UnderscorePrefix | MPrefix | Max

  /** `UIComponentName`, in declaration order. */
  datatype UIComponentName =
    | GameObject | Transform | RectTransform | Text | RichTextItem | Button | Image | RawImage
    | ScrollRect | Scrollbar | InputField | GridLayoutGroup | HorizontalLayoutGroup
    | VerticalLayoutGroup | Slider | Toggle | ToggleGroup | AnimationCurve | CanvasGroup
    | TextMeshProUGUI | Canvas | Dropdown

  /** `ScriptGenerateRuler`: a name prefix and the component it selects;
      `isUIWidget` is false unless given. */
  datatype ScriptGenerateRuler = ScriptGenerateRuler(uiElementRegex: string, componentName: UIComponentName, isUIWidget: bool := false)

  /** `UIGenType`: a base type of generated UI classes. */
  datatype UIGenType = UIGenType(uiTypeName: string, isGeneric: bool)

  /** The serialized fields of a `ScriptGeneratorSetting` asset; a list field
      may be null. */
  datatype Setting = Setting(
    useBindComponent: bool,
    genCodePath: string,
    impCodePath: string,
    nameSpace: string,
    widgetName: string,
    codeStyle: UIFieldCodeStyle,
    uiGenTypes: Option<seq<UIGenType>>,
    nullableEnable: bool,
    scriptGenerateRule: Option<seq<ScriptGenerateRuler>>)

  /** A `NullReferenceException`. */
  datatype SettingFault = NullReference

  const DefaultGenTypes: seq<UIGenType> := [UIGenType("UIWindow", false), UIGenType("UIWidget", false)]

  const DefaultRules: seq<ScriptGenerateRuler> := [
    ScriptGenerateRuler("m_go", GameObject),
    ScriptGenerateRuler("m_item", GameObject),
    ScriptGenerateRuler("m_tf", Transform),
    ScriptGenerateRuler("m_rect", RectTransform),
    ScriptGenerateRuler("m_text", Text),
    ScriptGenerateRuler("m_richText", RichTextItem),
    ScriptGenerateRuler("m_btn", Button),
    ScriptGenerateRuler("m_img", Image),
    ScriptGenerateRuler("m_rimg", RawImage),
    ScriptGenerateRuler("m_scrollBar", Scrollbar),
    ScriptGenerateRuler("m_scroll", ScrollRect),
    ScriptGenerateRuler("m_input", InputField),
    ScriptGenerateRuler("m_grid", GridLayoutGroup),
    ScriptGenerateRuler("m_hlay", HorizontalLayoutGroup),
    ScriptGenerateRuler("m_vlay", VerticalLayoutGroup),
    ScriptGenerateRuler("m_slider", Slider),
    ScriptGenerateRuler("m_group", ToggleGroup),
    ScriptGenerateRuler("m_curve", AnimationCurve),
    ScriptGenerateRuler("m_canvasGroup", CanvasGroup),
    ScriptGenerateRuler("m_tmp", TextMeshProUGUI)]

  /** A freshly created asset: the field initialisers. */
  const Defaults: Setting := Setting(
    false,
    "Assets/GameScripts/HotFix/GameLogic/UI/Gen",
    "Assets/GameScripts/HotFix/GameLogic/UI",
    "GameLogic",
    "item",
    UnderscorePrefix,
    Some(DefaultGenTypes),
    false,
    Some(DefaultRules))

  /** `Instance` is the first asset found, or null; finding it is editor I/O,
      so the lookups below take it as a parameter. */
  type Instance = Option<Setting>

  /** `GetScriptGenerateRule`. */
  function GetScriptGenerateRule(instance: Instance): (r: Option<seq<ScriptGenerateRuler>>)
    ensures instance.None? ==> r.None?
    ensures instance.Some? ==> r == instance.value.scriptGenerateRule
  {
    if instance.None? then None else instance.value.scriptGenerateRule
  }

  /** `GetUINameSpace`: "" without an asset. */
  function GetUINameSpace(instance: Instance): (r: string)
    ensures instance.None? ==> r == ""
    ensures instance.Some? ==> r == instance.value.nameSpace
  {
    if instance.None? then "" else instance.value.nameSpace
  }

  /** `GetCodeStyle`: `UnderscorePrefix` without an asset. */
  function GetCodeStyle(instance: Instance): (r: UIFieldCodeStyle)
    ensures instance.None? ==> r == UnderscorePrefix
    ensures instance.Some? ==> r == instance.value.codeStyle
  {
    if instance.None? then UnderscorePrefix else instance.value.codeStyle
  }

  /** `GetGenCodePath` and `GetImpCodePath`: null without an asset. */
  function GetGenCodePath(instance: Instance): (r: Option<string>)
    ensures instance.None? <==> r.None?
    ensures instance.Some? ==> r == Some(instance.value.genCodePath)
  {
    if instance.None? then None else Some(instance.value.genCodePath)
  }

  function GetImpCodePath(instance: Instance): (r: Option<string>)
    ensures instance.None? <==> r.None?
    ensures instance.Some? ==> r == Some(instance.value.impCodePath)
  {
    if instance.None? then None else Some(instance.value.impCodePath)
  }

  /** `GetWidgetName`: "" without an asset. */
  function GetWidgetName(instance: Instance): (r: string)
    ensures instance.None? ==> r == ""
    ensures instance.Some? ==> r == instance.value.widgetName
  {
    if instance.None? then "" else instance.value.widgetName
  }

  /** A default asset answers the getters with the field initialisers, and no
      asset answers them with the fallbacks. */
  lemma GettersOfDefaultsAndOfNoAsset()
    ensures GetUINameSpace(Some(Defaults)) == "GameLogic" && GetWidgetName(Some(Defaults)) == "item"
    ensures GetCodeStyle(Some(Defaults)) == UnderscorePrefix
    ensures GetUINameSpace(None) == "" && GetWidgetName(None) == "" && GetCodeStyle(None) == UnderscorePrefix
    ensures GetGenCodePath(None).None? && GetImpCodePath(None).None? && GetScriptGenerateRule(None).None?
  {
  }

  /** `GetPrefixNameByCodeStyle`: "_" for `UnderscorePrefix`, "m_" otherwise. */
  function GetPrefixNameByCodeStyle(style: UIFieldCodeStyle): (r: string)
    ensures r == "_" <==> style == UnderscorePrefix
    ensures r != "_" ==> r == "m_"
    ensures EndsWith(r, "_")
  {
    match style
    case UnderscorePrefix => "_"
    case MPrefix => "m_"
    case _ => "m_"
  }

  /** The placeholder style behaves as `MPrefix`. */
  lemma MaxStyleIsMPrefix()
    ensures GetPrefixNameByCodeStyle(Max) == GetPrefixNameByCodeStyle(MPrefix)
  {
  }

  /** `s.Substring(s.IndexOf("_") + 1)`: what follows the first '_', or all
      of `s` when there is none (the index is -1, so the cut is at 0). */
  function AfterFirstUnderscore(s: string): (r: string)
    ensures '_' !in s ==> r == s
    ensures '_' in s ==> exists k :: 0 <= k < |s| && s[k] == '_' && '_' !in s[..k] && r == s[k + 1..]
  {
    IndexOfChar(s, '_');
    s[IndexOf(s, "_") + 1..]
  }

  /** A prefix `p_name` with no '_' in `p` gives back `name`. */
  lemma AfterFirstUnderscoreOfPrefixed(p: string, name: string)
    requires '_' !in p
    ensures AfterFirstUnderscore(p + "_" + name) == name
  {
    var s := p + "_" + name;
    assert s[|p|] == '_';
    assert '_' in s;
    var k :| 0 <= k < |s| && s[k] == '_' && '_' !in s[..k] && AfterFirstUnderscore(s) == s[k + 1..];
    assert k == |p|;
    assert s[|p| + 1..] == name;
  }

  /** The index of the first rule for component `c`, if any. */
  function FirstRuleFor(rules: seq<ScriptGenerateRuler>, c: UIComponentName): (r: Option<nat>)
    ensures r.Some? ==> r.value < |rules| && rules[r.value].componentName == c &&
                        forall j :: 0 <= j < r.value ==> rules[j].componentName != c
    ensures r.None? ==> forall j :: 0 <= j < |rules| ==> rules[j].componentName != c
  {
    if rules == [] then None
    else if rules[0].componentName == c then Some(0)
    else
      match FirstRuleFor(rules[1..], c)
      case None => None
      case Some(k) => Some(k + 1)
  }

  /** `GetUIComponentWithoutPrefixName`: the name part of the first rule for
      the component; "" when no rule is for it or the rule list is null; a
      missing asset throws. */
  function GetUIComponentWithoutPrefixName(instance: Instance, c: UIComponentName): (r: Result<string, SettingFault>)
    ensures instance.None? <==> r == Failure(NullReference)
    ensures instance.Some? && instance.value.scriptGenerateRule.None? ==> r == Success("")
    ensures instance.Some? && instance.value.scriptGenerateRule.Some? ==>
      var rules := instance.value.scriptGenerateRule.value;
      (match FirstRuleFor(rules, c)
       case None => r == Success("")
       case Some(i) => r == Success(AfterFirstUnderscore(rules[i].uiElementRegex)))
  {
    if instance.None? then Failure(NullReference)
    else if instance.value.scriptGenerateRule.None? then Success("")
    else
      var rules := instance.value.scriptGenerateRule.value;
      match FirstRuleFor(rules, c)
      case None => Success("")
      case Some(i) => Success(AfterFirstUnderscore(rules[i].uiElementRegex))
  }

  /** With the default table `GameObject` gives "go", since `m_go` precedes `m_item`. */
  lemma DefaultGameObjectName()
    ensures GetUIComponentWithoutPrefixName(Some(Defaults), GameObject) == Success("go")
  {
    assert DefaultRules[0] == ScriptGenerateRuler("m_go", GameObject);
    assert FirstRuleFor(DefaultRules, GameObject) == Some(0);
    assert "m_go" == "m" + "_" + "go";
    AfterFirstUnderscoreOfPrefixed("m", "go");
  }

  /** `Toggle` has no rule, so its name part is "". */
  lemma DefaultToggleName()
    ensures GetUIComponentWithoutPrefixName(Some(Defaults), Toggle) == Success("")
  {
    NoDefaultRuleForToggle();
  }

  lemma NoDefaultRuleForToggle()
    ensures FirstRuleFor(DefaultRules, Toggle).None?
  {
    assert forall j :: 0 <= j < |DefaultRules| ==> DefaultRules[j].componentName != Toggle;
  }

  /** A rule prefix without '_' is returned whole. */
  lemma PrefixWithoutUnderscore(p: string, c: UIComponentName)
    requires '_' !in p
    ensures GetUIComponentWithoutPrefixName(Some(Defaults.(scriptGenerateRule := Some([ScriptGenerateRuler(p, c)]))), c) == Success(p)
  {
  }

  /** The index of the first entry named `name` (ordinal comparison), if any. */
  function FirstGenTypeIndex(list: seq<UIGenType>, name: string): (r: Option<nat>)
    ensures r.Some? ==> r.value < |list| && list[r.value].uiTypeName == name &&
                        forall j :: 0 <= j < r.value ==> list[j].uiTypeName != name
    ensures r.None? ==> forall j :: 0 <= j < |list| ==> list[j].uiTypeName != name
  {
    if list == [] then None
    else if list[0].uiTypeName == name then Some(0)
    else
      match FirstGenTypeIndex(list[1..], name)
      case None => None
      case Some(k) => Some(k + 1)
  }

  /** `GetUIGenType`: null for a null or empty name; otherwise the first entry
      whose name equals it ordinally, or null; the list is read from the asset,
      so a missing asset or list throws. */
  function GetUIGenType(instance: Instance, uiGenTypeName: Option<string>): (r: Result<Option<UIGenType>, SettingFault>)
    ensures uiGenTypeName.None? || uiGenTypeName == Some("") ==> r == Success(None)
    ensures uiGenTypeName.Some? && uiGenTypeName.value != "" ==>
      (instance.None? || instance.value.uiGenTypes.None? <==> r == Failure(NullReference))
    ensures uiGenTypeName.Some? && uiGenTypeName.value != "" && instance.Some? && instance.value.uiGenTypes.Some? ==>
      var list := instance.value.uiGenTypes.value;
      (match FirstGenTypeIndex(list, uiGenTypeName.value)
       case None => r == Success(None)
       case Some(i) => r == Success(Some(list[i])))
  {
    if uiGenTypeName.None? || uiGenTypeName.value == "" then Success(None)
    else if instance.None? || instance.value.uiGenTypes.None? then Failure(NullReference)
    else
      var list := instance.value.uiGenTypes.value;
      match FirstGenTypeIndex(list, uiGenTypeName.value)
      case None => Success(None)
      case Some(i) => Success(Some(list[i]))
  }

  /** A found entry carries the name asked for; not finding one means no entry has it. */
  lemma GenTypeLookupIsExact(instance: Instance, name: string)
    requires instance.Some? && instance.value.uiGenTypes.Some? && name != ""
    ensures var r := GetUIGenType(instance, Some(name));
      && r.Success?
      && (r.value.Some? ==> r.value.value in instance.value.uiGenTypes.value && r.value.value.uiTypeName == name)
      && (r.value.None? <==> forall t :: t in instance.value.uiGenTypes.value ==> t.uiTypeName != name)
  {
  }

  /** With the default list: "UIWindow" is found; the comparison is
      case-sensitive, so "uiwindow" is not. */
  lemma DefaultGenTypeLookup()
    ensures GetUIGenType(Some(Defaults), Some("UIWindow")) == Success(Some(UIGenType("UIWindow", false)))
    ensures GetUIGenType(Some(Defaults), Some("uiwindow")) == Success(None)
    ensures GetUIGenType(None, Some("")) == Success(None)
  {
    assert "uiwindow" != "UIWindow" && "uiwindow" != "UIWidget" by {
      assert "uiwindow"[0] != "UIWindow"[0];
      assert "uiwindow"[0] != "UIWidget"[0];
    }
  }

  /** A rule built without `isUIWidget` is not a widget rule. */
  lemma RulerDefaultsToNonWidget(prefix: string, c: UIComponentName)
    ensures ScriptGenerateRuler(prefix, c).isUIWidget == false
    ensures ScriptGenerateRuler(prefix, c).uiElementRegex == prefix && ScriptGenerateRuler(prefix, c).componentName == c
  {
  }
}

=== FILE: sprite_postprocessor.dfy ===
/** `SpritePostprocessor`: the asset-import hook that validates changed
    sprites and forwards imports, deletions and moves to the bookkeeping. */
module SpritePostprocessor {
  import opened Wrappers
  import opened Strings
  import opened Paths
  import opened AtlasConfig
  import opened AtlasNaming
  import opened SpriteSaveInfo

  datatype TextureImporterType = Default | NormalMap | GUI | Sprite | Cursor | Cookie | Lightmap | SingleChannel

  /** The two settings of a `TextureImporter` the hook may change. */
  datatype TextureImporter = TextureImporter(textureType: TextureImporterType, mipmapEnabled: bool)

  /** The editor state one batch reads and changes. */
  datatype World = World(
    info: SaveInfo,
    importers: map<string, TextureImporter>,  // a path without an entry has no texture importer
    resourcesToDelete: seq<string>,           // `m_resourcesToDelete`
    reimported: seq<string>)                  // paths passed to `SaveAndReimport`

  type Run = Outcome<World, Fault>

  /** `CheckIsShowProcessPath`: below some source or root-child directory. */
  predicate CheckIsShowProcessPath(cfg: Config, path: string) {
    UnderAny(path, Roots(cfg))
  }

  /** `ShouldProcessAsset`. */
  predicate ShouldProcessAsset(cfg: Config, path: string) {
    && path != ""
    && !StartsWith(path, "Packages/")
    && CheckIsShowProcessPath(cfg, path)
    && !CheckIsExcludeFolder(cfg, path)
    && IsImageFile(path)
    && !HasKeyword(path, cfg.excludeKeywords)
  }

  /** A '/'-separated path the hook accepts is one the bookkeeping processes,
      below a root it names atlases from. */
  lemma ShouldProcessAssetIsStricter(cfg: Config, path: string)
    requires '\\' !in path
    ensures ShouldProcessAsset(cfg, path) ==>
      ShouldProcess(cfg, NormalizeSlashes(path)) && FirstUnder(Roots(cfg), NormalizeSlashes(path)).Some?
    ensures !ShouldProcess(cfg, NormalizeSlashes(path)) ==> !ShouldProcessAsset(cfg, path)
  {
    NormalizeIdentity(path);
  }

  /** Every path below a configured source or root-child directory is shown to
      the bookkeeping, and the first such directory is the one it names from. */
  lemma ShowProcessPathBelowRoot(cfg: Config, i: int, rest: string)
    requires 0 <= i < |Roots(cfg)|
    ensures CheckIsShowProcessPath(cfg, (Canonical(Roots(cfg)[i]) + "/") + rest)
    ensures FirstUnder(Roots(cfg), (Canonical(Roots(cfg)[i]) + "/") + rest).Some?
    ensures FirstUnder(Roots(cfg), (Canonical(Roots(cfg)[i]) + "/") + rest).value <= i
  {
    var t := Canonical(Roots(cfg)[i]);
    assert ((t + "/") + rest)[..|t| + 1] == t + "/";
    assert Under((t + "/") + rest, Roots(cfg)[i]);
  }

  /** The hook skips every path an exclude keyword occurs in, and every path
      below an exclude folder. */
  lemma HookSkipsExclusions(cfg: Config, pre: string, key: string, post: string, i: int, rest: string)
    requires key in cfg.excludeKeywords && 0 <= i < |cfg.excludeFolder|
    ensures !ShouldProcessAsset(cfg, pre + key + post)
    ensures !ShouldProcessAsset(cfg, (Canonical(cfg.excludeFolder[i]) + "/") + rest)
  {
    KeywordAnywhere(pre, key, post, cfg.excludeKeywords);
    ExcludeFolderBoundary(cfg, i, 'x', rest);
  }

  /** The hook never touches the empty path or a package asset. */
  lemma HookSkipsPackages(cfg: Config, rest: string)
    ensures !ShouldProcessAsset(cfg, "")
    ensures !ShouldProcessAsset(cfg, "Packages/" + rest)
  {
    assert ("Packages/" + rest)[..9] == "Packages/";
  }

  /** An empty exclude keyword switches the hook off for every path. */
  lemma EmptyKeywordRejectsAll(cfg: Config, path: string)
    requires "" in cfg.excludeKeywords
    ensures !ShouldProcessAsset(cfg, path)
  {
    EmptyKeywordMatchesAll(path, cfg.excludeKeywords);
  }

  /** `CheckFileNameContainsSpace`: a stem with a space queues the asset for deletion. */
  function CheckFileNameContainsSpace(w: World, assetPath: string): (r: (World, bool))
    ensures r.1 <==> ' ' in FileNameWithoutExtension(NormalizeSlashes(assetPath))
    ensures r.1 ==> r.0 == w.(resourcesToDelete := w.resourcesToDelete + [assetPath])
    ensures !r.1 ==> r.0 == w
  {
    ContainsChar(FileNameWithoutExtension(NormalizeSlashes(assetPath)), ' ');
    if Contains(FileNameWithoutExtension(NormalizeSlashes(assetPath)), " ") then
      (w.(resourcesToDelete := w.resourcesToDelete + [assetPath]), true)
    else (w, false)
  }

  /** `roots[i]` is the last configured directory `path` starts with. */
  predicate IsLastMatch(roots: seq<string>, path: string, i: int) {
    && 0 <= i < |roots|
    && StartsWith(path, NormalizeSlashes(roots[i]))
    && forall j :: i < j < |roots| ==> !StartsWith(path, NormalizeSlashes(roots[j]))
  }

  /** The root `CheckDuplicateAssetName` settles on: the LAST configured
      directory the path starts with, with no '/' boundary and no trimming;
      "" when there is none. */
  function LastPrefixRoot(roots: seq<string>, path: string): (r: string)
    ensures r != "" ==> StartsWith(path, r)
    ensures r != "" ==> exists i :: IsLastMatch(roots, path, i) && r == NormalizeSlashes(roots[i])
    ensures forall i :: IsLastMatch(roots, path, i) ==> r == NormalizeSlashes(roots[i])
    ensures (forall i :: 0 <= i < |roots| ==> !StartsWith(path, NormalizeSlashes(roots[i]))) ==> r == ""
  {
    if roots == [] then ""
    else
      var t := NormalizeSlashes(roots[|roots| - 1]);
      if StartsWith(path, t) then
        MatchingLastRoot(roots, path);
        t
      else
        var init := roots[..|roots| - 1];
        var r := LastPrefixRoot(init, path);
        LastMatchOfInit(roots, path);
        assert r != "" ==> exists i :: IsLastMatch(roots, path, i) && r == NormalizeSlashes(roots[i]) by {
          if r != "" {
            var i :| IsLastMatch(init, path, i) && r == NormalizeSlashes(init[i]);
            assert IsLastMatch(roots, path, i);
          }
        }
        r
  }

  /** When the last root matches, it is the last match. */
  lemma MatchingLastRoot(roots: seq<string>, path: string)
    requires |roots| >= 1 && StartsWith(path, NormalizeSlashes(roots[|roots| - 1]))
    ensures IsLastMatch(roots, path, |roots| - 1)
    ensures forall i :: IsLastMatch(roots, path, i) ==> i == |roots| - 1
  {
  }

  /** When the last root does not match, the last match is that of the other roots. */
  lemma LastMatchOfInit(roots: seq<string>, path: string)
    requires |roots| >= 1 && !StartsWith(path, NormalizeSlashes(roots[|roots| - 1]))
    ensures !IsLastMatch(roots, path, |roots| - 1)
    ensures forall i :: 0 <= i < |roots| - 1 ==> roots[..|roots| - 1][i] == roots[i]
    ensures forall i :: 0 <= i < |roots| - 1 ==> (IsLastMatch(roots[..|roots| - 1], path, i) <==> IsLastMatch(roots, path, i))
  {
  }

  /** The root is matched as a bare prefix, without a '/' boundary: root
      `Assets/Art` is chosen for `Assets/Artwork/a.png`; and a later matching
      root replaces an earlier one. */
  lemma DuplicateRootIsBarePrefix(first: string, root: string, rest: string)
    ensures LastPrefixRoot([first, root], NormalizeSlashes(root) + rest) == NormalizeSlashes(root)
  {
    assert (NormalizeSlashes(root) + rest)[..|NormalizeSlashes(root)|] == NormalizeSlashes(root);
  }

  /** `file` is another image whose stem equals the asset's, ignoring case. */
  predicate Clashes(file: string, assetPath: string) {
    && IsImageFile(file)
    && !EqualsIgnoreCase(NormalizeSlashes(file), NormalizeSlashes(assetPath))
    && EqualsIgnoreCase(FileNameWithoutExtension(NormalizeSlashes(file)), FileNameWithoutExtension(NormalizeSlashes(assetPath)))
  }

  /** The first element of `s` satisfying `p`, if any. */
  function FirstMatch<T>(s: seq<T>, p: T -> bool): (r: Option<T>)
    ensures r.Some? ==> r.value in s && p(r.value)
    ensures r.None? ==> forall k :: 0 <= k < |s| ==> !p(s[k])
  {
    if s == [] then None
    else if p(s[0]) then Some(s[0])
    else
      var r := FirstMatch(s[1..], p);
      assert forall k :: 1 <= k < |s| ==> s[k] == s[1..][k - 1];
      r
  }

  /** The scan over the listed files: the first clashing one, if any. */
  function FindClash(files: seq<string>, assetPath: string): (r: Option<string>)
    ensures r.Some? ==> r.value in files && Clashes(r.value, assetPath)
    ensures r.None? ==> forall k :: 0 <= k < |files| ==> !Clashes(files[k], assetPath)
  {
    FirstMatch(files, f => Clashes(f, assetPath))
  }

  /** `CheckDuplicateAssetName`: another image anywhere below the chosen root
      with the same stem queues the asset for deletion. */
  function CheckDuplicateAssetName(cfg: Config, q: AssetQueries, w: World, assetPath: string): (r: Result<(World, bool), Fault>)
    ensures var root := LastPrefixRoot(Roots(cfg), assetPath);
      && (root == "" ==> r == Success((w, false)))
      && (root != "" && root !in q.filesUnder ==> r == Failure(DirectoryNotFound))
      && (root != "" && root in q.filesUnder ==>
            r.Success? &&
            (r.value.1 <==> exists k :: 0 <= k < |q.filesUnder[root]| && Clashes(q.filesUnder[root][k], assetPath)) &&
            (r.value.1 ==> r.value.0 == w.(resourcesToDelete := w.resourcesToDelete + [assetPath])) &&
            (!r.value.1 ==> r.value.0 == w))
  {
    var root := LastPrefixRoot(Roots(cfg), assetPath);
    if root == "" then Success((w, false))
    else if root !in q.filesUnder then Failure(DirectoryNotFound)
    else
      match FindClash(q.filesUnder[root], assetPath)
      case None => Success((w, false))
      case Some(_) => Success((w.(resourcesToDelete := w.resourcesToDelete + [assetPath]), true))
  }

  /** `ChangeSpriteTextureType`: forces the texture type to Sprite and, when
      `checkMipmaps` is on, the mipmap flag to `enableMipmaps`; true exactly
      when it had to change something (and then reimports). */
  function ChangeSpriteTextureType(cfg: Config, w: World, path: string): (r: (World, bool))
    ensures r.1 <==> (path in w.importers &&
      (w.importers[path].textureType != Sprite ||
       (cfg.checkMipmaps && w.importers[path].mipmapEnabled != cfg.enableMipmaps)))
    ensures path in w.importers ==>
      && path in r.0.importers
      && r.0.importers == w.importers[path := r.0.importers[path]]
      && r.0.importers[path].textureType == Sprite
      && (cfg.checkMipmaps ==> r.0.importers[path].mipmapEnabled == cfg.enableMipmaps)
      && (!cfg.checkMipmaps ==> r.0.importers[path].mipmapEnabled == w.importers[path].mipmapEnabled)
    ensures r.1 ==> r.0 == w.(importers := r.0.importers, reimported := w.reimported + [path])
    ensures !r.1 ==> r.0 == w
  {
    if path !in w.importers then (w, false)
    else
      var imp := w.importers[path];
      var typeChanged := imp.textureType != Sprite;
      var imp1 := if typeChanged then imp.(textureType := Sprite) else imp;
      var mipChanged := cfg.checkMipmaps &&
        ((cfg.enableMipmaps && !imp1.mipmapEnabled) || (!cfg.enableMipmaps && imp1.mipmapEnabled));
      var imp2 := if mipChanged then imp1.(mipmapEnabled := cfg.enableMipmaps) else imp1;
      var isChange := typeChanged || mipChanged;
      if isChange then (w.(importers := w.importers[path := imp2], reimported := w.reimported + [path]), true)
      else (w, false)
  }

  /** Once fixed, an importer needs no further change. */
  lemma ChangeSpriteTextureTypeSettles(cfg: Config, w: World, path: string)
    ensures !ChangeSpriteTextureType(cfg, ChangeSpriteTextureType(cfg, w, path).0, path).1
  {
  }

  /** The short-circuit chain of `ProcessAssets` and `ProcessMovedAssets`:
      space check, then duplicate check, then texture type; true skips the asset. */
  function Rejects(cfg: Config, q: AssetQueries, w: World, assetPath: string): (r: Result<(World, bool), Fault>)
    ensures ' ' in FileNameWithoutExtension(NormalizeSlashes(assetPath)) ==>
      r == Success((w.(resourcesToDelete := w.resourcesToDelete + [assetPath]), true))
    ensures ' ' !in FileNameWithoutExtension(NormalizeSlashes(assetPath)) ==>
      var d := CheckDuplicateAssetName(cfg, q, w, assetPath);
      && (d.Failure? ==> r == Failure(d.error))
      && (d.Success? && d.value.1 ==> r == Success((w.(resourcesToDelete := w.resourcesToDelete + [assetPath]), true)))
      && (d.Success? && !d.value.1 ==> r == Success(ChangeSpriteTextureType(cfg, w, assetPath)))
    ensures r.Success? && !r.value.1 ==> r.value.0 == w
    ensures r.Success? ==> r.value.0.info == w.info
    ensures r.Success? ==> r.value.0.resourcesToDelete == w.resourcesToDelete ||
                           r.value.0.resourcesToDelete == w.resourcesToDelete + [assetPath]
  {
    var (w1, space) := CheckFileNameContainsSpace(w, assetPath);
    if space then Success((w1, true))
    else
      var d := CheckDuplicateAssetName(cfg, q, w, assetPath);
      DuplicateCheckQueuesOnlyAsset(cfg, q, w, assetPath);
      if d.Failure? then Failure(d.error)
      else if d.value.1 then Success((d.value.0, true))
      else Success(ChangeSpriteTextureType(cfg, d.value.0, assetPath))
  }

  /** The duplicate check leaves the world alone or queues the asset, and
      only queues it when it reports a clash. */
  lemma DuplicateCheckQueuesOnlyAsset(cfg: Config, q: AssetQueries, w: World, assetPath: string)
    ensures var d := CheckDuplicateAssetName(cfg, q, w, assetPath);
      && (d.Success? && !d.value.1 ==> d.value.0 == w)
      && (d.Success? && d.value.1 ==> d.value.0 == w.(resourcesToDelete := w.resourcesToDelete + [assetPath]))
  {
  }

  /** The processor a batch hands to `ProcessAssets`. */
  datatype Processor = ImportSprite | DeleteSprite

  /** Runs a bookkeeping step on the world's `SaveInfo`. */
  function Lift(w: World, step: Step): (r: Run)
    ensures r.state == w.(info := step.state)
    ensures r.Faulted? <==> step.Faulted?
  {
    match step
    case Completed(s) => Completed(w.(info := s))
    case Faulted(s, f) => Faulted(w.(info := s), f)
  }

  /** `processor.OnImportSprite(path)` or `processor.OnDeleteSprite(path)`
      with their default `isCreateNew` (false on import, true on delete). */
  function Invoke(cfg: Config, q: AssetQueries, w: World, processor: Processor, path: string): (r: Run)
    ensures r.state == w.(info := r.state.info)
    ensures ResolveAtlasName(cfg, q, NormalizeSlashes(path)).Skip? ==> r == Completed(w)
    ensures ResolveAtlasName(cfg, q, NormalizeSlashes(path)).NullName? ==> r == Faulted(w, ArgumentNull)
    ensures processor == ImportSprite ==>
      r.state.info == OnImportSprite(cfg, q, w.info, path, false).state && (r.Faulted? <==> OnImportSprite(cfg, q, w.info, path, false).Faulted?)
    ensures processor == DeleteSprite ==>
      r.state.info == OnDeleteSprite(cfg, q, w.info, path, true).state && (r.Faulted? <==> OnDeleteSprite(cfg, q, w.info, path, true).Faulted?)
    ensures processor == DeleteSprite ==> r.state.info.atlasMap.Keys == w.info.atlasMap.Keys
  {
    match processor
    case ImportSprite => Lift(w, OnImportSprite(cfg, q, w.info, path))
    case DeleteSprite => Lift(w, OnDeleteSprite(cfg, q, w.info, path))
  }

  /** A per-asset step whose only addition to the deletion queue is its own asset. */
  predicate QueuesAtMost(w: World, r: Run, a: string) {
    r.state.resourcesToDelete == w.resourcesToDelete ||
    r.state.resourcesToDelete == w.resourcesToDelete + [a]
  }

  ghost predicate QueuesOnlyItself(one: (World, string) -> Run) {
    forall w, a :: QueuesAtMost(w, one(w, a), a)
  }

  /** One asset of `ProcessAssets`: skipped unless processable; validated
      unless `isDelete`; then handed to the processor. */
  function ProcessOne(cfg: Config, q: AssetQueries, processor: Processor, isDelete: bool, w: World, a: string): (r: Run)
    ensures !ShouldProcessAsset(cfg, a) ==> r == Completed(w)
    ensures ShouldProcessAsset(cfg, a) && isDelete ==> r == Invoke(cfg, q, w, processor, a)
    ensures ShouldProcessAsset(cfg, a) && !isDelete && Rejects(cfg, q, w, a).Success? && Rejects(cfg, q, w, a).value.1 ==>
      r == Completed(Rejects(cfg, q, w, a).value.0)
    ensures ShouldProcessAsset(cfg, a) && !isDelete && Rejects(cfg, q, w, a).Success? && !Rejects(cfg, q, w, a).value.1 ==>
      r == Invoke(cfg, q, w, processor, a)
    ensures ShouldProcessAsset(cfg, a) && !isDelete && Rejects(cfg, q, w, a).Failure? ==>
      r == Faulted(w, Rejects(cfg, q, w, a).error)
    ensures QueuesAtMost(w, r, a)
  {
    if !ShouldProcessAsset(cfg, a) then Completed(w)
    else if !isDelete then
      match Rejects(cfg, q, w, a)
      case Failure(f) => Faulted(w, f)
      case Success((w1, skip)) =>
        if skip then Completed(w1) else Invoke(cfg, q, w1, processor, a)
    else Invoke(cfg, q, w, processor, a)
  }

  /** A loop over a batch that applies `one` to each path in order and stops
      at the first exception. */
  function ForEach(w: World, assets: seq<string>, one: (World, string) -> Run): (r: Run)
    ensures assets == [] ==> r == Completed(w)
    ensures QueuesOnlyItself(one) ==>
      forall x :: x in r.state.resourcesToDelete ==> x in w.resourcesToDelete || x in assets
    decreases |assets|
  {
    if assets == [] then Completed(w)
    else
      var o := one(w, assets[0]);
      if o.Faulted? then o
      else
        var r := ForEach(o.state, assets[1..], one);
        assert forall x :: x in assets[1..] ==> x in assets;
        r
  }

  /** A step that leaves every world it is given as it was keeps the whole loop a no-op. */
  lemma {:induction false} ForEachOfNoOps(w: World, assets: seq<string>, one: (World, string) -> Run)
    requires forall k :: 0 <= k < |assets| ==> one(w, assets[k]) == Completed(w)
    ensures ForEach(w, assets, one) == Completed(w)
  {
    if assets != [] {
      assert forall k :: 1 <= k < |assets| ==> assets[1..][k - 1] == assets[k];
      ForEachOfNoOps(w, assets[1..], one);
    }
  }

  /** A one-path batch is that path's step. */
  lemma ForEachSingle(w: World, a: string, one: (World, string) -> Run)
    ensures ForEach(w, [a], one) == one(w, a)
  {
    assert [a][1..] == [];
  }

  /** The loop over `assets + [a]` is the loop over `assets` followed, unless
      that threw, by the step for `a`. */
  lemma {:induction false} ForEachSnoc(w: World, assets: seq<string>, a: string, one: (World, string) -> Run)
    ensures var o := ForEach(w, assets, one);
      ForEach(w, assets + [a], one) == if o.Faulted? then o else one(o.state, a)
    decreases |assets|
  {
    if assets == [] {
      assert assets + [a] == [a];
      ForEachSingle(w, a, one);
    } else {
      var more := assets + [a];
      assert more[0] == assets[0];
      assert more[1..] == assets[1..] + [a];
      var o1 := one(w, assets[0]);
      if !o1.Faulted? {
        ForEachSnoc(o1.state, assets[1..], a, one);
      }
    }
  }

  function Processing(cfg: Config, q: AssetQueries, processor: Processor, isDelete: bool): (one: (World, string) -> Run)
    ensures QueuesOnlyItself(one)
    ensures forall w, a :: one(w, a) == ProcessOne(cfg, q, processor, isDelete, w, a)
  {
    (w, a) => ProcessOne(cfg, q, processor, isDelete, w, a)
  }

  /** `ProcessAssets`; a null array is skipped. Only newly queued paths of
      the batch itself can end up in the deletion queue. */
  function ProcessAssets(cfg: Config, q: AssetQueries, w: World, assets: Option<seq<string>>, processor: Processor, isDelete: bool := false): (r: Run)
    ensures assets.None? ==> r == Completed(w)
    ensures forall x :: x in r.state.resourcesToDelete ==> x in w.resourcesToDelete || InBatch(x, assets)
  {
    if assets.None? then Completed(w) else ForEach(w, assets.value, Processing(cfg, q, processor, isDelete))
  }

  /** A batch with nothing processable leaves the world as it was. */
  lemma NothingProcessableIsNoOp(cfg: Config, q: AssetQueries, w: World, assets: seq<string>, processor: Processor)
    requires forall k :: 0 <= k < |assets| ==> !ShouldProcessAsset(cfg, assets[k])
    ensures ProcessAssets(cfg, q, w, Some(assets), processor) == Completed(w)
  {
    ForEachOfNoOps(w, assets, Processing(cfg, q, processor, false));
  }

  /** The assets are processed in order: one more asset is one more
      `ProcessOne` on the state the others left, unless they threw. */
  lemma ProcessAssetsSnoc(cfg: Config, q: AssetQueries, w: World, assets: seq<string>, a: string, processor: Processor, isDelete: bool)
    ensures var o := ProcessAssets(cfg, q, w, Some(assets), processor, isDelete);
      ProcessAssets(cfg, q, w, Some(assets + [a]), processor, isDelete)
        == if o.Faulted? then o else ProcessOne(cfg, q, processor, isDelete, o.state, a)
  {
    ForEachSnoc(w, assets, a, Processing(cfg, q, processor, isDelete));
  }

  /** An asset whose stem holds a space is queued for deletion and never
      reaches the processor: the bookkeeping and the importers stay as they were. */
  lemma SpacedNameIsQueuedNotProcessed(cfg: Config, q: AssetQueries, w: World, a: string, processor: Processor)
    requires ShouldProcessAsset(cfg, a)
    requires ' ' in FileNameWithoutExtension(NormalizeSlashes(a))
    ensures ProcessAssets(cfg, q, w, Some([a]), processor)
      == Completed(w.(resourcesToDelete := w.resourcesToDelete + [a]))
  {
    var one := Processing(cfg, q, processor, false);
    assert ProcessOne(cfg, q, processor, false, w, a) == Completed(w.(resourcesToDelete := w.resourcesToDelete + [a]));
    ForEachSingle(w, a, one);
  }

  /** Because `ProcessAssets` is never told `isDelete`, a deleted sprite that
      a check rejects (its importer needed fixing, say) stays in its atlas list. */
  lemma DeletionIsValidatedLikeImport(cfg: Config, q: AssetQueries, w: World, a: string)
    requires ShouldProcessAsset(cfg, a)
    requires Rejects(cfg, q, w, a).Success? && Rejects(cfg, q, w, a).value.1
    ensures ProcessAssets(cfg, q, w, Some([a]), DeleteSprite).state.info == w.info
  {
    var one := Processing(cfg, q, DeleteSprite, false);
    assert ProcessOne(cfg, q, DeleteSprite, false, w, a) == Completed(Rejects(cfg, q, w, a).value.0);
    ForEachSingle(w, a, one);
  }

  /** Delete then mark the parents for recreation: the first half of one step
      of `ProcessMovedAssets`. */
  function DeleteAndMark(cfg: Config, q: AssetQueries, w: World, oldPath: string): (r: Run)
    ensures r.state.importers == w.importers && r.state.resourcesToDelete == w.resourcesToDelete
    ensures var d := OnDeleteSprite(cfg, q, w.info, oldPath, true);
      (d.Faulted? ==> r == Lift(w, d)) &&
      (d.Completed? ==> r == Lift(w, MarkParentAtlasesDirty(cfg, d.state, oldPath, true)))
  {
    match OnDeleteSprite(cfg, q, w.info, oldPath)
    case Faulted(s, f) => Faulted(w.(info := s), f)
    case Completed(s) => Lift(w, MarkParentAtlasesDirty(cfg, s, oldPath, true))
  }

  /** Import then mark the parents plain dirty: the second half. */
  function ImportAndMark(cfg: Config, q: AssetQueries, w: World, newPath: string): (r: Run)
    ensures r.state.importers == w.importers && r.state.resourcesToDelete == w.resourcesToDelete
    ensures var i := OnImportSprite(cfg, q, w.info, newPath, false);
      (i.Faulted? ==> r == Lift(w, i)) &&
      (i.Completed? ==> r == Lift(w, MarkParentAtlasesDirty(cfg, i.state, newPath, false)))
  {
    match OnImportSprite(cfg, q, w.info, newPath)
    case Faulted(s, f) => Faulted(w.(info := s), f)
    case Completed(s) => Lift(w, MarkParentAtlasesDirty(cfg, s, newPath, false))
  }

  function MoveFrom(cfg: Config, q: AssetQueries, w: World, oldPath: string): (r: Run)
    ensures !ShouldProcessAsset(cfg, oldPath) ==> r == Completed(w)
    ensures ShouldProcessAsset(cfg, oldPath) ==> r == DeleteAndMark(cfg, q, w, oldPath)
    ensures r.state.resourcesToDelete == w.resourcesToDelete
  {
    if !ShouldProcessAsset(cfg, oldPath) then Completed(w) else DeleteAndMark(cfg, q, w, oldPath)
  }

  function MoveTo(cfg: Config, q: AssetQueries, w: World, newPath: string): (r: Run)
    ensures !ShouldProcessAsset(cfg, newPath) ==> r == Completed(w)
    ensures ShouldProcessAsset(cfg, newPath) && Rejects(cfg, q, w, newPath).Success? ==>
      var (w1, skip) := Rejects(cfg, q, w, newPath).value;
      r == if skip then Completed(w1) else ImportAndMark(cfg, q, w1, newPath)
    ensures ShouldProcessAsset(cfg, newPath) && Rejects(cfg, q, w, newPath).Failure? ==>
      r == Faulted(w, Rejects(cfg, q, w, newPath).error)
    ensures QueuesAtMost(w, r, newPath)
  {
    if !ShouldProcessAsset(cfg, newPath) then Completed(w)
    else
      match Rejects(cfg, q, w, newPath)
      case Failure(f) => Faulted(w, f)
      case Success((w1, skip)) =>
        if skip then Completed(w1) else ImportAndMark(cfg, q, w1, newPath)
  }

  /** A step that never touches the deletion queue. */
  ghost predicate QueuesNothing(one: (World, string) -> Run) {
    forall w, a :: one(w, a).state.resourcesToDelete == w.resourcesToDelete
  }

  /** One index of `ProcessMovedAssets`: `from` on the old path, then `to` on
      the new path at the same index, which throws when the moved-to array is
      too short. */
  function MovePair(w: World, oldPath: string, newPaths: seq<string>, i: nat,
                    from: (World, string) -> Run, to: (World, string) -> Run): Run
  {
    var o1 := from(w, oldPath);
    if o1.Faulted? then o1
    else if i >= |newPaths| then Faulted(o1.state, IndexOutOfRange)
    else to(o1.state, newPaths[i])
  }

  /** The loop of `ProcessMovedAssets` from index `i` on; a moved-to array
      shorter than the moved-from array throws at the first missing index. */
  function MoveEach(w: World, oldPaths: seq<string>, newPaths: seq<string>, i: nat,
                    from: (World, string) -> Run, to: (World, string) -> Run): (r: Run)
    requires i <= |oldPaths|
    ensures QueuesNothing(from) && QueuesOnlyItself(to) ==>
      forall x :: x in r.state.resourcesToDelete ==> x in w.resourcesToDelete || x in newPaths
    decreases |oldPaths| - i
  {
    if i == |oldPaths| then Completed(w)
    else
      var o := MovePair(w, oldPaths[i], newPaths, i, from, to);
      if o.Faulted? then o
      else MoveEach(o.state, oldPaths, newPaths, i + 1, from, to)
  }

  /** The loop over `oldPaths + [a]` is the loop over `oldPaths` followed,
      unless that threw, by the pair step at index `|oldPaths|`. */
  lemma {:induction false} MoveEachSnoc(w: World, oldPaths: seq<string>, newPaths: seq<string>, a: string, i: nat,
                                        from: (World, string) -> Run, to: (World, string) -> Run)
    requires i <= |oldPaths|
    ensures var o := MoveEach(w, oldPaths, newPaths, i, from, to);
      MoveEach(w, oldPaths + [a], newPaths, i, from, to)
        == if o.Faulted? then o else MovePair(o.state, a, newPaths, |oldPaths|, from, to)
    decreases |oldPaths| - i
  {
    var more := oldPaths + [a];
    if i == |oldPaths| {
      assert more[i] == a;
      var p := MovePair(w, a, newPaths, i, from, to);
      if !p.Faulted? {
        assert MoveEach(p.state, more, newPaths, i + 1, from, to) == Completed(p.state);
      }
    } else {
      assert more[i] == oldPaths[i];
      var p := MovePair(w, oldPaths[i], newPaths, i, from, to);
      if !p.Faulted? {
        MoveEachSnoc(p.state, oldPaths, newPaths, a, i + 1, from, to);
      }
    }
  }

  function MovingFrom(cfg: Config, q: AssetQueries): (one: (World, string) -> Run)
    ensures QueuesNothing(one)
    ensures forall w, a :: one(w, a) == MoveFrom(cfg, q, w, a)
  {
    (w, a) => MoveFrom(cfg, q, w, a)
  }

  function MovingTo(cfg: Config, q: AssetQueries): (one: (World, string) -> Run)
    ensures QueuesOnlyItself(one)
    ensures forall w, a :: one(w, a) == MoveTo(cfg, q, w, a)
  {
    (w, a) => MoveTo(cfg, q, w, a)
  }

  /** `ProcessMovedAssets`; nothing happens when either array is null. */
  function ProcessMovedAssets(cfg: Config, q: AssetQueries, w: World, oldPaths: Option<seq<string>>, newPaths: Option<seq<string>>): (r: Run)
    ensures oldPaths.None? || newPaths.None? ==> r == Completed(w)
    ensures forall x :: x in r.state.resourcesToDelete ==> x in w.resourcesToDelete || InBatch(x, newPaths)
  {
    if oldPaths.None? || newPaths.None? then Completed(w)
    else MoveEach(w, oldPaths.value, newPaths.value, 0, MovingFrom(cfg, q), MovingTo(cfg, q))
  }

  /** The moves are processed index by index: one more moved-from path is its
      deletion, then the import of the moved-to path at the same index, on the
      state the earlier moves left, unless they threw. */
  lemma ProcessMovedAssetsSnoc(cfg: Config, q: AssetQueries, w: World, oldPaths: seq<string>, newPaths: seq<string>, a: string)
    ensures var o := ProcessMovedAssets(cfg, q, w, Some(oldPaths), Some(newPaths));
      ProcessMovedAssets(cfg, q, w, Some(oldPaths + [a]), Some(newPaths))
        == if o.Faulted? then o
           else
             var o1 := MoveFrom(cfg, q, o.state, a);
             if o1.Faulted? then o1
             else if |oldPaths| >= |newPaths| then Faulted(o1.state, IndexOutOfRange)
             else MoveTo(cfg, q, o1.state, newPaths[|oldPaths|])
  {
    MoveEachSnoc(w, oldPaths, newPaths, a, 0, MovingFrom(cfg, q), MovingTo(cfg, q));
  }

  /** A moved-to array shorter than the moved-from array makes the batch throw
      once the loop reaches the missing index (here nothing is processable). */
  lemma ShortMovedArrayThrows(cfg: Config, q: AssetQueries, w: World, oldPaths: seq<string>, newPaths: seq<string>)
    requires |newPaths| < |oldPaths|
    requires forall k :: 0 <= k < |oldPaths| ==> !ShouldProcessAsset(cfg, oldPaths[k])
    requires forall k :: 0 <= k < |newPaths| ==> !ShouldProcessAsset(cfg, newPaths[k])
    ensures ProcessMovedAssets(cfg, q, w, Some(oldPaths), Some(newPaths)) == Faulted(w, IndexOutOfRange)
  {
    MoveEachShortArray(w, oldPaths, newPaths, 0, MovingFrom(cfg, q), MovingTo(cfg, q));
  }

  lemma {:induction false} MoveEachShortArray(w: World, oldPaths: seq<string>, newPaths: seq<string>, i: nat,
                                              from: (World, string) -> Run, to: (World, string) -> Run)
    requires i <= |newPaths| < |oldPaths|
    requires forall k :: 0 <= k < |oldPaths| ==> from(w, oldPaths[k]) == Completed(w)
    requires forall k :: i <= k < |newPaths| ==> to(w, newPaths[k]) == Completed(w)
    ensures MoveEach(w, oldPaths, newPaths, i, from, to) == Faulted(w, IndexOutOfRange)
    decreases |oldPaths| - i
  {
    if i < |newPaths| {
      MoveEachShortArray(w, oldPaths, newPaths, i + 1, from, to);
    }
  }

  predicate InBatch(x: string, assets: Option<seq<string>>) {
    assets.Some? && x in assets.value
  }

  /** `ProcessAssetChanges`: imports, then deletions, then moves; an exception
      ends the batch where it was thrown. */
  function ProcessAssetChanges(cfg: Config, q: AssetQueries, w: World,
                               importedAssets: Option<seq<string>>, deletedAssets: Option<seq<string>>,
                               movedAssets: Option<seq<string>>, movedFromPaths: Option<seq<string>>): (r: Run)
    ensures forall x :: x in r.state.resourcesToDelete ==>
      x in w.resourcesToDelete || InBatch(x, importedAssets) || InBatch(x, deletedAssets) || InBatch(x, movedAssets)
    ensures var i := ProcessAssets(cfg, q, w, importedAssets, ImportSprite);
      && (i.Faulted? ==> r == i)
      && (i.Completed? ==>
            var d := ProcessAssets(cfg, q, i.state, deletedAssets, DeleteSprite);
            && (d.Faulted? ==> r == d)
            && (d.Completed? ==> r == ProcessMovedAssets(cfg, q, d.state, movedFromPaths, movedAssets)))
  {
    match ProcessAssets(cfg, q, w, importedAssets, ImportSprite)
    case Faulted(w1, f) => Faulted(w1, f)
    case Completed(w1) =>
      match ProcessAssets(cfg, q, w1, deletedAssets, DeleteSprite)
      case Faulted(w2, f) => Faulted(w2, f)
      case Completed(w2) => ProcessMovedAssets(cfg, q, w2, movedFromPaths, movedAssets)
  }

  /** What one call of `OnPostprocessAllAssets` leaves behind: the world, the
      assets it deleted, and whether it caught an exception. */
  datatype BatchResult = BatchResult(world: World, deletedAssets: seq<string>, caughtException: bool)

  /** `OnPostprocessAllAssets`: resets the deletion queue, does nothing more
      when auto-generation is off, and otherwise processes the batch and then
      deletes every queued asset, exception or not. */
  function OnPostprocessAllAssets(cfg: Config, q: AssetQueries, w: World,
                                  importedAssets: Option<seq<string>>, deletedAssets: Option<seq<string>>,
                                  movedAssets: Option<seq<string>>, movedFromAssetPaths: Option<seq<string>>): (r: BatchResult)
    ensures !cfg.autoGenerate ==> r == BatchResult(w.(resourcesToDelete := []), [], false)
    ensures cfg.autoGenerate ==>
      var o := ProcessAssetChanges(cfg, q, w.(resourcesToDelete := []), importedAssets, deletedAssets, movedAssets, movedFromAssetPaths);
      r.world == o.state && (r.caughtException <==> o.Faulted?)
    ensures r.deletedAssets == r.world.resourcesToDelete
    ensures forall x :: x in r.deletedAssets ==>
      InBatch(x, importedAssets) || InBatch(x, deletedAssets) || InBatch(x, movedAssets)
  {
    var w0 := w.(resourcesToDelete := []);
    if !cfg.autoGenerate then BatchResult(w0, [], false)
    else
      var o := ProcessAssetChanges(cfg, q, w0, importedAssets, deletedAssets, movedAssets, movedFromAssetPaths);
      BatchResult(o.state, o.state.resourcesToDelete, o.Faulted?)
  }

  /** An empty batch deletes nothing and catches nothing; only the deletion
      queue is reset. */
  lemma EmptyBatchIsNoOp(cfg: Config, q: AssetQueries, w: World)
    ensures OnPostprocessAllAssets(cfg, q, w, None, None, None, None) == BatchResult(w.(resourcesToDelete := []), [], false)
  {
  }
}

=== FILE: sprite_save_info.dfy ===
/** The sprite-to-atlas bookkeeping of `EditorSpriteSaveInfo`: which sprite
    paths belong to which atlas, and which atlases await regeneration. */
module SpriteSaveInfo {
  import opened Wrappers
  import opened Seqs
  import opened Strings
  import opened Paths
  import opened AtlasConfig
  import opened AtlasNaming

  /** The static state of `EditorSpriteSaveInfo`. */
  datatype SaveInfo = SaveInfo(
    atlasMap: map<string, seq<string>>,
    dirtyAtlasNames: set<string>,
    dirtyAtlasNamesNeedCreateNew: set<string>)

  type Step = Outcome<SaveInfo, Fault>

  /** Every atlas lists each sprite path at most once. */
  predicate ListsWithoutDuplicates(s: SaveInfo) {
    forall n :: n in s.atlasMap ==> NoDuplicates(s.atlasMap[n])
  }

  /** `name` will be regenerated on the next drain: in the create-new set, or,
      for a plain request, in either set. */
  predicate AwaitsGeneration(s: SaveInfo, name: string, isCreateNew: bool) {
    name in s.dirtyAtlasNamesNeedCreateNew || (!isCreateNew && name in s.dirtyAtlasNames)
  }

  /** From `s` to `r` only the dirty set that `isCreateNew` selects grows. */
  predicate GrowsDirty(s: SaveInfo, r: SaveInfo, isCreateNew: bool) {
    && r.atlasMap == s.atlasMap
    && s.dirtyAtlasNames <= r.dirtyAtlasNames
    && s.dirtyAtlasNamesNeedCreateNew <= r.dirtyAtlasNamesNeedCreateNew
    && (isCreateNew ==> r.dirtyAtlasNames == s.dirtyAtlasNames)
    && (!isCreateNew ==> r.dirtyAtlasNamesNeedCreateNew == s.dirtyAtlasNamesNeedCreateNew)
  }

  lemma AwaitsGenerationPersists(s: SaveInfo, r: SaveInfo, name: string, isCreateNew: bool)
    requires AwaitsGeneration(s, name, isCreateNew) && GrowsDirty(s, r, isCreateNew)
    ensures AwaitsGeneration(r, name, isCreateNew)
  {
  }

  /** `MarkDirty` (outside a build-change scan): a create-new request always
      lands in the create-new set; a plain request lands in the plain set
      unless the name already awaits recreation. */
  function MarkDirty(s: SaveInfo, name: string, isCreateNew: bool): (r: SaveInfo)
    ensures GrowsDirty(s, r, isCreateNew)
    ensures AwaitsGeneration(r, name, isCreateNew)
    ensures r.dirtyAtlasNames - s.dirtyAtlasNames <= {name} - s.dirtyAtlasNamesNeedCreateNew
    ensures r.dirtyAtlasNamesNeedCreateNew - s.dirtyAtlasNamesNeedCreateNew <= {name}
    ensures isCreateNew ==> name in r.dirtyAtlasNamesNeedCreateNew
  {
    if isCreateNew then
      s.(dirtyAtlasNamesNeedCreateNew := s.dirtyAtlasNamesNeedCreateNew + {name})
    else if name !in s.dirtyAtlasNamesNeedCreateNew then
      s.(dirtyAtlasNames := s.dirtyAtlasNames + {name})
    else s
  }

  /** Marking twice is marking once. */
  lemma MarkDirtyIdempotent(s: SaveInfo, name: string, isCreateNew: bool)
    ensures MarkDirty(MarkDirty(s, name, isCreateNew), name, isCreateNew) == MarkDirty(s, name, isCreateNew)
  {
  }

  /** A plain request after a create-new request for the same name changes nothing. */
  lemma PlainAfterCreateNewIsAbsorbed(s: SaveInfo, name: string)
    ensures MarkDirty(MarkDirty(s, name, true), name, false) == MarkDirty(s, name, true)
  {
  }

  /** The directories the inner loop of `MarkParentAtlasesDirty` visits from
      `cur`: `cur` and then each parent in turn, for as long as it starts with
      the root `t`. */
  function Chain(t: string, cur: Option<string>): (r: seq<string>)
    ensures forall k :: 0 <= k < |r| ==> StartsWith(r[k], t)
    ensures cur.Some? && StartsWith(cur.value, t) ==> |r| >= 1 && r[0] == cur.value
    ensures cur.None? || !StartsWith(cur.value, t) ==> r == []
    decreases if cur.Some? then |cur.value| + 1 else 0
  {
    if cur.None? || !StartsWith(cur.value, t) then []
    else [cur.value] + Chain(t, DirectoryName(cur.value))
  }

  /** From a root without separators down two clean segments, the walk visits
      the directory, its parent and the root itself, and stops there. */
  lemma ChainOfNestedDirectory(t: string, a: string, b: string)
    requires t != "" && '/' !in a && '/' !in b
    ensures Chain(t, Some(t + "/" + a + "/" + b)) == [t + "/" + a + "/" + b, t + "/" + a, t]
  {
    var x := (t + "/") + a;
    var y := (x + "/") + b;
    ChainEndsAtRoot(t);
    BelowRoot(t, a);
    ChainOfChild(t, t, a, [t]);
    BelowRoot(x, b);
    StartsWithTransitive(y, x, t);
    ChainOfChild(t, x, b, [x, t]);
  }

  /** The walk stops at the root itself: its parent is shorter than the root. */
  lemma ChainEndsAtRoot(t: string)
    requires t != ""
    ensures Chain(t, Some(t)) == [t]
  {
    var up := DirectoryName(t);
    assert up.Some? && |up.value| < |t|;
    assert !StartsWith(up.value, t);
    assert Chain(t, up) == [];
  }

  /** The walk from `dir/name`, when that starts with the root, is that
      directory followed by the walk from `dir`. */
  lemma ChainOfChild(t: string, dir: string, name: string, rest: seq<string>)
    requires '/' !in name && StartsWith((dir + "/") + name, t)
    requires Chain(t, Some(dir)) == rest
    ensures Chain(t, Some((dir + "/") + name)) == [(dir + "/") + name] + rest
  {
    DirectoryNameOfChild(dir, name);
  }

  lemma BelowRoot(t: string, u: string)
    ensures StartsWith((t + "/") + u, t)
  {
    assert ((t + "/") + u)[..|t|] == t;
  }

  /** The atlas name of directory `d`, as a set: empty when it names none or throws. */
  function NameOf(cfg: Config, d: string): set<string> {
    match GetAtlasNameForDirectory(cfg, d)
    case Success(Some(n)) => {n}
    case _ => {}
  }

  /** The atlas names of `dirs`. */
  function NamesOf(cfg: Config, dirs: seq<string>): set<string> {
    if dirs == [] then {} else NameOf(cfg, dirs[0]) + NamesOf(cfg, dirs[1..])
  }

  /** Every directory of `dirs` names its atlas without throwing, and each
      atlas so named awaits generation in `s`. */
  predicate MarksAll(cfg: Config, s: SaveInfo, dirs: seq<string>, isCreateNew: bool) {
    forall k :: 0 <= k < |dirs| ==> MarksDirectory(cfg, s, dirs[k], isCreateNew)
  }

  predicate MarksDirectory(cfg: Config, s: SaveInfo, d: string, isCreateNew: bool) {
    && GetAtlasNameForDirectory(cfg, d).Success?
    && (GetAtlasNameForDirectory(cfg, d).value.Some? ==>
          AwaitsGeneration(s, GetAtlasNameForDirectory(cfg, d).value.value, isCreateNew))
  }

  /** Naming some directory of `dirs` throws `f`. */
  ghost predicate FaultsIn(cfg: Config, dirs: seq<string>, f: Fault) {
    exists k :: 0 <= k < |dirs| && Throws(cfg, dirs[k], f)
  }

  predicate Throws(cfg: Config, d: string, f: Fault) {
    GetAtlasNameForDirectory(cfg, d) == Failure(f)
  }

  /** The names that became dirty, in either set, from `s` to `r`. */
  function Added(s: SaveInfo, r: SaveInfo): set<string> {
    (r.dirtyAtlasNames - s.dirtyAtlasNames) + (r.dirtyAtlasNamesNeedCreateNew - s.dirtyAtlasNamesNeedCreateNew)
  }

  /** No name that awaited recreation in `s` joins the plain set on the way
      to `r`: a plain request for such a name is absorbed. */
  predicate AbsorbedPlain(s: SaveInfo, r: SaveInfo) {
    (r.dirtyAtlasNames - s.dirtyAtlasNames) * s.dirtyAtlasNamesNeedCreateNew == {}
  }

  lemma AbsorbedThrough(s: SaveInfo, s1: SaveInfo, r: SaveInfo)
    requires s.dirtyAtlasNames <= s1.dirtyAtlasNames && s.dirtyAtlasNamesNeedCreateNew <= s1.dirtyAtlasNamesNeedCreateNew
    requires AbsorbedPlain(s, s1) && AbsorbedPlain(s1, r)
    ensures AbsorbedPlain(s, r)
  {
  }

  lemma AddedThrough(s: SaveInfo, s1: SaveInfo, r: SaveInfo)
    requires s.dirtyAtlasNames <= s1.dirtyAtlasNames && s.dirtyAtlasNamesNeedCreateNew <= s1.dirtyAtlasNamesNeedCreateNew
    ensures Added(s, r) <= Added(s, s1) + Added(s1, r)
  {
  }

  /** The inner loop of `MarkParentAtlasesDirty`: marks the atlas of every
      directory of the chain, and nothing else, unless naming one throws. */
  function WalkUp(cfg: Config, s: SaveInfo, t: string, cur: Option<string>, isCreateNew: bool): (r: Step)
    ensures GrowsDirty(s, r.state, isCreateNew)
    ensures r.Completed? ==> MarksAll(cfg, r.state, Chain(t, cur), isCreateNew)
    ensures r.Faulted? ==> FaultsIn(cfg, Chain(t, cur), r.fault)
    ensures Added(s, r.state) <= NamesOf(cfg, Chain(t, cur))
    ensures AbsorbedPlain(s, r.state)
    decreases if cur.Some? then |cur.value| + 1 else 0
  {
    if cur.None? || !StartsWith(cur.value, t) then Completed(s)
    else
      match GetAtlasNameForDirectory(cfg, cur.value)
      case Failure(f) =>
        ChainHead(cfg, t, cur.value);
        Faulted(s, f)
      case Success(name) =>
        var s1 := if name.Some? then MarkDirty(s, name.value, isCreateNew) else s;
        assert Added(s, s1) <= NameOf(cfg, cur.value);
        assert AbsorbedPlain(s, s1);
        assert MarksDirectory(cfg, s1, cur.value, isCreateNew);
        var r := WalkUp(cfg, s1, t, DirectoryName(cur.value), isCreateNew);
        WalkUpStep(cfg, s, s1, r, t, cur.value, isCreateNew);
        r
  }

  /** What the walk from the parent of `d` established, after `d` itself was
      marked, holds for the walk from `d`. */
  lemma WalkUpStep(cfg: Config, s: SaveInfo, s1: SaveInfo, r: Step, t: string, d: string, isCreateNew: bool)
    requires StartsWith(d, t)
    requires GrowsDirty(s, s1, isCreateNew) && Added(s, s1) <= NameOf(cfg, d) && AbsorbedPlain(s, s1)
    requires MarksDirectory(cfg, s1, d, isCreateNew)
    requires GrowsDirty(s1, r.state, isCreateNew)
    requires r.Completed? ==> MarksAll(cfg, r.state, Chain(t, DirectoryName(d)), isCreateNew)
    requires r.Faulted? ==> FaultsIn(cfg, Chain(t, DirectoryName(d)), r.fault)
    requires Added(s1, r.state) <= NamesOf(cfg, Chain(t, DirectoryName(d))) && AbsorbedPlain(s1, r.state)
    ensures GrowsDirty(s, r.state, isCreateNew)
    ensures r.Completed? ==> MarksAll(cfg, r.state, Chain(t, Some(d)), isCreateNew)
    ensures r.Faulted? ==> FaultsIn(cfg, Chain(t, Some(d)), r.fault)
    ensures Added(s, r.state) <= NamesOf(cfg, Chain(t, Some(d)))
    ensures AbsorbedPlain(s, r.state)
  {
    var n := GetAtlasNameForDirectory(cfg, d).value;
    if n.Some? {
      AwaitsGenerationPersists(s1, r.state, n.value, isCreateNew);
    }
    assert MarksDirectory(cfg, r.state, d, isCreateNew);
    ChainCons(cfg, r, t, d, isCreateNew);
    AddedThrough(s, s1, r.state);
    AbsorbedThrough(s, s1, r.state);
  }

  /** A throwing directory at the head of the chain throws for the chain. */
  lemma ChainHead(cfg: Config, t: string, d: string)
    requires StartsWith(d, t) && GetAtlasNameForDirectory(cfg, d).Failure?
    ensures FaultsIn(cfg, Chain(t, Some(d)), GetAtlasNameForDirectory(cfg, d).error)
  {
    assert Chain(t, Some(d))[0] == d;
  }

  /** The facts about the walk from the parent of `d` extend to the walk from `d`. */
  lemma ChainCons(cfg: Config, r: Step, t: string, d: string, isCreateNew: bool)
    requires StartsWith(d, t)
    requires r.Completed? ==> MarksDirectory(cfg, r.state, d, isCreateNew) && MarksAll(cfg, r.state, Chain(t, DirectoryName(d)), isCreateNew)
    requires r.Faulted? ==> FaultsIn(cfg, Chain(t, DirectoryName(d)), r.fault)
    ensures r.Completed? ==> MarksAll(cfg, r.state, Chain(t, Some(d)), isCreateNew)
    ensures r.Faulted? ==> FaultsIn(cfg, Chain(t, Some(d)), r.fault)
    ensures NamesOf(cfg, Chain(t, Some(d))) == NameOf(cfg, d) + NamesOf(cfg, Chain(t, DirectoryName(d)))
  {
    var rest := Chain(t, DirectoryName(d));
    var dirs := Chain(t, Some(d));
    assert dirs == [d] + rest;
    if r.Completed? {
      MarksAllCons(cfg, r.state, d, rest, isCreateNew);
    } else {
      assert dirs[1..] == rest;
      FaultsInCons(cfg, dirs, r.fault);
    }
    NamesOfCons(cfg, d, rest);
  }

  lemma MarksAllCons(cfg: Config, s: SaveInfo, d: string, rest: seq<string>, isCreateNew: bool)
    requires MarksDirectory(cfg, s, d, isCreateNew) && MarksAll(cfg, s, rest, isCreateNew)
    ensures MarksAll(cfg, s, [d] + rest, isCreateNew)
  {
    var dirs := [d] + rest;
    assert forall k :: 1 <= k < |dirs| ==> dirs[k] == rest[k - 1];
  }

  lemma FaultsInCons(cfg: Config, dirs: seq<string>, f: Fault)
    requires |dirs| >= 1 && FaultsIn(cfg, dirs[1..], f)
    ensures FaultsIn(cfg, dirs, f)
  {
    var k :| 0 <= k < |dirs[1..]| && Throws(cfg, dirs[1..][k], f);
    assert dirs[1..][k] == dirs[k + 1];
  }

  lemma NamesOfCons(cfg: Config, d: string, rest: seq<string>)
    ensures NamesOf(cfg, [d] + rest) == NameOf(cfg, d) + NamesOf(cfg, rest)
  {
    assert ([d] + rest)[1..] == rest;
  }

  /** The atlas names of every chain the outer loop walks from `cur`. */
  function ChainNames(cfg: Config, roots: seq<string>, cur: string): set<string> {
    if roots == [] then {}
    else NamesOf(cfg, Chain(Canonical(roots[0]), Some(cur))) + ChainNames(cfg, roots[1..], cur)
  }

  /** Every chain walked from `cur`, one per root, is marked in `s`. */
  predicate MarksRoots(cfg: Config, s: SaveInfo, roots: seq<string>, cur: string, isCreateNew: bool) {
    roots != [] ==>
      && MarksAll(cfg, s, Chain(Canonical(roots[0]), Some(cur)), isCreateNew)
      && MarksRoots(cfg, s, roots[1..], cur, isCreateNew)
  }

  /** Naming some directory of some chain walked from `cur` throws `f`. */
  ghost predicate FaultsInRoots(cfg: Config, roots: seq<string>, cur: string, f: Fault) {
    exists i :: 0 <= i < |roots| && FaultsIn(cfg, Chain(Canonical(roots[i]), Some(cur)), f)
  }

  /** The outer loop of `MarkParentAtlasesDirty` over source and root-child
      roots; a root `cur` does not start with walks nothing. */
  function MarkFromRoots(cfg: Config, s: SaveInfo, roots: seq<string>, cur: string, isCreateNew: bool): (r: Step)
    ensures GrowsDirty(s, r.state, isCreateNew)
    ensures r.Completed? ==> MarksRoots(cfg, r.state, roots, cur, isCreateNew)
    ensures r.Faulted? ==> FaultsInRoots(cfg, roots, cur, r.fault)
    ensures Added(s, r.state) <= ChainNames(cfg, roots, cur)
    ensures AbsorbedPlain(s, r.state)
    decreases |roots|
  {
    if roots == [] then Completed(s)
    else
      var o := WalkUp(cfg, s, Canonical(roots[0]), Some(cur), isCreateNew);
      if o.Faulted? then
        FaultsInFirstRoot(cfg, roots, cur, o.fault);
        o
      else
        var r := MarkFromRoots(cfg, o.state, roots[1..], cur, isCreateNew);
        MarksAllPersists(cfg, o.state, r.state, Chain(Canonical(roots[0]), Some(cur)), isCreateNew);
        RootsCons(cfg, r, roots, cur, isCreateNew);
        AddedThrough(s, o.state, r.state);
        AbsorbedThrough(s, o.state, r.state);
        r
  }

  lemma FaultsInFirstRoot(cfg: Config, roots: seq<string>, cur: string, f: Fault)
    requires roots != [] && FaultsIn(cfg, Chain(Canonical(roots[0]), Some(cur)), f)
    ensures FaultsInRoots(cfg, roots, cur, f)
  {
  }

  /** The outer loop's facts about the remaining roots extend to all roots. */
  lemma RootsCons(cfg: Config, r: Step, roots: seq<string>, cur: string, isCreateNew: bool)
    requires roots != []
    requires r.Completed? ==> MarksAll(cfg, r.state, Chain(Canonical(roots[0]), Some(cur)), isCreateNew)
    requires r.Completed? ==> MarksRoots(cfg, r.state, roots[1..], cur, isCreateNew)
    requires r.Faulted? ==> FaultsInRoots(cfg, roots[1..], cur, r.fault)
    ensures r.Completed? ==> MarksRoots(cfg, r.state, roots, cur, isCreateNew)
    ensures r.Faulted? ==> FaultsInRoots(cfg, roots, cur, r.fault)
  {
    if r.Faulted? {
      FaultsInRootsCons(cfg, roots, cur, r.fault);
    }
  }

  lemma FaultsInRootsCons(cfg: Config, roots: seq<string>, cur: string, f: Fault)
    requires roots != [] && FaultsInRoots(cfg, roots[1..], cur, f)
    ensures FaultsInRoots(cfg, roots, cur, f)
  {
    var i :| 0 <= i < |roots[1..]| && FaultsIn(cfg, Chain(Canonical(roots[1..][i]), Some(cur)), f);
    assert roots[1..][i] == roots[i + 1];
  }

  lemma MarksAllPersists(cfg: Config, s: SaveInfo, r: SaveInfo, dirs: seq<string>, isCreateNew: bool)
    requires MarksAll(cfg, s, dirs, isCreateNew) && GrowsDirty(s, r, isCreateNew)
    ensures MarksAll(cfg, r, dirs, isCreateNew)
  {
  }

  /** `MarkParentAtlasesDirty`: from the sprite's directory up, for every
      configured root, the atlas of each directory still within that root
      awaits generation afterwards, and no other name becomes dirty. */
  function MarkParentAtlasesDirty(cfg: Config, s: SaveInfo, assetPath: string, isCreateNew: bool): (r: Step)
    ensures GrowsDirty(s, r.state, isCreateNew)
    ensures AbsorbedPlain(s, r.state)
    ensures var cur := DirectoryName(NormalizeSlashes(assetPath));
      if cur.None? || cur.value == "" then r == Completed(s)
      else
        && (r.Completed? ==> MarksRoots(cfg, r.state, Roots(cfg), cur.value, isCreateNew))
        && (r.Faulted? ==> FaultsInRoots(cfg, Roots(cfg), cur.value, r.fault))
        && Added(s, r.state) <= ChainNames(cfg, Roots(cfg), cur.value)
  {
    var cur := DirectoryName(NormalizeSlashes(assetPath));
    if cur.None? || cur.value == "" then Completed(s)
    else MarkFromRoots(cfg, s, Roots(cfg), cur.value, isCreateNew)
  }

  /** What `MarkParentAtlasesDirty(assetPath)` promises of a step that ran it
      last: a sprite with no directory cannot throw; otherwise every root's
      chain above its directory is marked, or naming one of them threw. */
  ghost predicate ParentsMarked(cfg: Config, r: Step, assetPath: string, isCreateNew: bool) {
    var cur := DirectoryName(NormalizeSlashes(assetPath));
    if cur.None? || cur.value == "" then r.Completed?
    else
      && (r.Completed? ==> MarksRoots(cfg, r.state, Roots(cfg), cur.value, isCreateNew))
      && (r.Faulted? ==> FaultsInRoots(cfg, Roots(cfg), cur.value, r.fault))
  }

  /** The atlas names `MarkParentAtlasesDirty(assetPath)` may mark. */
  function ParentNames(cfg: Config, assetPath: string): set<string> {
    var cur := DirectoryName(NormalizeSlashes(assetPath));
    if cur.None? || cur.value == "" then {} else ChainNames(cfg, Roots(cfg), cur.value)
  }

  /** The list an atlas has so far; a missing entry reads as empty. */
  function SpritesOf(s: SaveInfo, n: string): seq<string> {
    if n in s.atlasMap then s.atlasMap[n] else []
  }

  /** The body of `OnImportSprite` once the atlas name `n` is settled: the path
      is appended only if absent, and only then are the atlas and its parent
      atlases marked dirty. */
  function AddToAtlas(cfg: Config, s: SaveInfo, n: string, p: string, isCreateNew: bool): (r: Step)
    ensures ListsWithoutDuplicates(s) ==> ListsWithoutDuplicates(r.state)
    ensures r.state.atlasMap.Keys == s.atlasMap.Keys + {n}
    ensures p in r.state.atlasMap[n]
    ensures forall m :: m in s.atlasMap && m != n ==> r.state.atlasMap[m] == s.atlasMap[m]
    ensures p in SpritesOf(s, n) ==> r == Completed(s)
    ensures p !in SpritesOf(s, n) ==>
      && r.state.atlasMap[n] == SpritesOf(s, n) + [p]
      && AwaitsGeneration(r.state, n, isCreateNew)
      && s.dirtyAtlasNames <= r.state.dirtyAtlasNames
      && s.dirtyAtlasNamesNeedCreateNew <= r.state.dirtyAtlasNamesNeedCreateNew
  {
    var list := SpritesOf(s, n);
    if p in list then Completed(s)
    else
      var s1 := s.(atlasMap := s.atlasMap[n := list + [p]]);
      assert ListsWithoutDuplicates(s) ==> ListsWithoutDuplicates(s1) by {
        if ListsWithoutDuplicates(s) { AppendAbsentNoDuplicates(list, p); }
      }
      var s2 := MarkDirty(s1, n, isCreateNew);
      var r := MarkParentAtlasesDirty(cfg, s2, p, isCreateNew);
      AwaitsGenerationPersists(s2, r.state, n, isCreateNew);
      r
  }

  /** `OnImportSprite`: normalises '\' to '/', settles the atlas name, and
      adds the path to that atlas. */
  function OnImportSprite(cfg: Config, q: AssetQueries, s: SaveInfo, assetPath: string, isCreateNew: bool := false): (r: Step)
    ensures ResolveAtlasName(cfg, q, NormalizeSlashes(assetPath)).Skip? ==> r == Completed(s)
    ensures ResolveAtlasName(cfg, q, NormalizeSlashes(assetPath)).NullName? ==> r == Faulted(s, ArgumentNull)
    ensures ResolveAtlasName(cfg, q, NormalizeSlashes(assetPath)).Named? ==>
      r == AddToAtlas(cfg, s, ResolveAtlasName(cfg, q, NormalizeSlashes(assetPath)).name, NormalizeSlashes(assetPath), isCreateNew)
  {
    var p := NormalizeSlashes(assetPath);
    match ResolveAtlasName(cfg, q, p)
    case Skip => Completed(s)
    case NullName => Faulted(s, ArgumentNull)
    case Named(n) => AddToAtlas(cfg, s, n, p, isCreateNew)
  }

  /** The body of `OnDeleteSprite` once the atlas name `n` is settled: only a
      path actually present is removed, and only then is anything marked. */
  function RemoveFromAtlas(cfg: Config, s: SaveInfo, n: string, p: string, isCreateNew: bool): (r: Step)
    ensures r.state.atlasMap.Keys == s.atlasMap.Keys
    ensures ListsWithoutDuplicates(s) ==> ListsWithoutDuplicates(r.state)
    ensures forall m :: m in s.atlasMap && m != n ==> r.state.atlasMap[m] == s.atlasMap[m]
    ensures p !in SpritesOf(s, n) ==> r == Completed(s)
    ensures p in SpritesOf(s, n) ==>
      && r.state.atlasMap[n] == RemoveFirst(s.atlasMap[n], p)
      && (ListsWithoutDuplicates(s) ==> p !in r.state.atlasMap[n])
      && AwaitsGeneration(r.state, n, isCreateNew)
      && s.dirtyAtlasNames <= r.state.dirtyAtlasNames
      && s.dirtyAtlasNamesNeedCreateNew <= r.state.dirtyAtlasNamesNeedCreateNew
  {
    if n in s.atlasMap && p in s.atlasMap[n] then
      var list := RemoveFirst(s.atlasMap[n], p);
      var s1 := s.(atlasMap := s.atlasMap[n := list]);
      assert ListsWithoutDuplicates(s) ==> ListsWithoutDuplicates(s1) && p !in list by {
        if ListsWithoutDuplicates(s) { RemoveFirstNoDuplicates(s.atlasMap[n], p); }
      }
      var s2 := MarkDirty(s1, n, isCreateNew);
      var r := MarkParentAtlasesDirty(cfg, s2, p, isCreateNew);
      AwaitsGenerationPersists(s2, r.state, n, isCreateNew);
      r
    else Completed(s)
  }

  /** `OnDeleteSprite`: like `OnImportSprite`, but removes the path and never
      creates an atlas entry. */
  function OnDeleteSprite(cfg: Config, q: AssetQueries, s: SaveInfo, assetPath: string, isCreateNew: bool := true): (r: Step)
    ensures r.state.atlasMap.Keys == s.atlasMap.Keys
    ensures ResolveAtlasName(cfg, q, NormalizeSlashes(assetPath)).Skip? ==> r == Completed(s)
    ensures ResolveAtlasName(cfg, q, NormalizeSlashes(assetPath)).NullName? ==> r == Faulted(s, ArgumentNull)
    ensures ResolveAtlasName(cfg, q, NormalizeSlashes(assetPath)).Named? ==>
      r == RemoveFromAtlas(cfg, s, ResolveAtlasName(cfg, q, NormalizeSlashes(assetPath)).name, NormalizeSlashes(assetPath), isCreateNew)
  {
    var p := NormalizeSlashes(assetPath);
    match ResolveAtlasName(cfg, q, p)
    case Skip => Completed(s)
    case NullName => Faulted(s, ArgumentNull)
    case Named(n) => RemoveFromAtlas(cfg, s, n, p, isCreateNew)
  }

  /** Importing the same path again leaves the state exactly as it is. */
  lemma ImportIsIdempotent(cfg: Config, q: AssetQueries, s: SaveInfo, assetPath: string, isCreateNew: bool)
    ensures var s1 := OnImportSprite(cfg, q, s, assetPath, isCreateNew).state;
      OnImportSprite(cfg, q, s1, assetPath, isCreateNew).state == s1
  {
  }

  /** Deleting a freshly imported sprite gives its atlas back the list it had. */
  lemma DeleteUndoesImport(cfg: Config, q: AssetQueries, s: SaveInfo, assetPath: string, n: string, c1: bool, c2: bool)
    requires ResolveAtlasName(cfg, q, NormalizeSlashes(assetPath)) == Named(n)
    requires NormalizeSlashes(assetPath) !in SpritesOf(s, n)
    ensures var s2 := OnDeleteSprite(cfg, q, OnImportSprite(cfg, q, s, assetPath, c1).state, assetPath, c2).state;
      s2.atlasMap == s.atlasMap[n := SpritesOf(s, n)]
  {
    var p := NormalizeSlashes(assetPath);
    var s1 := OnImportSprite(cfg, q, s, assetPath, c1).state;
    assert s1 == AddToAtlas(cfg, s, n, p, c1).state;
    assert OnDeleteSprite(cfg, q, s1, assetPath, c2) == RemoveFromAtlas(cfg, s1, n, p, c2);
    RemoveUndoesAdd(cfg, s, n, p, c1, c2);
  }

  lemma RemoveUndoesAdd(cfg: Config, s: SaveInfo, n: string, p: string, c1: bool, c2: bool)
    requires p !in SpritesOf(s, n)
    ensures RemoveFromAtlas(cfg, AddToAtlas(cfg, s, n, p, c1).state, n, p, c2).state.atlasMap
      == s.atlasMap[n := SpritesOf(s, n)]
  {
    var before := SpritesOf(s, n);
    var s1 := AddToAtlas(cfg, s, n, p, c1).state;
    assert s1.atlasMap[n] == before + [p];
    var s2 := RemoveFromAtlas(cfg, s1, n, p, c2).state;
    RemoveFirstUndoesAppend(before, p);
    assert s2.atlasMap[n] == before;
    assert s2.atlasMap.Keys == s.atlasMap[n := before].Keys;
  }

  /** Adding an absent path marks the parent atlases as `MarkParentAtlasesDirty`
      does, or reports the throw of their naming; only the selected dirty set
      grows, and only by the atlas itself and the chains' names. */
  lemma AddToAtlasMarksParents(cfg: Config, s: SaveInfo, n: string, p: string, isCreateNew: bool)
    requires p !in SpritesOf(s, n)
    ensures var r := AddToAtlas(cfg, s, n, p, isCreateNew);
      && GrowsDirty(s.(atlasMap := r.state.atlasMap), r.state, isCreateNew)
      && ParentsMarked(cfg, r, p, isCreateNew)
      && Added(s, r.state) <= {n} + ParentNames(cfg, p)
      && AbsorbedPlain(s, r.state)
  {
    var s1 := s.(atlasMap := s.atlasMap[n := SpritesOf(s, n) + [p]]);
    var s2 := MarkDirty(s1, n, isCreateNew);
    AddedThrough(s, s2, MarkParentAtlasesDirty(cfg, s2, p, isCreateNew).state);
    AbsorbedThrough(s, s2, MarkParentAtlasesDirty(cfg, s2, p, isCreateNew).state);
  }

  /** Removing a present path marks the parent atlases as `MarkParentAtlasesDirty`
      does, or reports the throw of their naming; only the selected dirty set
      grows, and only by the atlas itself and the chains' names. */
  lemma RemoveFromAtlasMarksParents(cfg: Config, s: SaveInfo, n: string, p: string, isCreateNew: bool)
    requires p in SpritesOf(s, n)
    ensures var r := RemoveFromAtlas(cfg, s, n, p, isCreateNew);
      && GrowsDirty(s.(atlasMap := r.state.atlasMap), r.state, isCreateNew)
      && ParentsMarked(cfg, r, p, isCreateNew)
      && Added(s, r.state) <= {n} + ParentNames(cfg, p)
      && AbsorbedPlain(s, r.state)
  {
    var s1 := s.(atlasMap := s.atlasMap[n := RemoveFirst(s.atlasMap[n], p)]);
    var s2 := MarkDirty(s1, n, isCreateNew);
    AddedThrough(s, s2, MarkParentAtlasesDirty(cfg, s2, p, isCreateNew).state);
    AbsorbedThrough(s, s2, MarkParentAtlasesDirty(cfg, s2, p, isCreateNew).state);
  }

  /** `ShouldUpdateAtlas`: every dirty atlas is regenerated, whatever its name. */
  function ShouldUpdateAtlas(atlasName: string): (r: bool)
    ensures r
  {
    true
  }

  /** A call of `GenerateAtlas(atlasName, createNew)`; the atlas assets it
      writes are not part of this model. */
  datatype Generation = Generation(atlasName: string, createNew: bool)

  /** `ProcessDirtyAtlases`: drains the plain set, then the create-new set,
      generating each name once per set, in the sets' (unspecified) order. */
  method ProcessDirtyAtlases(s: SaveInfo, force: bool) returns (r: SaveInfo, generated: seq<Generation>)
    ensures r == s.(dirtyAtlasNames := {}, dirtyAtlasNamesNeedCreateNew := {})
    ensures |generated| == |s.dirtyAtlasNames| + |s.dirtyAtlasNamesNeedCreateNew|
    ensures NoDuplicates(generated)
    ensures forall k :: 0 <= k < |s.dirtyAtlasNames| ==>
      !generated[k].createNew && generated[k].atlasName in s.dirtyAtlasNames
    ensures forall k :: |s.dirtyAtlasNames| <= k < |generated| ==>
      generated[k].createNew && generated[k].atlasName in s.dirtyAtlasNamesNeedCreateNew
    ensures forall n :: n in s.dirtyAtlasNames ==> Generation(n, false) in generated
    ensures forall n :: n in s.dirtyAtlasNamesNeedCreateNew ==> Generation(n, true) in generated
  {
    var plain := s.dirtyAtlasNames;
    generated := [];
    while plain != {}
      invariant plain <= s.dirtyAtlasNames
      invariant |generated| + |plain| == |s.dirtyAtlasNames|
      invariant NoDuplicates(generated)
      invariant forall k :: 0 <= k < |generated| ==>
        !generated[k].createNew && generated[k].atlasName in s.dirtyAtlasNames - plain
      invariant forall n :: n in s.dirtyAtlasNames - plain ==> Generation(n, false) in generated
      decreases |plain|
    {
      var name :| name in plain;
      if force || ShouldUpdateAtlas(name) {
        generated := generated + [Generation(name, false)];
      }
      plain := plain - {name};
    }
    var recreate := s.dirtyAtlasNamesNeedCreateNew;
    ghost var split := |generated|;
    while recreate != {}
      invariant recreate <= s.dirtyAtlasNamesNeedCreateNew
      invariant split == |s.dirtyAtlasNames|
      invariant |generated| + |recreate| == split + |s.dirtyAtlasNamesNeedCreateNew|
      invariant NoDuplicates(generated)
      invariant forall k :: 0 <= k < split ==>
        !generated[k].createNew && generated[k].atlasName in s.dirtyAtlasNames
      invariant forall k :: split <= k < |generated| ==>
        generated[k].createNew && generated[k].atlasName in s.dirtyAtlasNamesNeedCreateNew - recreate
      invariant forall n :: n in s.dirtyAtlasNames ==> Generation(n, false) in generated
      invariant forall n :: n in s.dirtyAtlasNamesNeedCreateNew - recreate ==> Generation(n, true) in generated
      decreases |recreate|
    {
      var name :| name in recreate;
      if force || ShouldUpdateAtlas(name) {
        generated := generated + [Generation(name, true)];
      }
      recreate := recreate - {name};
    }
    r := s.(dirtyAtlasNames := {}, dirtyAtlasNamesNeedCreateNew := {});
  }

  /** `ClearCache`: forgets every atlas and every pending regeneration. */
  function ClearCache(s: SaveInfo): (r: SaveInfo)
    ensures forall n :: n !in r.atlasMap && !AwaitsGeneration(r, n, false)
  {
    SaveInfo(map[], {}, {})
  }
}

=== FILE: strings.dfy ===
/** Ordinal string operations of .NET on `seq<char>`, plus the ASCII case folding
    that `ToLower` and `StringComparison.OrdinalIgnoreCase` perform on ASCII text. */
module Strings {

  /** ASCII lower-casing of one character; other characters are left alone. */
  function LowerChar(c: char): (r: char)
    ensures 'A' <= c <= 'Z' ==> 'a' <= r <= 'z' && r as int == c as int + 32
    ensures !('A' <= c <= 'Z') ==> r == c
  {
    if 'A' <= c <= 'Z' then (c as int + 32) as char else c
  }

  function ToLower(s: string): (r: string)
    ensures |r| == |s|
    ensures forall i :: 0 <= i < |s| ==> r[i] == LowerChar(s[i])
  {
    if s == [] then [] else [LowerChar(s[0])] + ToLower(s[1..])
  }

  /** `s.StartsWith(p)` with ordinal comparison. */
  predicate StartsWith(s: string, p: string) {
    |p| <= |s| && s[..|p|] == p
  }

  lemma StartsWithTransitive(s: string, p: string, q: string)
    requires StartsWith(s, p) && StartsWith(p, q)
    ensures StartsWith(s, q)
  {
    assert s[..|q|] == p[..|q|];
  }

  predicate EndsWith(s: string, p: string) {
    |p| <= |s| && s[|s| - |p|..] == p
  }

  /** `sub` occurs in `s` starting at index `i`. */
  predicate OccursAt(s: string, sub: string, i: int) {
    0 <= i && i + |sub| <= |s| && s[i..i + |sub|] == sub
  }

  /** First occurrence of `sub` at or after `k`, or -1. */
  function IndexOfFrom(s: string, sub: string, k: nat): (r: int)
    requires k <= |s|
    ensures r == -1 || (k <= r && OccursAt(s, sub, r))
    ensures r == -1 ==> forall j :: k <= j ==> !OccursAt(s, sub, j)
    ensures r >= 0 ==> forall j :: k <= j < r ==> !OccursAt(s, sub, j)
    decreases |s| - k
  {
    if OccursAt(s, sub, k) then k
    else if k == |s| then -1
    else IndexOfFrom(s, sub, k + 1)
  }

  /** `s.IndexOf(sub, StringComparison.Ordinal)`: the first occurrence, or -1. */
  function IndexOf(s: string, sub: string): (r: int)
    ensures r == -1 <==> forall j :: !OccursAt(s, sub, j)
    ensures r >= 0 ==> OccursAt(s, sub, r) && forall j :: 0 <= j < r ==> !OccursAt(s, sub, j)
  {
    IndexOfFrom(s, sub, 0)
  }

  /** `s.Contains(sub)`, which .NET compares ordinally. */
  predicate Contains(s: string, sub: string) {
    IndexOf(s, sub) >= 0
  }

  /** `s.IndexOf(sub, StringComparison.OrdinalIgnoreCase) >= 0`. */
  predicate ContainsIgnoreCase(s: string, sub: string) {
    Contains(ToLower(s), ToLower(sub))
  }

  /** A string contains, ignoring case, every string it was built around. */
  lemma ContainsIgnoreCaseInfix(pre: string, key: string, post: string)
    ensures ContainsIgnoreCase(pre + key + post, key)
  {
    var s := pre + key + post;
    var low := ToLower(s);
    assert low[|pre|..|pre| + |key|] == ToLower(key) by {
      forall k | 0 <= k < |key|
        ensures low[|pre| + k] == ToLower(key)[k]
      {
        assert s[|pre| + k] == key[k];
      }
    }
    assert OccursAt(low, ToLower(key), |pre|);
    ContainsIffOccurs(low, ToLower(key));
  }

  /** `string.Equals(a, b, StringComparison.OrdinalIgnoreCase)`. */
  predicate EqualsIgnoreCase(a: string, b: string) {
    ToLower(a) == ToLower(b)
  }

  lemma ContainsIffOccurs(s: string, sub: string)
    ensures Contains(s, sub) <==> exists j :: OccursAt(s, sub, j)
  {
  }

  /** Containing a one-character string is containing the character. */
  lemma ContainsChar(s: string, c: char)
    ensures Contains(s, [c]) <==> c in s
  {
    ContainsIffOccurs(s, [c]);
    if c in s {
      var k :| 0 <= k < |s| && s[k] == c;
      assert s[k..k + 1] == [c];
      assert OccursAt(s, [c], k);
    }
    if Contains(s, [c]) {
      var j := IndexOf(s, [c]);
      assert s[j] == s[j..j + 1][0];
    }
  }

  /** The empty string occurs in every string: .NET's `IndexOf("")` is 0. */
  lemma EmptyIsContained(s: string)
    ensures Contains(s, "") && ContainsIgnoreCase(s, "")
  {
    assert OccursAt(s, "", 0);
    assert OccursAt(ToLower(s), ToLower(""), 0);
  }

  /** A character absent from a string is absent from every slice of it. */
  lemma AbsentFromSlice(s: string, c: char, i: int, j: int)
    requires 0 <= i <= j <= |s| && c !in s
    ensures c !in s[i..j]
  {
    forall k | 0 <= k < j - i
      ensures s[i..j][k] != c
    {
      assert s[i..j][k] == s[i + k];
    }
  }

  /** A prefix of a string lacks every character the string lacks. */
  lemma PrefixWithout(s: string, c: char, k: int)
    requires 0 <= k <= |s| && c !in s
    ensures StartsWith(s, s[..k]) && c !in s[..k]
  {
    AbsentFromSlice(s, c, 0, k);
  }

  /** A suffix of a string lacks every character the string lacks. */
  lemma SuffixWithout(s: string, c: char, k: int)
    requires 0 <= k <= |s| && c !in s
    ensures EndsWith(s, s[k..]) && c !in s[k..]
  {
    AbsentFromSlice(s, c, k, |s|);
  }

  /** Index of the last `c` in `s`, or -1. */
  function LastIndexOf(s: string, c: char): (r: int)
    ensures -1 <= r < |s|
    ensures r == -1 <==> c !in s
    ensures r >= 0 ==> s[r] == c && c !in s[r + 1..]
  {
    if s == [] then -1
    else if s[|s| - 1] == c then |s| - 1
    else
      var r := LastIndexOf(s[..|s| - 1], c);
      assert s[..|s| - 1] + [s[|s| - 1]] == s;
      if r >= 0 then assert s[r + 1..] == s[..|s| - 1][r + 1..] + [s[|s| - 1]]; r else r
  }

  /** Index of the first `c` in `s`, or -1. */
  function FirstIndexOf(s: string, c: char): (r: int)
    ensures -1 <= r < |s|
    ensures r == -1 <==> c !in s
    ensures r >= 0 ==> s[r] == c && c !in s[..r]
  {
    if s == [] then -1
    else if s[0] == c then 0
    else
      var r := FirstIndexOf(s[1..], c);
      if r >= 0 then assert s[..r + 1] == [s[0]] + s[1..][..r]; r + 1 else r
  }

  /** Searching for a one-character string finds the first occurrence of the character. */
  lemma IndexOfChar(s: string, c: char)
    ensures IndexOf(s, [c]) == FirstIndexOf(s, c)
  {
    forall j | 0 <= j < |s|
      ensures OccursAt(s, [c], j) <==> s[j] == c
    {
      assert s[j..j + 1] == [s[j]];
    }
    var f := FirstIndexOf(s, c);
    if f >= 0 {
      forall j | 0 <= j < f
        ensures s[j] != c
      {
        assert s[j] == s[..f][j];
      }
    } else {
      forall j | 0 <= j < |s|
        ensures s[j] != c
      {
      }
    }
  }

  /** `s.Replace("\\", "/")`. */
  function NormalizeSlashes(s: string): (r: string)
    ensures |r| == |s|
    ensures '\\' !in r
    ensures forall i :: 0 <= i < |s| && s[i] != '\\' ==> r[i] == s[i]
    ensures forall i :: 0 <= i < |s| && s[i] == '\\' ==> r[i] == '/'
  {
    if s == [] then []
    else [if s[0] == '\\' then '/' else s[0]] + NormalizeSlashes(s[1..])
  }

  /** A path that already uses '/' only is left alone. */
  lemma NormalizeIdentity(s: string)
    requires '\\' !in s
    ensures NormalizeSlashes(s) == s
  {
  }

  /** `s.TrimEnd('/')`. */
  function TrimEndSlashes(s: string): (r: string)
    ensures StartsWith(s, r)
    ensures r == [] || r[|r| - 1] != '/'
    ensures forall i :: |r| <= i < |s| ==> s[i] == '/'
  {
    if s == [] || s[|s| - 1] != '/' then s
    else TrimEndSlashes(s[..|s| - 1])
  }

  /** `string.Join(sep, parts)`. */
  function Join(sep: string, parts: seq<string>): string {
    if parts == [] then ""
    else if |parts| == 1 then parts[0]
    else parts[0] + sep + Join(sep, parts[1..])
  }

  /** `s.Split(sep)`: never empty, no piece holds the separator, and the pieces
      joined back with the separator give `s` again. */
  function Split(s: string, sep: char): (parts: seq<string>)
    ensures |parts| >= 1
    ensures forall i :: 0 <= i < |parts| ==> sep !in parts[i]
    ensures Join([sep], parts) == s
    decreases |s|
  {
    var k := FirstIndexOf(s, sep);
    if k < 0 then [s]
    else
      var rest := Split(s[k + 1..], sep);
      assert s == s[..k] + [sep] + s[k + 1..];
      [s[..k]] + rest
  }

  /** Splitting a joined sequence of separator-free pieces gives the pieces back. */
  lemma {:induction false} SplitJoin(parts: seq<string>, sep: char)
    requires |parts| >= 1
    requires forall i :: 0 <= i < |parts| ==> sep !in parts[i]
    ensures Split(Join([sep], parts), sep) == parts
  {
    if |parts| == 1 {
      assert Join([sep], parts) == parts[0];
    } else {
      var s := Join([sep], parts);
      var tail := Join([sep], parts[1..]);
      assert s == parts[0] + [sep] + tail;
      assert s[|parts[0]|] == sep;
      assert s[..|parts[0]|] == parts[0];
      var k := FirstIndexOf(s, sep);
      assert sep !in s[..|parts[0]|];
      assert k == |parts[0]|;
      assert s[k + 1..] == tail;
      SplitJoin(parts[1..], sep);
    }
  }

  /** Joining `xs + [y]` appends one separator and `y`. */
  lemma {:induction false} JoinSnoc(sep: string, xs: seq<string>, y: string)
    requires |xs| >= 1
    ensures Join(sep, xs + [y]) == Join(sep, xs) + sep + y
  {
    if |xs| == 1 {
      assert xs + [y] == [xs[0], y];
    } else {
      assert (xs + [y])[1..] == xs[1..] + [y];
      JoinSnoc(sep, xs[1..], y);
    }
  }
}

=== FILE: ui_bind.dfy ===
/** The editor-side component list of `UIBindComponent`: components are
    collected once each, in the order they are bound. */
module UIBind {
  import opened Wrappers
  import opened Seqs

  /** `AddComponent`: appends a component not yet listed; a null list stays null. */
  function AddComponent<C(==,!new)>(components: Option<seq<C>>, c: C): (r: Option<seq<C>>)
    ensures components.None? <==> r.None?
    ensures components.Some? ==>
      && c in r.value
      && components.value <= r.value
      && (forall x :: x in r.value <==> x in components.value || x == c)
      && |r.value| == |components.value| + (if c in components.value then 0 else 1)
    ensures components.Some? && NoDuplicates(components.value) ==> NoDuplicates(r.value)
  {
    if components.Some? && c !in components.value then Some(components.value + [c]) else components
  }

  /** `Clear`: empties a list; a null list stays null. */
  function Clear<C>(components: Option<seq<C>>): (r: Option<seq<C>>)
    ensures components.None? <==> r.None?
    ensures r.Some? ==> r.value == []
  {
    if components.None? then None else Some([])
  }

  /** Adding the same component again changes nothing. */
  lemma AddComponentIsIdempotent<C(!new)>(components: Option<seq<C>>, c: C)
    ensures AddComponent(AddComponent(components, c), c) == AddComponent(components, c)
  {
  }

  /** Binding components one after another lists each once, in first-bound order. */
  function AddAll<C(==,!new)>(components: Option<seq<C>>, cs: seq<C>): (r: Option<seq<C>>)
    ensures components.None? <==> r.None?
    ensures components.Some? ==>
      && components.value <= r.value
      && forall x :: x in r.value <==> x in components.value || x in cs
    ensures components.Some? && NoDuplicates(components.value) ==> NoDuplicates(r.value)
    decreases |cs|
  {
    if cs == [] then components
    else
      var r := AddAll(AddComponent(components, cs[0]), cs[1..]);
      assert forall x :: x in cs <==> x == cs[0] || x in cs[1..];
      r
  }

  /** After `Clear`, binding a list of distinct components lists exactly them, in order. */
  lemma {:induction false} ClearThenAddAll<C(!new)>(components: Option<seq<C>>, cs: seq<C>)
    requires components.Some? && NoDuplicates(cs)
    ensures AddAll(Clear(components), cs) == Some(cs)
  {
    assert [] + cs == cs;
    AddAllDistinct([], cs);
  }

  lemma {:induction false} AddAllDistinct<C(!new)>(prefix: seq<C>, cs: seq<C>)
    requires NoDuplicates(prefix + cs)
    ensures AddAll(Some(prefix), cs) == Some(prefix + cs)
    decreases |cs|
  {
    if cs != [] {
      forall i | 0 <= i < |prefix|
        ensures prefix[i] != cs[0]
      {
        assert (prefix + cs)[i] == prefix[i];
        assert (prefix + cs)[|prefix|] == cs[0];
      }
      assert AddComponent(Some(prefix), cs[0]) == Some(prefix + [cs[0]]);
      assert prefix + cs == (prefix + [cs[0]]) + cs[1..];
      AddAllDistinct(prefix + [cs[0]], cs[1..]);
    } else {
      assert prefix + cs == prefix;
    }
  }
}

=== FILE: wrappers.dfy ===
/** Failure-carrying wrappers shared by every module of the model. */
module Wrappers {

  /** A value that may be missing: C#'s `null` for reference types. */
  datatype Option<+T> = None | Some(value: T)

  /** Success or a thrown exception, for operations that change nothing before they throw. */
  datatype Result<+T, +E> = Success(value: T) | Failure(error: E)

  /** The state an operation leaves behind, and whether it ended by throwing.
      State changed before the throw stays changed, as it does in C#. */
  datatype Outcome<+S, +E> = Completed(state: S) | Faulted(state: S, fault: E)
}

/** Sequence facts shared by the list-keeping parts of the model. */
module Seqs {

  predicate NoDuplicates<T(==)>(s: seq<T>) {
    forall i, j :: 0 <= i < j < |s| ==> s[i] != s[j]
  }

  /** `List<T>.Remove(x)`: drops the first occurrence of `x`, if any. */
  function RemoveFirst<T(==)>(s: seq<T>, x: T): (r: seq<T>)
    ensures x !in s ==> r == s
    ensures x in s ==> |r| == |s| - 1
    ensures multiset(r) == multiset(s) - multiset{x}
    ensures forall y :: y in r ==> y in s
  {
    if s == [] then []
    else
      assert s == [s[0]] + s[1..];
      if s[0] == x then s[1..]
      else [s[0]] + RemoveFirst(s[1..], x)
  }

  lemma NoDuplicatesTail<T>(s: seq<T>)
    requires |s| >= 1 && NoDuplicates(s)
    ensures NoDuplicates(s[1..]) && s[0] !in s[1..]
  {
  }

  /** Removing from a list without duplicates keeps it free of duplicates and
      removes every trace of the element. */
  lemma {:induction false} RemoveFirstNoDuplicates<T>(s: seq<T>, x: T)
    requires NoDuplicates(s)
    ensures NoDuplicates(RemoveFirst(s, x))
    ensures x !in RemoveFirst(s, x)
  {
    if s != [] {
      NoDuplicatesTail(s);
      if s[0] != x {
        RemoveFirstNoDuplicates(s[1..], x);
        var r := RemoveFirst(s[1..], x);
        assert RemoveFirst(s, x) == [s[0]] + r;
        assert s[0] !in r;
      }
    }
  }

  /** Removing an element just appended, and absent before, undoes the append. */
  lemma {:induction false} RemoveFirstUndoesAppend<T>(s: seq<T>, x: T)
    requires x !in s
    ensures RemoveFirst(s + [x], x) == s
  {
    if s != [] {
      assert (s + [x])[1..] == s[1..] + [x];
      RemoveFirstUndoesAppend(s[1..], x);
    }
  }

  /** Appending an absent element keeps a list free of duplicates. */
  lemma AppendAbsentNoDuplicates<T>(s: seq<T>, x: T)
    requires NoDuplicates(s) && x !in s
    ensures NoDuplicates(s + [x])
  {
  }
}
